=== FILE: README.md ===
# bitio-rs bit accumulator, modelled in Dafny

This project models the core of `bitio-rs`, a Rust library that reads and
writes bit fields of 1 to 64 bits over byte streams. Two byte orders are
supported. Under big-endian order a stream is read most-significant-bit first,
and under little-endian order least-significant-bit first. It covers:

- `BitReader`: `read_bits`, `peek_bits`, the byte passthrough `read`, and the
  private fill (`put_into_bits_buffer`) and take (`get_from_bits_buffer`);
- `BulkBitReader`: `read_bits` and `peek_bits` of any length, in chunks of 64 bits;
- `BitWriter`: `write_bits`, the byte passthrough `write`, `flush`, and the
  private drains (`write_aligned_bytes_to_inner` and
  `write_residual_partial_byte_to_inner`);
- `FastBitReaderBig` and `FastBitReaderLittle`: `read_bits_fast`;
- the error enum `BitReadWriteError`.

All of them move bits through one 64-bit register plus a count of occupied
bits (module `Accumulator`). The register is a natural below 2^64. Module
`Word` defines the bit operations the code uses. `|` and `&` are defined bit
by bit. `<<`, `>>`, `wrapping_shl` and `as u8` are defined by multiplication,
division and remainder by powers of two, with the result truncated to 64 or
8 bits.

Every correctness statement is phrased in terms of bit sequences (module `BitSeq`):

- `Pending` is the occupied bits in stream order.
- A reader's `Content` is its pending bits followed by the bits of the bytes
  it has not yet pulled from the source. A read returns a prefix of it and
  leaves the rest.
- A writer's `Written` is the bits of the bytes in its sink followed by its
  pending bits. A write appends to it.

Module `RoundTrip` relates the writer and the reader. With the two repairs
described under Findings (the little-endian split in order, the short fill
completed), any valid fields written and flushed are read back as their
values' low bits. The code's own `write_bits` and `read_bits` complete the
same round trip when every field fits the register from its position within
its first byte (`RoundTrip.FitsRegister`: that position plus the width is at
most 64). A plain byte buffer passes through `write` and `read` unchanged. Module `Scenarios` derives several
concrete cases from the crate's test suites out of the general contracts.

Streams are sequences of bytes. The byte source of a reader is the sequence
of bytes it has yet to deliver. The sink of a writer is the sequence of bytes
it has received.

## Model

| member | source | states |
|---|---|---|
| Errors.CheckBitCount | src/reader.rs:121-123 | a bit count is accepted exactly when it lies in 1..=64; a rejected count is reported as `InvalidBitCount` carrying that count |
| Accumulator.Insert | src/writer.rs:128-137 | placing n bits past the occupied ones (`v << (64 - occ - n)` or `v << occ`) keeps the register layout valid, adds n to the count and appends exactly the n bits, in stream order, to the pending bits |
| Accumulator.Extract | src/reader.rs:73-85 | with at least n bits occupied, `reg >> (64 - n)` (big-endian) or `reg & mask` (little-endian) is the number the n oldest pending bits denote |
| Accumulator.Consume | src/reader.rs:86-101 | removing n bits (a shift toward the oldest edge, or clearing the register when n is 64) leaves a valid layout whose pending bits are the old ones without the n oldest |
| Accumulator.EdgeByte | src/writer.rs:42-45 | the byte at the oldest edge carries the eight oldest pending bits, or all pending bits followed by zeros when fewer than eight are occupied |
| Accumulator.ExtractPadded | src/reader.rs:73-85 | asking the register for more bits than it holds yields the held bits followed by zeros |
| Accumulator.ExtractIsPrefix | src/reader.rs:76-82 | the two extraction expressions, `reg >> (64 - n)` under big-endian order and `reg & ((1 << n) - 1)` under little-endian order, give the value of the n oldest pending bits |
| Accumulator.ConsumeIsSuffix | src/reader.rs:86-99 | the shift `reg << n` (big-endian) or `reg >> n` (little-endian), or zero when n is 64, leaves a valid register holding the pending bits after the n oldest |
| Accumulator.EdgeByteBits | src/writer.rs:43-44 | `(reg >> 56) as u8` (big-endian) or `reg as u8` (little-endian) is the byte of the eight oldest pending bits, zero-padded when fewer are held |
| Accumulator.PendingDetermines | src/reader.rs:12-13 | two valid registers with the same count and the same pending bits are equal, so the bit-sequence view loses nothing |
| Reader.New | src/reader.rs:21-28 | a fresh reader's content is exactly the bits of its source |
| Reader.BytesToFill | src/reader.rs:33-38 | the fill never overflows the register; it pulls no byte exactly when n bits are already held or no whole byte fits; otherwise it pulls no more bytes than needed, and reaches n bits unless the register runs out of whole-byte room |
| Reader.FillReachesExactly | src/reader.rs:33-38 | the fill falls short of n bits exactly when the count is not a multiple of eight and n exceeds 56 plus the count modulo 8 |
| Reader.MergeByte | src/reader.rs:49-66 | one pass of the fill loop appends the byte's eight bits to the pending bits in stream order |
| Reader.MergeByteIsInsert | src/reader.rs:49-66 | the code's `buffer | (byte << shift)` with the order's shift and its `min(bits + 8, 64)` count are exactly the insertion of the byte's eight bits after the pending ones |
| Reader.MergeBytes | src/reader.rs:45-67 | the fill loop appends the bits of the bytes read, in order |
| Reader.Fill | src/reader.rs:32-70 | the fill succeeds exactly when the source holds the bytes it asks for; success leaves the content unchanged and raises the count by eight per byte; a short source gives `UnexpectedEof` with the register untouched |
| Reader.GetFromBuffer | src/reader.rs:72-103 | the value of the n oldest buffered bits (followed by zeros when fewer are held); taking removes exactly those bits from the content, peeking changes nothing |
| Reader.ReadBits | src/reader.rs:119-130 | an invalid count fails with `InvalidBitCount` and changes nothing; otherwise the read succeeds exactly when the content holds n bits, returns the value of the next n bits and consumes them; the only other failure is `UnexpectedEof` |
| Reader.PeekBits | src/reader.rs:136-146 | like `read_bits` but the content is unchanged; when the fill cannot reach n bits the value is the bits it reached followed by zeros |
| Reader.ReadBytes | src/reader.rs:150-157 | the buffered bits are dropped, and the bytes returned are the next min(len, available) whole bytes of the source, whose bits follow the dropped ones in the content |
| Reader.ReaderDetermined | src/reader.rs:8-14 | a reader is determined by its order, its count and its content |
| Reader.ReadDefinedWhenAligned | src/reader.rs:33-38 | with a byte-aligned count, or at most 57 bits asked for, the fill reaches n bits and the take cannot underflow |
| Reader.PeekThenRead | src/reader.rs:136-146 | after a successful peek, a read of the same count needs no fill and returns the peeked value, leaving the reader as a direct read would |
| Reader.ReadTwice | src/reader.rs:119-130 | reading a bits then b bits consumes the next a + b bits and fails exactly when fewer remain |
| Reader.ReadTwiceValue | src/reader.rs:119-130 | the two values join into the value of the a + b bits: the first is the high part under big-endian order, the low part under little-endian order |
| Reader.FillStopsShort | src/reader.rs:35-38 | with four bits buffered, the fill for 64 bits stops at 60, so the take of 64 at line 100 underflows |
| Reader.ReadBitsWide | src/reader.rs:119-130 | `read_bits` with the short fill repaired: it equals `read_bits` wherever that is defined, and everywhere returns the next n bits, consumes them, and fails exactly when fewer remain |
| Writer.New | src/writer.rs:20-27 | a fresh writer has written nothing and holds no bits |
| Writer.DrainBytes | src/writer.rs:41-57 | the bytes emitted carry the oldest pending bits, in order, and the count drops by eight per byte |
| Writer.DrainAligned | src/writer.rs:32-60 | the whole pending bytes move to the end of the sink: nothing written is lost or reordered, fewer than eight bits stay pending, and the sink only grows |
| Writer.WriteResidual | src/writer.rs:63-74 | with 1 to 7 bits pending, one byte goes to the sink whose bits are those bits followed by zero padding, and the register is cleared; otherwise nothing changes |
| Writer.Flush | src/writer.rs:96-100 | afterwards the sink's bits are everything written followed by zero padding to a whole byte, and a byte is added exactly when bits were pending |
| Writer.SplitValue | src/writer.rs:123-141 | the two parts a value is cut into fit their widths, and a value that fits is inserted whole |
| Writer.SplitValueBits | src/writer.rs:126-141 | under the stream order the two parts' bits are the value's bits; the code's high-part-first cut matches that only under big-endian order |
| Writer.InsertRound | src/writer.rs:123-147 | one round appends the part's k bits to what has been written, and drains when a byte is complete or the round is the last |
| Writer.InsertRounds | src/writer.rs:122-148 | the insertion loop appends the bits its split rule yields and leaves fewer than eight bits pending |
| Writer.WriteBits | src/writer.rs:112-151 | `write_bits` with the little-endian split repaired: an invalid count fails with `InvalidBitCount` and changes nothing; otherwise the n low bits of the value are appended in the writer's order and fewer than eight bits stay pending |
| Writer.WriteBitsAsWritten | src/writer.rs:112-151 | `write_bits` as the code stands: the same error on an invalid count, success otherwise, fewer than eight bits left pending |
| Writer.AsWrittenBits | src/writer.rs:122-142 | what the code appends: the n low bits of the value when they fit or under big-endian order; under little-endian order, when they do not fit, the high part's bits come before the low part's |
| Writer.AsWrittenAgrees | src/writer.rs:112-151 | under big-endian order, or whenever the bits fit, the code's `write_bits` is the repaired one |
| Writer.LittleEndianSplitMisorders | src/writer.rs:126-133 | under little-endian order with 1 to 7 bits pending, `write_bits(1, 64)` as written puts a zero where the stream needs the value's lowest bit, a one |
| Writer.WriteBitsLowBits | src/writer.rs:119-120 | only the n low bits of the value affect `write_bits` |
| Writer.WriteEach | src/writer.rs:89-91 | writing the bytes one by one through the code's `write_bits(b, 8)` appends their bits in order |
| Writer.Write | src/writer.rs:78-94 | `write` appends the buffer's bits to what has been written and reports the whole length; when nothing is left pending after the drain, the buffer reaches the sink unchanged |
| Writer.WrittenDetermines | src/writer.rs:7-13 | with fewer than eight bits pending, a writer is determined by its order and what has been written to it |
| Bulk.ChunkWidth | src/reader.rs:190 | every chunk takes 1 to 64 bits and no chunk passes the end of the request |
| Bulk.ReadChunks | src/reader.rs:189-193 | the chunk loop succeeds exactly when the content holds the remaining bits, returns them in 64-bit chunks and consumes them; the only failure is `UnexpectedEof` |
| Bulk.AfterFullChunk | src/reader.rs:189-193 | after a full 64-bit chunk the register is empty, so no later chunk read can underflow |
| Bulk.BulkReadBits | src/reader.rs:183-195 | a request for 0 bits fails with `InvalidBitCount(0)`; otherwise it succeeds exactly when the content holds n bits, and then returns the next n bits in chunks and consumes them |
| Bulk.PeekChunks | src/reader.rs:207-211 | the peek loop leaves the content unchanged and returns one value per chunk |
| Bulk.BulkPeekBits | src/reader.rs:201-213 | `peek_bits` as the code stands: zero is rejected, the content is unchanged, and there is one value per chunk |
| Bulk.BulkPeekValues | src/reader.rs:201-213 | each chunk of the bulk peek is the first bits of the content, of that chunk's width, rather than the bits at its offset |
| Bulk.BulkPeekRepeats | src/reader.rs:207-211 | a peek of 128 bits returns the first 64 bits twice |
| Bulk.BulkPeekDiffers | src/reader.rs:201-213 | whenever bits 64..128 differ from bits 0..64, the 128-bit peek differs from the chunks a read would return |
| Bulk.BulkPeekBitsIntended | src/traits.rs:13-14 | the next n bits without consuming them: the reader is unchanged, the request succeeds exactly when the content holds n bits, and the chunks are those `read_bits` returns |
| Fast.New | src/fast/reader.rs:24-31 | a fresh fast reader's content is the bits of its source, under either order |
| Fast.RoundBytes | src/fast/reader.rs:41-43 | a round reads 1 to 8 bytes: the standard fill's count while a byte fits, and one byte otherwise |
| Fast.AssembleBig | src/fast/reader.rs:47-50 | the assembled word is the big-endian value of the bytes read |
| Fast.AssembleLittle | src/fast/reader.rs:116-119 | the assembled word is the little-endian value of the bytes read |
| Fast.BigRound | src/fast/reader.rs:40-56 | a big-endian round with room for its bytes succeeds exactly when the source holds them, and leaves the content unchanged |
| Fast.BigFill | src/fast/reader.rs:40-56 | where the shift at line 53 cannot underflow, the big-endian fill succeeds exactly when the standard fill does and then keeps the content; when the source runs out first, `read_exact` fails with `UnexpectedEof` and the bits read so far stay buffered |
| Fast.ReadBitsFastBig | src/fast/reader.rs:35-67 | an invalid count fails with `InvalidBitCount`; otherwise, where the shift cannot underflow, the read succeeds exactly when the content holds n bits, returns the next n bits and consumes them, and a source that runs out during the fill gives `UnexpectedEof` |
| Fast.BigEofAfterShortFill | src/fast/reader.rs:40-53 | with 4 bits available and 7 bytes left, `read_bits_fast(64)` reads all 7 bytes, reaches 60 bits, and fails at the next `read_exact` with `UnexpectedEof` before the shift is computed |
| Fast.BigTake | src/fast/reader.rs:58-65 | `buffer >> (64 - n)` is the n oldest bits and the shifted register holds the rest |
| Fast.FastBigIsReadBits | src/fast/reader.rs:35-67 | where the shift cannot underflow, the big-endian fast read returns what `BitReader::read_bits` returns (an error up to its `io::ErrorKind`) and leaves the same state |
| Fast.LittleRound | src/fast/reader.rs:109-124 | a little-endian round succeeds exactly when the source holds its bytes; when its bits go past bit 63, they are counted but read back as zeros |
| Fast.LittleFill | src/fast/reader.rs:109-124 | without an overfill, the little-endian fill is the standard fill; with one, it ends at 64 + available % 8 bits, and the last available % 8 of them are zeros |
| Fast.LittleTake | src/fast/reader.rs:126-134 | `buffer & mask` is the n oldest bits and the shifted register holds the rest |
| Fast.ReadBitsFastLittle | src/fast/reader.rs:104-136 | the read succeeds exactly when the content holds n bits and always returns the next n bits; the content left is the rest, except after an overfill, which leaves zeros in place of the available % 8 bits following the first 64 |
| Fast.LittleFillSucceeds | src/fast/reader.rs:109-124 | the little-endian fill fails exactly when the content is shorter than the read |
| Fast.LittleReadShortRound | src/fast/reader.rs:113 | a first round with too few bytes in the source fails the read with `UnexpectedEof` |
| Fast.FastLittleIsReadBits | src/fast/reader.rs:104-136 | where the standard reader is defined, the little-endian fast read returns what `BitReader::read_bits` returns (an error up to its `io::ErrorKind`) and leaves the same state |
| Fast.LittleOverfillReadsZeros | src/fast/reader.rs:121-123 | an overfilling 64-bit read returns the right value, but the next read of available % 8 bits returns 0 in place of the stream's bits |
| Fast.FastLittleMatchesWide | src/fast/reader.rs:104-136 | the little-endian fast read and the repaired standard read agree on success and on the value on every input, and agree on the content left unless the read overfills |
| RoundTrip.WriteFields | src/writer.rs:112-151 | a sequence of repaired `write_bits` calls succeeds exactly when every count is valid, and then appends each field's low bits in order |
| RoundTrip.Encode | src/writer.rs:96-100 | the bytes a fresh repaired writer produces for the fields, after `flush`, carry the fields' bits followed by zero padding to a whole byte |
| RoundTrip.ReadFieldsDecodes | src/reader.rs:119-130 | a sequence of repaired reads returns the reference decoding of the content, fails as it does, and leaves the content after the fields |
| RoundTrip.DecodeFieldBits | src/reader.rs:119-130 | decoding the fields' bits, whatever follows them, gives each field's low bits |
| RoundTrip.EncodeThenRead | src/writer.rs:112-151 | fields written by a fresh repaired writer and flushed are read back by a fresh repaired reader over the bytes as their values' low bits, under either order |
| RoundTrip.BytesRoundTrip | src/writer.rs:82-86 | `write` on a fresh writer hands the buffer to the sink unchanged, and `read` of the same length on a fresh reader over those bytes returns it |
| RoundTrip.WriteFieldsAsWritten | src/writer.rs:112-151 | a sequence of the code's `write_bits` calls succeeds exactly when every count is valid, and leaves fewer than 8 bits pending |
| RoundTrip.WriteFieldsAgree | src/writer.rs:122-142 | when every field fits the register from its bit position within its byte, the code's writes give the same result and state as the repaired ones |
| RoundTrip.EncodeAsWritten | src/writer.rs:96-100 | for valid fields that fit the register, the code's writer produces, after `flush`, the same bytes as the repaired one: the fields' bits followed by zero padding |
| RoundTrip.PhaseReaches | src/reader.rs:33-38 | for a valid count, the fill's byte cap still reaches n bits exactly when the next bit's position within its byte plus n is at most 64 |
| RoundTrip.ReadStep | src/reader.rs:119-130 | a field that fits the register is read by the code's `read_bits` without reaching the underflow, with the repaired read's result, and the remaining fields still fit afterwards |
| RoundTrip.ReadFieldsAsWritten | src/reader.rs:119-130 | a sequence of the code's `read_bits` calls over fields that fit the register gives the same result and state as the repaired reads |
| RoundTrip.EncodeThenReadAsWritten | src/reader.rs:119-130 | valid fields that fit the register, written by the code's writer and flushed, are read back by the code's reader over the bytes as their values' low bits, under either order |
| Scenarios.NibblesBigEndian | tests/writer.rs:9-17 | writing 0b1010 and 0b1100 in 4 bits each, big-endian, then flushing gives the single byte 0xAC, with the code's `write_bits` as with the repaired one |
| Scenarios.NibblesLittleEndian | tests/writer.rs:20-28 | the same writes under little-endian order give 0xCA, with the code's `write_bits` as with the repaired one |
| Scenarios.MixedWrites | tests/writer.rs:31-41 | 0xFF in 8 bits, then bytes 11 22 33 through `write`, then 0b101 in 3 bits, then flushing gives FF 11 22 33 A0, with the code's `write_bits` as with the repaired one |
| Scenarios.PartialBytePadded | tests/writer.rs:55-62 | three one-bits flushed alone give 0xE0, with the code's `write_bits` as with the repaired one |
| Scenarios.CrossByteRead | tests/reader.rs:30-35 | over CC AA, big-endian, reading 3 bits gives 0b110, then reading 10 bits gives 0b0110010101 |

## Left out

- The `Read` and `Write` traits, and the `BufReader` and `BufWriter` around the inner stream, are not modelled. A source is the sequence of bytes it will deliver, and a sink is the sequence it has received.
- Errors raised by the inner stream are not modelled. A sink never fails, and `write_all`, `flush` and `inner.write` take every byte.
- `Writer.Write`: `inner.write(buf)` at writer.rs:84 can accept fewer bytes than given while `write` still reports `buf.len()`. The model hands the whole buffer to the sink.
- `BitReader` reads through its own `BufReader` (reader.rs:10, 24). A reader's source stands for that `BufReader` as if its `read` always returned every byte asked for while any remain, so in the model a short read during a fill (reader.rs:42) happens only at the end of the source. The real `BufReader::read` returns only what is left in its 8 KiB buffer once the buffer holds data. So over any inner stream longer than that capacity (a `Cursor` or a `File` as much as a pipe), a fill of two or more bytes that straddles a refill boundary gets a short read. Line 42 then reports `UnexpectedEof` while bytes remain, against the doc at reader.rs:117-118. For example, big-endian `read_bits(24)` repeated over 9000 zero bytes: the 2731st fill asks for 3 bytes when 2 are left in the buffer, and fails with 810 bytes still undelivered. In the model, `Reader.ReadBits` succeeds there. A short read at the end of the source and a failing `read_exact` (fast/reader.rs:45, 113) are modelled as using up the rest of the source. How many bytes the real stream consumed in that case is not specified.
- The sink's own flush (writer.rs:99) and the `Drop` impl (writer.rs:103-108) are not modelled. `Drop` repeats the residual write and ignores its errors.
- `Display`, `Error` and the conversion into `std::io::Error` (error.rs:10-30) are left out. The conversion gives every library error the kind `ErrorKind::Other`, with the variant only in the message. The model keeps the variant instead. The fast readers' `read_exact` errors have kind `ErrorKind::UnexpectedEof`; the model gives them the variant `UnexpectedEof`, so it does not distinguish the two kinds a caller can test with `kind()`. `UnalignedAccess` is declared but never raised by the core.
- `read_bool` and `peek_bool` from traits.rs, `PeekableBitReader`, the byte-order module, the benches and the examples are not part of this model.
- Reader.ReadBits: requires `ReadDefined`. It does not model the `usize` underflow at reader.rs:100, which panics in debug builds and wraps in release builds. See the short-fill finding. `Reader.ReadBitsWide` is total.
- Fast.ReadBitsFastBig: requires `BigDefined`, which excludes exactly the inputs whose shift `64 - bits_available - new_bits` at fast/reader.rs:53 underflows. Those are the inputs of the short-fill finding where the source still holds the extra byte the last round reads. When it does not, the read ends in `UnexpectedEof` at line 45, and that case is modelled.
- RoundTrip.WriteFields: built on the repaired `Writer.WriteBits`. The code's writes are stated by `RoundTrip.WriteFieldsAsWritten` and are proved to agree with it under `RoundTrip.FitsRegister` (`RoundTrip.WriteFieldsAgree`); outside it, little-endian writes misorder bits (`Writer.LittleEndianSplitMisorders`).
- RoundTrip.Encode: built on the repaired writer. The code's bytes are stated by `RoundTrip.EncodeAsWritten`, and are proved equal to these under `RoundTrip.FitsRegister`.
- RoundTrip.ReadFieldsDecodes: built on the repaired `Reader.ReadBitsWide`. The code's reads are stated by `RoundTrip.ReadFieldsAsWritten`, which requires `RoundTrip.FitsRegister`; outside it they can reach the underflow at reader.rs:100 (`Reader.FillStopsShort`).
- RoundTrip.EncodeThenRead: the round trip of the repaired writer and reader. The round trip of the code's own functions is `RoundTrip.EncodeThenReadAsWritten`, for fields that satisfy `RoundTrip.FitsRegister`.
- Fast.FastBigIsReadBits: the equality of results holds modulo the error's kind: the fast reader's end of stream has kind `ErrorKind::UnexpectedEof`, `BitReader`'s has kind `ErrorKind::Other`. It also holds only for the model's source. The fast reader calls `read_exact` on the raw stream, with no `BufReader`. `BitReader` reads through a `BufReader` whose `read` returns short at a refill boundary. So over any stream longer than 8 KiB, a fill that straddles that boundary makes `BitReader` fail at reader.rs:42 where the fast reader succeeds.
- Fast.FastLittleIsReadBits: the same two limits as `Fast.FastBigIsReadBits`. The results are equal only modulo the error's kind. They are equal only where `BitReader`'s own `BufReader` does not return short: over any stream longer than its 8 KiB buffer, a fill straddling a refill boundary fails at reader.rs:42 where `read_exact` succeeds.
- Bulk.BulkReadBits: requires `BulkDefined`, meaning the first chunk's read does not hit that underflow. Every later chunk starts byte-aligned (`Bulk.AfterFullChunk`).
- Writer.WriteBits: requires fewer than 64 bits pending. This always holds between calls, because every call leaves fewer than eight.

## Findings

| source | as written | input that shows it | evidently intended | confidence | as-written member | corrected member |
|---|---|---|---|---|---|---|
| src/writer.rs:126-133 | when the bits do not fit, the first round inserts the high part (`val >> insert_at_next_round`), under both orders | little-endian writer with 3 bits pending, then `write_bits(1, 64)`: the fourth bit written is 0, while the stream needs the value's lowest bit, 1 | under little-endian order the low part goes first, so the stream carries the value's bits in order | high, not executed | Writer.WriteBitsAsWritten (Writer.LittleEndianSplitMisorders) | Writer.WriteBits (Writer.AsWrittenAgrees) |
| src/reader.rs:35-38 | the fill is capped at the whole bytes that fit, so with a count that is not a multiple of eight it can stop short of n; the take then subtracts n from the smaller count (line 100) | `read_bits(4)` then `read_bits(64)` over at least 8 bytes: the fill stops at 60 bits and `bits_in_buffer -= 64` underflows | the read returns the next 64 bits, taking the buffered residue first | high, not executed | Reader.ReadBits (Reader.FillStopsShort) | Reader.ReadBitsWide |
| src/reader.rs:207-211 | every chunk calls `peek_bits(take)` on the same inner reader, and nothing advances it between chunks | `peek_bits(128)` over 16 bytes whose first 8 differ from the last 8: both chunks are the first 8 bytes | the next n bits in the chunks `read_bits` would return | high, not executed | Bulk.BulkPeekBits (Bulk.BulkPeekRepeats, Bulk.BulkPeekDiffers) | Bulk.BulkPeekBitsIntended |
| src/fast/reader.rs:109-123 | with more than 56 bits available and n out of reach, a round reads one byte and shifts it past bit 63; the count rises by 8 while the register drops the byte's high bits | little-endian fast reader over nine 0xFF bytes, with `read_bits_fast(4)`, then `read_bits_fast(64)`, then `read_bits_fast(4)`: the last read returns 0 instead of 0xF | every bit read from the source is delivered once, as the standard reader's repaired read does | high, not executed | Fast.ReadBitsFastLittle (Fast.LittleOverfillReadsZeros) | Reader.ReadBitsWide (Fast.FastLittleMatchesWide) |

=== FILE: accumulator.dfy ===
/**
 * The bit accumulator shared by the reader, the writer and the fast readers:
 * a 64-bit register plus the number of its bits that are occupied.
 *
 * Under big-endian order the occupied bits sit at the top of the register,
 * oldest bit in bit 63, and everything below them is zero; new bits go just
 * below the occupied ones and bits leave from the top. Under little-endian
 * order they sit at the bottom, oldest bit in bit 0, and everything above
 * them is zero; new bits go just above the occupied ones and bits leave from
 * the bottom. `Pending` reads the occupied bits out in stream order; it is the
 * abstraction every correctness statement in this project is phrased in.
 */
module Accumulator {
  import opened Word
  import opened BitSeq

  /** `bits_buffer` and `bits_in_buffer` (`buffer` and `bits_available` in the fast readers). */
  datatype Acc = Acc(register: u64, occupancy: nat)

  const Empty: Acc := Acc(0, 0)

  /** The register layout described above, for order `o`. */
  predicate Valid(o: ByteOrder, a: Acc)
  {
    && a.occupancy <= WORD_BITS
    && match o
       case BigEndian => a.register % Pow2(WORD_BITS - a.occupancy) == 0
       case LittleEndian => a.register < Pow2(a.occupancy)
  }

  /** The occupied bits, oldest first. */
  function Pending(o: ByteOrder, a: Acc): (bs: seq<bool>)
    requires a.occupancy <= WORD_BITS
    ensures |bs| == a.occupancy
  {
    match o
    case BigEndian => Msb(Above(a.register, WORD_BITS - a.occupancy), a.occupancy)
    case LittleEndian => Lsb(a.register, a.occupancy)
  }

  /**
   * Places the n low bits of v just past the occupied bits: `reg |= v << (64 - occ - n)`
   * under big-endian order, `reg |= v << occ` under little-endian order.
   */
  function Insert(o: ByteOrder, a: Acc, v: u64, n: nat): (r: Acc)
    requires Valid(o, a) && v < Pow2(n) && 1 <= n && a.occupancy + n <= WORD_BITS
    ensures Valid(o, r) && r.occupancy == a.occupancy + n
    ensures Pending(o, r) == Pending(o, a) + ToBits(o, v, n)
  {
    match o
    case BigEndian =>
      var k := a.occupancy + n;
      var s := WORD_BITS - k;
      InsertBigEndian(a, v, n, s, k);
      Acc(Or(a.register, Shl(v, s)), k)
    case LittleEndian =>
      var k := a.occupancy + n;
      InsertLittleEndian(a, v, n, k);
      Acc(Or(a.register, Shl(v, a.occupancy)), k)
  }

  /**
   * The n oldest occupied bits, without removing them: the top n bits
   * (`reg >> (64 - n)`) or the low n bits (`reg & mask`).
   */
  function Extract(o: ByteOrder, a: Acc, n: nat): (v: u64)
    requires 1 <= n <= WORD_BITS
    ensures Valid(o, a) && n <= a.occupancy ==> v == Value(o, Pending(o, a)[..n])
  {
    ExtractWhenValid(o, a, n);
    match o
    case BigEndian => Shr(a.register, WORD_BITS - n)
    case LittleEndian =>
      LowMaskBound(a.register, n);
      And(a.register, Mask(n))
  }

  lemma {:induction false} LowMaskBound(x: nat, n: nat)
    requires n <= WORD_BITS
    ensures And(x, Mask(n)) == x % Pow2(n) < U64_LIMIT
  {
    MaskValue(n);
    AndLowMask(x, n);
    Pow2Mono(n, WORD_BITS);
    Pow2Limit();
  }

  /**
   * Removes the n oldest occupied bits: shifts them out toward the oldest
   * edge, clearing the whole register when n == 64.
   */
  function Consume(o: ByteOrder, a: Acc, n: nat): (r: Acc)
    requires Valid(o, a) && 1 <= n <= a.occupancy
    ensures Valid(o, r) && r.occupancy == a.occupancy - n
    ensures Pending(o, r) == Pending(o, a)[n..]
  {
    var reg := if n == WORD_BITS then 0
      else match o
        case BigEndian => Shl(a.register, n)
        case LittleEndian => Shr(a.register, n);
    ConsumeIsSuffix(o, a, n);
    Acc(reg, a.occupancy - n)
  }

  /** The byte at the oldest edge: `(reg >> 56) as u8` or `reg as u8`. */
  function EdgeByte(o: ByteOrder, a: Acc): (b: byte)
    requires Valid(o, a)
    ensures a.occupancy >= 8 ==> ByteBits(o, b) == Pending(o, a)[..8]
    ensures a.occupancy < 8 ==> ByteBits(o, b) == Pending(o, a) + Zeros(8 - a.occupancy)
  {
    var b := match o
      case BigEndian => Truncate8(Shr(a.register, WORD_BITS - 8))
      case LittleEndian => Truncate8(a.register);
    EdgeByteBits(o, a, b);
    b
  }

  // ---------------------------------------------------------------------
  // Facts about the layout
  // ---------------------------------------------------------------------

  lemma EmptyValid(o: ByteOrder)
    ensures Valid(o, Empty) && Pending(o, Empty) == []
  {
    assert Pow2(0) == 1;
  }

  /** An accumulator with nothing occupied has a zero register. */
  lemma {:induction false} NothingOccupied(o: ByteOrder, a: Acc)
    requires Valid(o, a) && a.occupancy == 0
    ensures a == Empty
  {
    Pow2Limit();
    if o.BigEndian? {
      DivModUnique(a.register, Pow2(WORD_BITS), 0, a.register);
    }
  }

  /** The top occupied bits, as a number, under big-endian order. */
  lemma {:induction false} BigEndianLayout(a: Acc)
    requires Valid(BigEndian, a)
    ensures Above(a.register, WORD_BITS - a.occupancy) < Pow2(a.occupancy)
    ensures a.register == Above(a.register, WORD_BITS - a.occupancy) * Pow2(WORD_BITS - a.occupancy)
  {
    var s := WORD_BITS - a.occupancy;
    Pow2Limit();
    Pow2Add(s, a.occupancy, WORD_BITS);
    AboveBound(a.register, s, a.occupancy);
    AboveSplit(a.register, s);
  }

  /** Two valid accumulators holding the same pending bits are equal. */
  lemma {:induction false} PendingDetermines(o: ByteOrder, a: Acc, b: Acc)
    requires Valid(o, a) && Valid(o, b) && a.occupancy == b.occupancy
    requires Pending(o, a) == Pending(o, b)
    ensures a == b
  {
    var k := a.occupancy;
    match o
    case BigEndian =>
      BigEndianLayout(a);
      BigEndianLayout(b);
      var s := WORD_BITS - k;
      ValMsbOfMsb(Above(a.register, s), k);
      ValMsbOfMsb(Above(b.register, s), k);
      SmallMod(Above(a.register, s), k);
      SmallMod(Above(b.register, s), k);
    case LittleEndian =>
      ValLsbOfLsb(a.register, k);
      ValLsbOfLsb(b.register, k);
      SmallMod(a.register, k);
      SmallMod(b.register, k);
  }

  // ---------------------------------------------------------------------
  // Insertion
  // ---------------------------------------------------------------------

  lemma {:induction false} InsertBigEndian(a: Acc, v: u64, n: nat, s: nat, k: nat)
    requires Valid(BigEndian, a) && v < Pow2(n) && 1 <= n
    requires a.occupancy + n == k && k + s == WORD_BITS
    ensures var r := Or(a.register, Shl(v, s));
      && r < U64_LIMIT
      && Valid(BigEndian, Acc(r, k))
      && Pending(BigEndian, Acc(r, k)) == Pending(BigEndian, a) + Msb(v, n)
  {
    var occ := a.occupancy;
    var e := WORD_BITS - occ;   // zero bits below the occupied ones
    var p := Above(a.register, e);
    BigEndianLayout(a);
    Pow2Add(n, s, e);
    Pow2Add(occ, n, k);
    // r == (p * 2^n + v) * 2^s
    var p' := p * Pow2(n) + v;
    var shifted := Shl(v, s);
    ShlNoOverflow(v, s, n, e);
    PlaceBelow(a.register, p, v, p', shifted, Pow2(occ), Pow2(n), Pow2(s), Pow2(e));
    OrDisjoint(a.register, shifted, e);
    var r := Or(a.register, shifted);
    assert r == p' * Pow2(s);
    FromLayout(r, p', k, s);
    MsbConcat(p, v, occ, n, p', k);
  }

  /** A k-bit number t shifted to the top of the register is a valid big-endian layout of Msb(t, k). */
  lemma {:induction false} FromLayout(r: int, t: nat, k: nat, z: nat)
    requires k + z == WORD_BITS && t < Pow2(k) && r == t * Pow2(z)
    ensures 0 <= r < U64_LIMIT
    ensures Valid(BigEndian, Acc(r, k)) && Pending(BigEndian, Acc(r, k)) == Msb(t, k)
  {
    MulPow2Bound(t, k, z, WORD_BITS);
    Pow2Limit();
    MulDivExact(t, Pow2(z));
  }

  /** Placing v below p, then shifting both up by s, in terms of the powers involved. */
  lemma {:induction false} PlaceBelow(reg: int, p: int, v: int, p': int, shifted: int, po: int, pn: int, ps: int, pe: int)
    requires 0 <= p < po && 0 <= v < pn && ps > 0 && pe == pn * ps && reg == p * pe
    requires p' == p * pn + v && shifted == v * ps
    ensures reg + shifted == p' * ps
    ensures 0 <= p' < po * pn
    ensures 0 <= shifted < pe
  {
    MulAssoc(p, pn, ps);
    MulDistrib(p * pn, v, ps);
    ConcatBound(p, v, po, pn);
    MulLeRight(v + 1, pn, ps);
    MulNonneg(v, ps);
  }

  lemma {:induction false} InsertLittleEndian(a: Acc, v: u64, n: nat, k: nat)
    requires Valid(LittleEndian, a) && v < Pow2(n) && 1 <= n && a.occupancy + n == k <= WORD_BITS
    ensures var r := Or(a.register, Shl(v, a.occupancy));
      && r < U64_LIMIT
      && Valid(LittleEndian, Acc(r, k))
      && Pending(LittleEndian, Acc(r, k)) == Pending(LittleEndian, a) + Lsb(v, n)
  {
    var occ := a.occupancy;
    var shifted := Shl(v, occ);
    ShlNoOverflow(v, occ, n, k);
    MulDivExact(v, Pow2(occ));
    OrDisjoint(shifted, a.register, occ);
    var r := Or(a.register, shifted);
    assert r == v * Pow2(occ) + a.register;
    ConcatBound(v, a.register, Pow2(n), Pow2(occ));
    Pow2Add(n, occ, k);
    assert r < Pow2(k);
    Pow2Mono(k, WORD_BITS);
    Pow2Limit();
    LsbConcat(a.register, v, occ, n, r, k);
  }

  // ---------------------------------------------------------------------
  // Extraction and consumption
  // ---------------------------------------------------------------------

  lemma ExtractWhenValid(o: ByteOrder, a: Acc, n: nat)
    requires 1 <= n <= WORD_BITS
    ensures Valid(o, a) && n <= a.occupancy && o.BigEndian? ==>
      Shr(a.register, WORD_BITS - n) == Value(o, Pending(o, a)[..n])
    ensures Valid(o, a) && n <= a.occupancy && o.LittleEndian? ==>
      And(a.register, Mask(n)) == Value(o, Pending(o, a)[..n])
  {
    if Valid(o, a) && n <= a.occupancy {
      ExtractIsPrefix(o, a, n);
    }
  }

  lemma {:induction false} ExtractIsPrefix(o: ByteOrder, a: Acc, n: nat)
    requires Valid(o, a) && 1 <= n <= a.occupancy
    ensures o.BigEndian? ==> Shr(a.register, WORD_BITS - n) == Value(o, Pending(o, a)[..n])
    ensures o.LittleEndian? ==> And(a.register, Mask(n)) == Value(o, Pending(o, a)[..n])
  {
    match o
    case BigEndian => ExtractTop(a, n);
    case LittleEndian => ExtractBottom(a, n);
  }

  lemma {:induction false} ExtractTop(a: Acc, n: nat)
    requires Valid(BigEndian, a) && 1 <= n <= a.occupancy
    ensures Shr(a.register, WORD_BITS - n) == Value(BigEndian, Pending(BigEndian, a)[..n])
  {
    var occ := a.occupancy;
    var p := Above(a.register, WORD_BITS - occ);
    BigEndianLayout(a);
    DivPow2Add(a.register, WORD_BITS - occ, occ - n);
    assert Shr(a.register, WORD_BITS - n) == Above(p, occ - n);
    MsbSplit(p, n, occ - n);
    assert Pending(BigEndian, a)[..n] == Msb(Above(p, occ - n), n);
    ValMsbOfMsb(Above(p, occ - n), n);
    AboveBound(p, occ - n, n);
    SmallMod(Above(p, occ - n), n);
  }

  lemma {:induction false} ExtractBottom(a: Acc, n: nat)
    requires Valid(LittleEndian, a) && 1 <= n <= a.occupancy
    ensures And(a.register, Mask(n)) == Value(LittleEndian, Pending(LittleEndian, a)[..n])
  {
    MaskValue(n);
    AndLowMask(a.register, n);
    LsbSplit(a.register, n, a.occupancy - n);
    assert Pending(LittleEndian, a)[..n] == Lsb(a.register, n);
    ValLsbOfLsb(a.register, n);
  }

  lemma {:induction false} ConsumeIsSuffix(o: ByteOrder, a: Acc, n: nat)
    requires Valid(o, a) && 1 <= n <= a.occupancy
    ensures var reg := if n == WORD_BITS then 0
        else match o
          case BigEndian => Shl(a.register, n)
          case LittleEndian => Shr(a.register, n);
      && Valid(o, Acc(reg, a.occupancy - n))
      && Pending(o, Acc(reg, a.occupancy - n)) == Pending(o, a)[n..]
  {
    var occ := a.occupancy;
    if n == WORD_BITS {
      EmptyValid(o);
    } else {
      match o
      case BigEndian => ConsumeBigEndian(a, n);
      case LittleEndian =>
        var reg := Shr(a.register, n);
        LsbSplit(a.register, n, occ - n);
        Pow2Add(n, occ - n, occ);
        AboveBound(a.register, n, occ - n);
    }
  }

  lemma {:induction false} ConsumeBigEndian(a: Acc, n: nat)
    requires Valid(BigEndian, a) && 1 <= n <= a.occupancy && n < WORD_BITS
    ensures Valid(BigEndian, Acc(Shl(a.register, n), a.occupancy - n))
    ensures Pending(BigEndian, Acc(Shl(a.register, n), a.occupancy - n)) == Pending(BigEndian, a)[n..]
  {
    var occ := a.occupancy;
    var k := occ - n;          // bits left
    var s := WORD_BITS - occ;  // zero bits below the occupied ones
    var p := Above(a.register, s);
    BigEndianLayout(a);
    var q, rest := Above(p, k), p % Pow2(k);
    AboveSplit(p, k);
    // reg * 2^n == p * 2^(s + n), whose remainder modulo 2^64 is rest * 2^(s + n)
    var sn := s + n;
    var t := Pow2(sn);
    Pow2Add(s, n, sn);
    MulAssoc(p, Pow2(s), Pow2(n));
    Pow2Add(k, sn, WORD_BITS);
    ScaledRemainder(p, q, rest, Pow2(k), t, Pow2(WORD_BITS));
    var reg := Shl(a.register, n);
    assert reg == rest * t;
    FromLayout(reg, rest, k, sn);
    assert Pending(BigEndian, a) == Msb(p, occ);
    MsbDrop(p, n, k, occ);
  }

  /** The edge byte is the eight oldest bits, padded with zeros when fewer are occupied. */
  lemma {:induction false} EdgeByteBits(o: ByteOrder, a: Acc, b: byte)
    requires Valid(o, a)
    requires b == match o
      case BigEndian => Truncate8(Shr(a.register, WORD_BITS - 8))
      case LittleEndian => Truncate8(a.register)
    ensures a.occupancy >= 8 ==> ByteBits(o, b) == Pending(o, a)[..8]
    ensures a.occupancy < 8 ==> ByteBits(o, b) == Pending(o, a) + Zeros(8 - a.occupancy)
  {
    Pow2Limit();
    if a.occupancy >= 8 {
      ExtractIsPrefix(o, a, 8);
      if o.BigEndian? {
        AboveBound(a.register, WORD_BITS - 8, 8);
        SmallMod(Shr(a.register, WORD_BITS - 8), 8);
      } else {
        LowMaskBound(a.register, 8);
      }
      ToBitsOfValue(o, Pending(o, a)[..8]);
    } else if o.BigEndian? {
      PartialEdgeBigEndian(a);
    } else {
      PartialEdgeLittleEndian(a);
    }
  }

  /**
   * Asking for more bits than are occupied returns the occupied ones
   * followed by zeros: the register holds zeros past the occupied bits.
   */
  lemma {:induction false} ExtractPadded(o: ByteOrder, a: Acc, n: nat)
    requires Valid(o, a) && a.occupancy < n <= WORD_BITS
    ensures Extract(o, a, n) == Value(o, Pending(o, a) + Zeros(n - a.occupancy))
  {
    var v := Extract(o, a, n);
    if o.BigEndian? {
      PaddedBigEndian(a, n);
    } else {
      PaddedLittleEndian(a, n);
      LowMaskBound(a.register, n);
      Pow2Mono(a.occupancy, n);
      SmallMod(a.register, n);
    }
    assert ToBits(o, v, n) == Pending(o, a) + Zeros(n - a.occupancy);
    ValueOfToBits(o, v, n);
    SmallMod(v, n);
  }

  lemma {:induction false} PartialEdgeBigEndian(a: Acc)
    requires Valid(BigEndian, a) && a.occupancy < 8
    ensures Msb(Truncate8(Shr(a.register, WORD_BITS - 8)), 8) == Pending(BigEndian, a) + Zeros(8 - a.occupancy)
  {
    PaddedBigEndian(a, 8);
    Pow2Limit();
    SmallMod(Shr(a.register, WORD_BITS - 8), 8);
  }

  /** The top n bits of a big-endian register holding fewer than n bits. */
  lemma {:induction false} PaddedBigEndian(a: Acc, n: nat)
    requires Valid(BigEndian, a) && a.occupancy < n <= WORD_BITS
    ensures Shr(a.register, WORD_BITS - n) < Pow2(n)
    ensures Msb(Shr(a.register, WORD_BITS - n), n) == Pending(BigEndian, a) + Zeros(n - a.occupancy)
  {
    var occ := a.occupancy;
    var z := n - occ;
    var p := Above(a.register, WORD_BITS - occ);
    MulNonneg(p, Pow2(z));
    var b: nat := p * Pow2(z);
    assert Shr(a.register, WORD_BITS - n) == b < Pow2(n) by {
      TopOfLayout(a, n, p, z, b);
    }
    assert Above(b, z) == p && b % Pow2(z) == 0 by {
      MulDivExact(p, Pow2(z));
    }
    MsbSplit(b, occ, z);
    assert Msb(b, z) == Zeros(z) by {
      MsbMod(b, z);
      MsbOfZero(z);
    }
    assert occ + z == n;
    assert Pending(BigEndian, a) == Msb(p, occ);
  }

  /** With occ < n bits in the top of the register, its top n bits are those bits shifted up. */
  lemma {:induction false} TopOfLayout(a: Acc, n: nat, p: nat, z: nat, b: nat)
    requires Valid(BigEndian, a) && a.occupancy < n <= WORD_BITS && z == n - a.occupancy
    requires p == Above(a.register, WORD_BITS - a.occupancy) && b == p * Pow2(z)
    ensures Shr(a.register, WORD_BITS - n) == b < Pow2(n)
  {
    var occ := a.occupancy;
    BigEndianLayout(a);
    Pow2Add(z, WORD_BITS - n, z + (WORD_BITS - n));
    MulAssoc(p, Pow2(z), Pow2(WORD_BITS - n));
    assert a.register == b * Pow2(WORD_BITS - n);
    MulDivExact(b, Pow2(WORD_BITS - n));
    Concat(p, 0, occ, z);
  }

  lemma {:induction false} PartialEdgeLittleEndian(a: Acc)
    requires Valid(LittleEndian, a) && a.occupancy < 8
    ensures Lsb(Truncate8(a.register), 8) == Pending(LittleEndian, a) + Zeros(8 - a.occupancy)
  {
    Pow2Limit();
    Pow2Mono(a.occupancy, 8);
    SmallMod(a.register, 8);
    PaddedLittleEndian(a, 8);
  }

  /** The low n bits of a little-endian register holding fewer than n bits. */
  lemma {:induction false} PaddedLittleEndian(a: Acc, n: nat)
    requires Valid(LittleEndian, a) && a.occupancy < n
    ensures Lsb(a.register, n) == Pending(LittleEndian, a) + Zeros(n - a.occupancy)
  {
    var occ := a.occupancy;
    LsbSplit(a.register, occ, n - occ);
    DivModUnique(a.register, Pow2(occ), 0, a.register);
    LsbOfZero(n - occ);
  }
}

=== FILE: bitseq.dfy ===
/**
 * Bit orders, bit sequences and the numbers they denote.
 *
 * A stream of bytes is read as a sequence of bits: under big-endian
 * (most-significant-bit-first) order each byte contributes its bits from bit 7
 * down to bit 0, under little-endian (least-significant-bit-first) order from
 * bit 0 up to bit 7. A run of n stream bits denotes an n-bit number: under
 * big-endian order the first bit is the most significant one, under
 * little-endian order it is the least significant one.
 */
module BitSeq {
  import opened Word

  /** The bit-packing convention, fixed for the lifetime of a reader or writer. */
  datatype ByteOrder = BigEndian | LittleEndian

  /** The k low bits of x, most significant first. */
  function Msb(x: nat, k: nat): (bs: seq<bool>)
    ensures |bs| == k
  {
    if k == 0 then [] else Msb(x / 2, k - 1) + [x % 2 == 1]
  }

  /** The k low bits of x, least significant first. */
  function Lsb(x: nat, k: nat): (bs: seq<bool>)
    ensures |bs| == k
  {
    if k == 0 then [] else [x % 2 == 1] + Lsb(x / 2, k - 1)
  }

  /** The number whose binary digits, most significant first, are bs. */
  function ValMsb(bs: seq<bool>): nat
  {
    if |bs| == 0 then 0
    else 2 * ValMsb(bs[..|bs| - 1]) + (if bs[|bs| - 1] then 1 else 0)
  }

  /** The number whose binary digits, least significant first, are bs. */
  function ValLsb(bs: seq<bool>): nat
  {
    if |bs| == 0 then 0
    else (if bs[0] then 1 else 0) + 2 * ValLsb(bs[1..])
  }

  /** The k low bits of x in the order a stream under `o` carries them. */
  function ToBits(o: ByteOrder, x: nat, k: nat): (bs: seq<bool>)
    ensures |bs| == k
  {
    match o
    case BigEndian => Msb(x, k)
    case LittleEndian => Lsb(x, k)
  }

  /** The number a run of stream bits denotes under `o`. */
  function Value(o: ByteOrder, bs: seq<bool>): nat
  {
    match o
    case BigEndian => ValMsb(bs)
    case LittleEndian => ValLsb(bs)
  }

  /** The eight bits one byte contributes to a stream. */
  function ByteBits(o: ByteOrder, b: byte): (bs: seq<bool>)
    ensures |bs| == 8
  {
    ToBits(o, b, 8)
  }

  /** The bit sequence of a byte stream: each byte's bits, in stream order. */
  function StreamBits(o: ByteOrder, bytes: seq<byte>): (bs: seq<bool>)
    ensures |bs| == 8 * |bytes|
  {
    if |bytes| == 0 then [] else ByteBits(o, bytes[0]) + StreamBits(o, bytes[1..])
  }

  /** k padding bits. */
  function Zeros(k: nat): (bs: seq<bool>)
    ensures |bs| == k
  {
    seq(k, _ => false)
  }

  // ---------------------------------------------------------------------
  // Numbers and their bit sequences
  // ---------------------------------------------------------------------

  lemma {:induction false} HalfDiv(x: nat, k: nat)
    requires k > 0
    ensures Above(x, k) == Above(x / 2, k - 1)
  {
    DivModMul(x, 2, Pow2(k - 1));
  }

  lemma {:induction false} HalfSplit(x: nat, k: nat)
    requires k > 0
    ensures Above(x, k) == Above(x / 2, k - 1)
    ensures x % Pow2(k) == (x / 2) % Pow2(k - 1) * 2 + x % 2
  {
    DivModMul(x, 2, Pow2(k - 1));
  }

  /** The first m of m + k low bits, most significant first, are the bits above position k. */
  lemma {:induction false} MsbSplit(x: nat, m: nat, k: nat)
    ensures Msb(x, m + k) == Msb(Above(x, k), m) + Msb(x, k)
  {
    if k > 0 {
      var hi, lo := Msb(Above(x / 2, k - 1), m), Msb(x / 2, k - 1);
      var bit := [x % 2 == 1];
      MsbSplit(x / 2, m, k - 1);
      assert Msb(x / 2, m + (k - 1)) == hi + lo;
      HalfDiv(x, k);
      assert Msb(Above(x, k), m) == hi;
      assert Msb(x, m + k) == Msb(x / 2, m + (k - 1)) + bit;
      assert Msb(x, k) == lo + bit;
      assert hi + lo + bit == hi + (lo + bit);
    }
  }

  /** The first k of k + m low bits, least significant first, are the bits below position k. */
  lemma {:induction false} LsbSplit(x: nat, k: nat, m: nat)
    ensures Lsb(x, k + m) == Lsb(x, k) + Lsb(Above(x, k), m)
  {
    if k > 0 {
      var lo, hi := Lsb(x / 2, k - 1), Lsb(Above(x / 2, k - 1), m);
      var bit := [x % 2 == 1];
      LsbSplit(x / 2, k - 1, m);
      assert Lsb(x / 2, (k - 1) + m) == lo + hi;
      HalfDiv(x, k);
      assert Lsb(Above(x, k), m) == hi;
      assert Lsb(x, k + m) == bit + Lsb(x / 2, (k - 1) + m);
      assert Lsb(x, k) == bit + lo;
      assert bit + (lo + hi) == (bit + lo) + hi;
    }
  }

  /** Reading a number past its width gives zeros. */
  lemma {:induction false} LsbBeyond(x: nat, k: nat, m: nat)
    requires x < Pow2(k)
    ensures Lsb(x, k + m) == Lsb(x, k) + Zeros(m)
  {
    LsbSplit(x, k, m);
    DivModUnique(x, Pow2(k), 0, x);
    LsbOfZero(m);
  }

  lemma {:induction false} MsbOfZero(k: nat)
    ensures Msb(0, k) == Zeros(k)
  {
    if k > 0 {
      MsbOfZero(k - 1);
    }
  }

  lemma {:induction false} LsbOfZero(k: nat)
    ensures Lsb(0, k) == Zeros(k)
  {
    if k > 0 {
      LsbOfZero(k - 1);
    }
  }

  /** The bits of p followed by the n bits of v are the bits of p * 2^n + v. */
  lemma {:induction false} MsbConcat(p: nat, v: nat, m: nat, n: nat, x: nat, k: nat)
    requires v < Pow2(n) && x == p * Pow2(n) + v && k == m + n
    ensures Msb(x, k) == Msb(p, m) + Msb(v, n)
  {
    SplitPow2(p, v, n);
    MsbSplit(x, m, n);
    MsbMod(x, n);
  }

  /** The m bits of lo followed by the n bits of hi are the low bits of hi * 2^m + lo. */
  lemma {:induction false} LsbConcat(lo: nat, hi: nat, m: nat, n: nat, x: nat, k: nat)
    requires lo < Pow2(m) && x == hi * Pow2(m) + lo && k == m + n
    ensures Lsb(x, k) == Lsb(lo, m) + Lsb(hi, n)
  {
    SplitPow2(hi, lo, m);
    LsbSplit(x, m, n);
    LsbMod(x, m);
  }

  /** Dropping the n oldest of the n + k bits of x leaves the k low bits of x. */
  lemma {:induction false} MsbDrop(x: nat, n: nat, k: nat, total: nat)
    requires n + k == total
    ensures Msb(x, total)[n..] == Msb(x % Pow2(k), k)
  {
    MsbSplit(x, n, k);
    MsbMod(x, k);
  }

  /** Only the k low bits of x matter to Msb(x, k). */
  lemma {:induction false} MsbMod(x: nat, k: nat)
    ensures Msb(x, k) == Msb(x % Pow2(k), k)
  {
    if k > 0 {
      HalfSplit(x, k);
      var y := x % Pow2(k);
      assert y / 2 == (x / 2) % Pow2(k - 1) && y % 2 == x % 2;
      MsbMod(x / 2, k - 1);
    }
  }

  /** Only the k low bits of x matter to Lsb(x, k). */
  lemma {:induction false} LsbMod(x: nat, k: nat)
    ensures Lsb(x, k) == Lsb(x % Pow2(k), k)
  {
    if k > 0 {
      HalfSplit(x, k);
      var y := x % Pow2(k);
      assert y / 2 == (x / 2) % Pow2(k - 1) && y % 2 == x % 2;
      LsbMod(x / 2, k - 1);
    }
  }

  lemma {:induction false} ValMsbOfMsb(x: nat, k: nat)
    ensures ValMsb(Msb(x, k)) == x % Pow2(k)
  {
    if k > 0 {
      var bs := Msb(x, k);
      assert bs[..k - 1] == Msb(x / 2, k - 1);
      ValMsbOfMsb(x / 2, k - 1);
      HalfSplit(x, k);
    }
  }

  lemma {:induction false} ValLsbOfLsb(x: nat, k: nat)
    ensures ValLsb(Lsb(x, k)) == x % Pow2(k)
  {
    if k > 0 {
      var bs := Lsb(x, k);
      assert bs[1..] == Lsb(x / 2, k - 1);
      ValLsbOfLsb(x / 2, k - 1);
      HalfSplit(x, k);
    }
  }

  lemma {:induction false} ValMsbBound(bs: seq<bool>)
    ensures ValMsb(bs) < Pow2(|bs|)
  {
    if |bs| > 0 {
      ValMsbBound(bs[..|bs| - 1]);
    }
  }

  lemma {:induction false} ValLsbBound(bs: seq<bool>)
    ensures ValLsb(bs) < Pow2(|bs|)
  {
    if |bs| > 0 {
      ValLsbBound(bs[1..]);
    }
  }

  lemma {:induction false} MsbOfValMsb(bs: seq<bool>)
    ensures Msb(ValMsb(bs), |bs|) == bs
  {
    if |bs| > 0 {
      var n := |bs|;
      var v := ValMsb(bs[..n - 1]);
      var b := if bs[n - 1] then 1 else 0;
      assert (2 * v + b) / 2 == v && (2 * v + b) % 2 == b;
      MsbOfValMsb(bs[..n - 1]);
      assert bs == bs[..n - 1] + [bs[n - 1]];
    }
  }

  lemma {:induction false} LsbOfValLsb(bs: seq<bool>)
    ensures Lsb(ValLsb(bs), |bs|) == bs
  {
    if |bs| > 0 {
      var v := ValLsb(bs[1..]);
      var b := if bs[0] then 1 else 0;
      assert (b + 2 * v) / 2 == v && (b + 2 * v) % 2 == b;
      LsbOfValLsb(bs[1..]);
      assert bs == [bs[0]] + bs[1..];
    }
  }

  // ---------------------------------------------------------------------
  // The same facts, for either order
  // ---------------------------------------------------------------------

  /** Reading back the bits of x gives x reduced to k bits. */
  lemma {:induction false} ValueOfToBits(o: ByteOrder, x: nat, k: nat)
    ensures Value(o, ToBits(o, x, k)) == x % Pow2(k)
  {
    match o
    case BigEndian => ValMsbOfMsb(x, k);
    case LittleEndian => ValLsbOfLsb(x, k);
  }

  /** A run of k bits denotes a number below 2^k. */
  lemma {:induction false} ValueBound(o: ByteOrder, bs: seq<bool>)
    ensures Value(o, bs) < Pow2(|bs|)
  {
    match o
    case BigEndian => ValMsbBound(bs);
    case LittleEndian => ValLsbBound(bs);
  }

  /** Writing out the number a run of bits denotes gives the run back. */
  lemma {:induction false} ToBitsOfValue(o: ByteOrder, bs: seq<bool>)
    ensures ToBits(o, Value(o, bs), |bs|) == bs
  {
    match o
    case BigEndian => MsbOfValMsb(bs);
    case LittleEndian => LsbOfValLsb(bs);
  }

  lemma {:induction false} ToBitsMod(o: ByteOrder, x: nat, k: nat)
    ensures ToBits(o, x, k) == ToBits(o, x % Pow2(k), k)
  {
    match o
    case BigEndian => MsbMod(x, k);
    case LittleEndian => LsbMod(x, k);
  }

  lemma {:induction false} ToBitsOfZero(o: ByteOrder, k: nat)
    ensures ToBits(o, 0, k) == Zeros(k)
  {
    match o
    case BigEndian => MsbOfZero(k);
    case LittleEndian => LsbOfZero(k);
  }

  /**
   * Splitting a number's bits: the first a of the a + b bits of x are the
   * bits that come first in the stream order.
   */
  lemma {:induction false} ToBitsSplit(o: ByteOrder, x: nat, a: nat, b: nat)
    ensures o.BigEndian? ==> ToBits(o, x, a + b) == ToBits(o, Above(x, b), a) + ToBits(o, x % Pow2(b), b)
    ensures o.LittleEndian? ==> ToBits(o, x, a + b) == ToBits(o, x % Pow2(a), a) + ToBits(o, Above(x, a), b)
  {
    match o
    case BigEndian =>
      MsbSplit(x, a, b);
      MsbMod(x, b);
    case LittleEndian =>
      LsbSplit(x, a, b);
      LsbMod(x, a);
  }

  /** Equal numbers of bits under one order denote equal numbers. */
  lemma {:induction false} ValueInjective(o: ByteOrder, a: seq<bool>, b: seq<bool>)
    requires |a| == |b| && Value(o, a) == Value(o, b)
    ensures a == b
  {
    ToBitsOfValue(o, a);
    ToBitsOfValue(o, b);
  }

  /**
   * The number denoted by two runs of bits read one after the other: under
   * big-endian order the first run is the high part, under little-endian
   * order the low part.
   */
  lemma {:induction false} ValueAppend(o: ByteOrder, a: seq<bool>, b: seq<bool>)
    ensures o.BigEndian? ==> Value(o, a + b) == Value(o, a) * Pow2(|b|) + Value(o, b)
    ensures o.LittleEndian? ==> Value(o, a + b) == Value(o, a) + Value(o, b) * Pow2(|a|)
  {
    var x := Value(o, a + b);
    ToBitsOfValue(o, a + b);
    ValueBound(o, a + b);
    assert (a + b)[..|a|] == a && (a + b)[|a|..] == b;
    match o
    case BigEndian => ValueAppendHigh(o, a, b, x);
    case LittleEndian => ValueAppendLow(o, a, b, x);
  }

  lemma {:induction false} ValueAppendHigh(o: ByteOrder, a: seq<bool>, b: seq<bool>, x: nat)
    requires o.BigEndian? && x < Pow2(|a| + |b|) && ToBits(o, x, |a| + |b|) == a + b
    requires (a + b)[..|a|] == a && (a + b)[|a|..] == b
    ensures x == Value(o, a) * Pow2(|b|) + Value(o, b)
  {
    ToBitsSplit(o, x, |a|, |b|);
    var hi := Above(x, |b|);
    assert ToBits(o, hi, |a|) == a && ToBits(o, x % Pow2(|b|), |b|) == b;
    ValueOfToBits(o, hi, |a|);
    ValueOfToBits(o, x % Pow2(|b|), |b|);
    AboveBound(x, |b|, |a|);
    SmallMod(hi, |a|);
    SmallMod(x % Pow2(|b|), |b|);
    AboveSplit(x, |b|);
  }

  lemma {:induction false} ValueAppendLow(o: ByteOrder, a: seq<bool>, b: seq<bool>, x: nat)
    requires o.LittleEndian? && x < Pow2(|a| + |b|) && ToBits(o, x, |a| + |b|) == a + b
    requires (a + b)[..|a|] == a && (a + b)[|a|..] == b
    ensures x == Value(o, a) + Value(o, b) * Pow2(|a|)
  {
    ToBitsSplit(o, x, |a|, |b|);
    var hi := Above(x, |a|);
    assert ToBits(o, x % Pow2(|a|), |a|) == a && ToBits(o, hi, |b|) == b;
    ValueOfToBits(o, hi, |b|);
    ValueOfToBits(o, x % Pow2(|a|), |a|);
    assert |a| + |b| == |b| + |a|;
    AboveBound(x, |a|, |b|);
    SmallMod(hi, |b|);
    SmallMod(x % Pow2(|a|), |a|);
    AboveSplit(x, |a|);
  }

  /**
   * The number denoted by an a-bit run denoting x followed by a b-bit run
   * denoting y: x is the high part under big-endian order, the low part
   * under little-endian order.
   */
  function Join(o: ByteOrder, x: nat, a: nat, y: nat, b: nat): nat
  {
    match o
    case BigEndian => x * Pow2(b) + y
    case LittleEndian => x + y * Pow2(a)
  }

  /** The value of the first a + b bits, from the values of the first a and the next b. */
  lemma PrefixValue(o: ByteOrder, c: seq<bool>, a: nat, b: nat)
    requires a + b <= |c|
    ensures Value(o, c[..a + b]) == Join(o, Value(o, c[..a]), a, Value(o, c[a..a + b]), b)
  {
    SplitPrefix(c, a, b);
    ValueAppend(o, c[..a], c[a..a + b]);
  }

  /** Slicing facts about a run of bits cut after a and after a + b. */
  lemma SplitPrefix<T>(c: seq<T>, a: nat, b: nat)
    requires a + b <= |c|
    ensures c[..a + b] == c[..a] + c[a..a + b]
    ensures c[a..][..b] == c[a..a + b]
    ensures c[a..][b..] == c[a + b..]
  {
  }

  /** Dropping a elements and then b more drops n = a + b. */
  lemma DropTwice<T>(c: seq<T>, a: nat, b: nat, n: nat)
    requires a + b == n <= |c|
    ensures c[a..][b..] == c[n..]
  {
  }

  lemma Associate<T>(a: seq<T>, b: seq<T>, c: seq<T>)
    ensures (a + b) + c == a + (b + c)
  {
  }

  // ---------------------------------------------------------------------
  // Streams
  // ---------------------------------------------------------------------

  lemma {:induction false} StreamBitsAppend(o: ByteOrder, a: seq<byte>, b: seq<byte>)
    ensures StreamBits(o, a + b) == StreamBits(o, a) + StreamBits(o, b)
  {
    if |a| > 0 {
      assert (a + b)[1..] == a[1..] + b;
      StreamBitsAppend(o, a[1..], b);
    } else {
      assert a + b == b;
    }
  }

  /** The bits of the first k bytes are the first 8k bits of the stream. */
  lemma {:induction false} StreamBitsPrefix(o: ByteOrder, bytes: seq<byte>, k: nat)
    requires k <= |bytes|
    ensures StreamBits(o, bytes) == StreamBits(o, bytes[..k]) + StreamBits(o, bytes[k..])
    ensures StreamBits(o, bytes[..k]) == StreamBits(o, bytes)[..8 * k]
    ensures StreamBits(o, bytes[k..]) == StreamBits(o, bytes)[8 * k..]
  {
    assert bytes == bytes[..k] + bytes[k..];
    StreamBitsAppend(o, bytes[..k], bytes[k..]);
  }

  lemma {:induction false} StreamBitsOne(o: ByteOrder, b: byte)
    ensures StreamBits(o, [b]) == ByteBits(o, b)
  {
    assert StreamBits(o, [b]) == ByteBits(o, b) + StreamBits(o, []);
  }

  /** A byte is determined by its eight stream bits. */
  lemma {:induction false} ByteBitsInjective(o: ByteOrder, a: byte, b: byte)
    requires ByteBits(o, a) == ByteBits(o, b)
    ensures a == b
  {
    ValueOfToBits(o, a, 8);
    ValueOfToBits(o, b, 8);
    Pow2Limit();
    SmallMod(a, 8);
    SmallMod(b, 8);
  }

  /** A byte stream is determined by its bits. */
  lemma {:induction false} StreamBitsInjective(o: ByteOrder, a: seq<byte>, b: seq<byte>)
    requires StreamBits(o, a) == StreamBits(o, b)
    ensures a == b
  {
    if |a| > 0 {
      assert StreamBits(o, a)[..8] == ByteBits(o, a[0]);
      assert StreamBits(o, b)[..8] == ByteBits(o, b[0]);
      ByteBitsInjective(o, a[0], b[0]);
      assert StreamBits(o, a[1..]) == StreamBits(o, a)[8..];
      assert StreamBits(o, b[1..]) == StreamBits(o, b)[8..];
      StreamBitsInjective(o, a[1..], b[1..]);
    }
  }
}
=== FILE: bulk.dfy ===
/**
 * `BulkBitReader`: requests of any number of bits, served in 64-bit chunks
 * by an inner `BitReader`.
 *
 * A request for n bits is split into ceil(n / 64) chunks of 64 bits, the
 * last one taking whatever remains; each chunk is one `read_bits` (or
 * `peek_bits`) on the inner reader, and the chunks are returned in order.
 */
module Bulk {
  import opened Word
  import opened BitSeq
  import opened Errors
  import opened Reader

  /** The width of chunk i of a request for n bits. */
  function ChunkWidth(n: nat, i: nat): (w: nat)
    requires 64 * i < n
    ensures 1 <= w <= 64 && 64 * i + w <= n
  {
    Min(64, n - 64 * i)
  }

  /** The number of chunks a request for n bits is served in, `(n + 63) / 64`. */
  function ChunkCount(n: nat): nat
  {
    (n + 63) / 64
  }

  /** vs holds the first n bits of c, 64 at a time, each chunk as a number under order o. */
  predicate Chunked(o: ByteOrder, c: seq<bool>, n: nat, vs: seq<u64>)
    requires n <= |c|
  {
    && |vs| == ChunkCount(n)
    && forall i :: 0 <= i < |vs| ==> 64 * i < n && vs[i] == Value(o, c[64 * i..64 * i + ChunkWidth(n, i)])
  }

  /** The requests whose first chunk read does not underflow; after it the accumulator is byte-aligned. */
  predicate BulkDefined(r: BitReader, n: nat)
    requires Inv(r)
  {
    ReadDefined(r, Min(n, 64))
  }

  /** After reading a full 64-bit chunk the accumulator is empty, so every later chunk is defined. */
  lemma AfterFullChunk(r: BitReader, m: nat)
    requires Inv(r) && ReadDefined(r, 64) && ReadBits(r, 64).result.Ok?
    ensures ReadBits(r, 64).reader.acc.occupancy == 0
    ensures ReadDefined(ReadBits(r, 64).reader, m)
  {
    FillSucceeds(r, 64);
    if m <= 64 {
      FillReachesExactly(0, m);
    }
  }

  /** Chunks of the rest of the content, after a first chunk of 64 bits, are chunks of the content. */
  lemma ChunkedCons(o: ByteOrder, c: seq<bool>, n: nat, v: u64, vs: seq<u64>)
    requires 64 < n <= |c|
    requires v == Value(o, c[..64])
    requires Chunked(o, c[64..], n - 64, vs)
    ensures Chunked(o, c, n, [v] + vs)
  {
    var ws := [v] + vs;
    forall i | 0 <= i < |ws|
      ensures 64 * i < n && ws[i] == Value(o, c[64 * i..64 * i + ChunkWidth(n, i)])
    {
      if i > 0 {
        var j := i - 1;
        assert ws[i] == vs[j];
        assert ChunkWidth(n - 64, j) == ChunkWidth(n, i);
        assert c[64..][64 * j..64 * j + ChunkWidth(n - 64, j)] == c[64 * i..64 * i + ChunkWidth(n, i)];
      }
    }
  }

  /**
   * The chunk loop of `read_bits`, for the `remaining` bits still asked for:
   * each round reads `min(remaining, 64)` bits.
   */
  function ReadChunks(r: BitReader, remaining: nat): (s: Step<seq<u64>>)
    requires Inv(r) && remaining >= 1 && ReadDefined(r, Min(remaining, 64))
    ensures Inv(s.reader) && s.reader.order == r.order
    ensures s.result.Ok? <==> remaining <= |Content(r)|
    ensures s.result.Ok? ==>
      && Chunked(r.order, Content(r), remaining, s.result.value)
      && Content(s.reader) == Content(r)[remaining..]
    ensures s.result.Err? ==> s.result.error == UnexpectedEof
    decreases remaining, 1
  {
    if remaining <= 64 then LastChunk(r, remaining) else FullChunk(r, remaining)
  }

  /** The last round: all the remaining bits fit in one chunk. */
  function LastChunk(r: BitReader, n: nat): (s: Step<seq<u64>>)
    requires Inv(r) && 1 <= n <= 64 && ReadDefined(r, n)
    ensures Inv(s.reader) && s.reader.order == r.order
    ensures s.result.Ok? <==> n <= |Content(r)|
    ensures s.result.Ok? ==>
      && Chunked(r.order, Content(r), n, s.result.value)
      && Content(s.reader) == Content(r)[n..]
    ensures s.result.Err? ==> s.result.error == UnexpectedEof
  {
    var first := ReadBits(r, n);
    match first.result
    case Err(e) => Step(first.reader, Err(e))
    case Ok(v) =>
      ChunkedOne(r.order, Content(r), n, v);
      Step(first.reader, Ok([v]))
  }

  /** A round that reads a full chunk of 64 bits, then the rest of the loop. */
  function FullChunk(r: BitReader, remaining: nat): (s: Step<seq<u64>>)
    requires Inv(r) && remaining > 64 && ReadDefined(r, 64)
    ensures Inv(s.reader) && s.reader.order == r.order
    ensures s.result.Ok? <==> remaining <= |Content(r)|
    ensures s.result.Ok? ==>
      && Chunked(r.order, Content(r), remaining, s.result.value)
      && Content(s.reader) == Content(r)[remaining..]
    ensures s.result.Err? ==> s.result.error == UnexpectedEof
    decreases remaining, 0
  {
    var first := ReadBits(r, 64);
    match first.result
    case Err(e) => Step(first.reader, Err(e))
    case Ok(v) =>
      AfterFullChunk(r, Min(remaining - 64, 64));
      var rest := ReadChunks(first.reader, remaining - 64);
      match rest.result
      case Err(e) => Step(rest.reader, Err(e))
      case Ok(vs) =>
        ChunkedCons(r.order, Content(r), remaining, v, vs);
        DropTwice(Content(r), 64, remaining - 64, remaining);
        Step(rest.reader, Ok([v] + vs))
  }

  /** A single chunk of n <= 64 bits is the value of the first n bits. */
  lemma ChunkedOne(o: ByteOrder, c: seq<bool>, n: nat, v: u64)
    requires 1 <= n <= 64 && n <= |c| && v == Value(o, c[..n])
    ensures Chunked(o, c, n, [v])
  {
    assert ChunkWidth(n, 0) == n;
    assert c[64 * 0..64 * 0 + ChunkWidth(n, 0)] == c[..n];
  }

  /**
   * `BulkBitReader::read_bits(n)`: the next n bits in chunks of 64, the
   * last chunk holding the n % 64 bits that remain (when there are any).
   */
  function BulkReadBits(r: BitReader, n: nat): (s: Step<seq<u64>>)
    requires Inv(r) && BulkDefined(r, n)
    ensures Inv(s.reader) && s.reader.order == r.order
    ensures n == 0 ==> s == Step(r, Err(InvalidBitCount(0)))
    ensures n >= 1 ==> (s.result.Ok? <==> n <= |Content(r)|)
    ensures s.result.Ok? ==>
      && Chunked(r.order, Content(r), n, s.result.value)
      && Content(s.reader) == Content(r)[n..]
    ensures n >= 1 && s.result.Err? ==> s.result.error == UnexpectedEof
  {
    if n == 0 then Step(r, Err(InvalidBitCount(n))) else ReadChunks(r, n)
  }

  /**
   * The chunk loop of `peek_bits`. Every chunk peeks at the same reader:
   * the first peek fills it and nothing ever takes bits out of it.
   */
  function PeekChunks(r: BitReader, remaining: nat): (s: Step<seq<u64>>)
    requires Inv(r) && remaining >= 1
    ensures Inv(s.reader) && s.reader.order == r.order
    ensures s.result.Ok? ==> Content(s.reader) == Content(r) && |s.result.value| == ChunkCount(remaining)
    decreases remaining, 1
  {
    if remaining <= 64 then LastPeek(r, remaining) else FullPeek(r, remaining)
  }

  /** The last round of the peek loop. */
  function LastPeek(r: BitReader, n: nat): (s: Step<seq<u64>>)
    requires Inv(r) && 1 <= n <= 64
    ensures Inv(s.reader) && s.reader.order == r.order
    ensures s.result.Ok? ==> Content(s.reader) == Content(r) && |s.result.value| == 1
  {
    var p := PeekBits(r, n);
    match p.result
    case Err(e) => Step(p.reader, Err(e))
    case Ok(v) => Step(p.reader, Ok([v]))
  }

  /** A round of the peek loop that peeks at 64 bits, then the rest of the loop. */
  function FullPeek(r: BitReader, remaining: nat): (s: Step<seq<u64>>)
    requires Inv(r) && remaining > 64
    ensures Inv(s.reader) && s.reader.order == r.order
    ensures s.result.Ok? ==> Content(s.reader) == Content(r) && |s.result.value| == ChunkCount(remaining)
    decreases remaining, 0
  {
    var p := PeekBits(r, 64);
    match p.result
    case Err(e) => Step(p.reader, Err(e))
    case Ok(v) =>
      var rest := PeekChunks(p.reader, remaining - 64);
      match rest.result
      case Err(e) => Step(rest.reader, Err(e))
      case Ok(vs) => Step(rest.reader, Ok([v] + vs))
  }

  /**
   * What the peek loop returns when its first peek is defined: every chunk
   * is a prefix of the content, of the chunk's width.
   */
  lemma {:induction false} PeekChunksValues(r: BitReader, remaining: nat)
    requires Inv(r) && remaining >= 1 && ReadDefined(r, Min(remaining, 64))
    ensures var s := PeekChunks(r, remaining);
      && (s.result.Ok? <==> Min(remaining, 64) <= |Content(r)|)
      && (s.result.Ok? ==> forall i :: 0 <= i < |s.result.value| ==>
            64 * i < remaining && ChunkWidth(remaining, i) <= |Content(r)| &&
            s.result.value[i] == Value(r.order, Content(r)[..ChunkWidth(remaining, i)]))
    decreases remaining
  {
    if remaining <= 64 {
      assert ChunkWidth(remaining, 0) == remaining;
    } else {
      var p := PeekBits(r, 64);
      if p.result.Ok? {
        FillReachesExactly(p.reader.acc.occupancy, Min(remaining - 64, 64));
        PeekChunksValues(p.reader, remaining - 64);
        FullPeekValues(r, remaining, p.result.value, PeekChunks(p.reader, remaining - 64).result.value);
      }
    }
  }

  /**
   * One full chunk followed by the chunks of a peek at the same content
   * that each repeat a prefix of it.
   */
  lemma FullPeekValues(r: BitReader, remaining: nat, v: u64, vs: seq<u64>)
    requires Inv(r) && remaining > 64 && 64 <= |Content(r)| && ReadDefined(r, 64)
    requires v == Value(r.order, Content(r)[..64])
    requires forall i :: 0 <= i < |vs| ==>
      64 * i < remaining - 64 && ChunkWidth(remaining - 64, i) <= |Content(r)| &&
      vs[i] == Value(r.order, Content(r)[..ChunkWidth(remaining - 64, i)])
    ensures forall i :: 0 <= i < |[v] + vs| ==>
      64 * i < remaining && ChunkWidth(remaining, i) <= |Content(r)| &&
      ([v] + vs)[i] == Value(r.order, Content(r)[..ChunkWidth(remaining, i)])
  {
    var ws := [v] + vs;
    forall i | 0 <= i < |ws|
      ensures 64 * i < remaining && ChunkWidth(remaining, i) <= |Content(r)|
      ensures ws[i] == Value(r.order, Content(r)[..ChunkWidth(remaining, i)])
    {
      if i > 0 {
        assert ws[i] == vs[i - 1];
        assert ChunkWidth(remaining - 64, i - 1) == ChunkWidth(remaining, i);
      }
    }
  }

  /**
   * `BulkBitReader::peek_bits(n)` as written: chunk i is the first
   * ChunkWidth(n, i) bits of the content, not the bits at 64 * i.
   */
  function BulkPeekBits(r: BitReader, n: nat): (s: Step<seq<u64>>)
    requires Inv(r)
    ensures Inv(s.reader) && s.reader.order == r.order
    ensures n == 0 ==> s == Step(r, Err(InvalidBitCount(0)))
    ensures s.result.Ok? ==> Content(s.reader) == Content(r) && |s.result.value| == ChunkCount(n)
  {
    if n == 0 then Step(r, Err(InvalidBitCount(n))) else PeekChunks(r, n)
  }

  /**
   * Under a reaching first fill, the bulk peek fails only when the content
   * is shorter than its first chunk, and chunk i is the first
   * ChunkWidth(n, i) bits of the content.
   */
  lemma BulkPeekValues(r: BitReader, n: nat)
    requires Inv(r) && n >= 1 && BulkDefined(r, n)
    ensures var s := BulkPeekBits(r, n);
      && (s.result.Ok? <==> Min(n, 64) <= |Content(r)|)
      && (s.result.Ok? ==> forall i :: 0 <= i < |s.result.value| ==>
            64 * i < n && ChunkWidth(n, i) <= |Content(r)| &&
            s.result.value[i] == Value(r.order, Content(r)[..ChunkWidth(n, i)]))
  {
    PeekChunksValues(r, n);
  }

  /** A peek of 128 bits returns the first 64 bits twice. */
  lemma BulkPeekRepeats(r: BitReader)
    requires Inv(r) && BulkDefined(r, 128) && 128 <= |Content(r)|
    ensures var s := BulkPeekBits(r, 128);
      && s.result.Ok? && |s.result.value| == 2
      && s.result.value[0] == s.result.value[1] == Value(r.order, Content(r)[..64])
  {
    BulkPeekValues(r, 128);
    assert ChunkWidth(128, 0) == 64 && ChunkWidth(128, 1) == 64;
  }

  /**
   * So the peek of 128 bits differs from the next 128 bits in chunks
   * whenever bits 64..128 differ from bits 0..64.
   */
  lemma BulkPeekDiffers(r: BitReader)
    requires Inv(r) && BulkDefined(r, 128) && 128 <= |Content(r)|
    requires Content(r)[..64] != Content(r)[64..128]
    ensures BulkPeekBits(r, 128).result != BulkPeekBitsIntended(r, 128).result
  {
    var t := BulkPeekBitsIntended(r, 128).result;
    BulkPeekRepeats(r);
    SecondChunk(r.order, Content(r), t.value);
    ChunksDiffer(r.order, Content(r), BulkPeekBits(r, 128).result.value, t.value);
  }

  /** Two chunk lists whose second chunks are different runs of bits differ. */
  lemma ChunksDiffer(o: ByteOrder, c: seq<bool>, s: seq<u64>, t: seq<u64>)
    requires 128 <= |c| && c[..64] != c[64..128]
    requires |s| == 2 && s[1] == Value(o, c[..64])
    requires |t| == 2 && t[1] == Value(o, c[64..128])
    ensures s != t
  {
    if s == t {
      ValueInjective(o, c[..64], c[64..128]);
    }
  }

  /** The second chunk of a request for 128 bits is bits 64..128. */
  lemma SecondChunk(o: ByteOrder, c: seq<bool>, vs: seq<u64>)
    requires 128 <= |c| && Chunked(o, c, 128, vs)
    ensures |vs| == 2 && vs[1] == Value(o, c[64..128])
  {
    assert ChunkWidth(128, 1) == 64;
    assert 64 * 1 < 128 && vs[1] == Value(o, c[64 * 1..64 * 1 + ChunkWidth(128, 1)]);
  }

  /**
   * `peek_bits` as the trait documents it: the next n bits in the chunks
   * `read_bits` would return, with the reader's content left as it is. The
   * model reads from a copy of the reader and keeps the original.
   */
  function BulkPeekBitsIntended(r: BitReader, n: nat): (s: Step<seq<u64>>)
    requires Inv(r) && BulkDefined(r, n)
    ensures s.reader == r
    ensures n == 0 ==> s.result == Err(InvalidBitCount(0))
    ensures n >= 1 ==> (s.result.Ok? <==> n <= |Content(r)|)
    ensures s.result.Ok? ==> Chunked(r.order, Content(r), n, s.result.value)
    ensures s.result.Ok? ==> s.result.value == BulkReadBits(r, n).result.value
  {
    Step(r, BulkReadBits(r, n).result)
  }
}

=== FILE: errors.dfy ===
/**
 * The library's error type and the result of a fallible operation.
 *
 * Every fallible operation of the library returns `std::io::Result`. The
 * errors it raises itself are the three variants of `BitReadWriteError`.
 * Each is converted (error.rs:26-29) into an `io::Error` of kind
 * `ErrorKind::Other`, and the variant survives only in the message text.
 * The fast readers fail instead through `read_exact`, whose `io::Error` has
 * kind `ErrorKind::UnexpectedEof` and is none of the library's variants.
 *
 * The model keeps the variant, not the `io::Error`. An end of stream is
 * `UnexpectedEof` whether `BitReader` reports it or `read_exact` does, so
 * the model does not tell apart the two kinds a caller of the real library
 * would see.
 */
module Errors {

  /** `BitReadWriteError`: a bit count outside 1..=64, a source that ran dry, or a byte access with bits pending. */
  datatype BitError =
    | InvalidBitCount(count: nat)
    | UnexpectedEof
    | UnalignedAccess

  /**
   * `std::io::Result<T>`, with the error reduced to the variant it stands
   * for; an end of stream from `read_exact` is also `UnexpectedEof`.
   */
  datatype Result<+T> = Ok(value: T) | Err(error: BitError)

  /** The bit counts a single read, peek or write accepts. */
  predicate IsBitCount(n: nat)
  {
    1 <= n <= 64
  }

  /** The guard at the top of every bit-level operation: the count is rejected unless it is in 1..=64. */
  function CheckBitCount(n: nat): (r: Result<()>)
    ensures r.Ok? <==> IsBitCount(n)
    ensures r.Err? ==> r.error == InvalidBitCount(n)
  {
    if n == 0 || n > 64 then Err(InvalidBitCount(n)) else Ok(())
  }
}

=== FILE: fast.dfy ===
/**
 * `FastBitReaderBig` and `FastBitReaderLittle`: readers of one byte order
 * each that fill their register several bytes at a time with `read_exact`.
 *
 * A read of n bits loops while fewer than n bits are available: each round
 * reads `((n - available + 7) / 8).min((64 - available) / 8).max(1)` bytes,
 * assembles them into one word and places it just past the available bits.
 * Then the n oldest bits are returned and shifted out.
 *
 * When one round reaches n bits, both readers do exactly what `BitReader`
 * does. When it does not, a second round asks for one byte with no room for
 * it. If the source is empty by then, `read_exact` fails first and the
 * read reports `UnexpectedEof`. Otherwise, in the big-endian reader,
 * `64 - bits_available - new_bits` underflows (fast/reader.rs:53); the
 * model excludes exactly those inputs (`BigDefined`). The little-endian reader shifts
 * the byte in regardless, so its high bits fall off the register while
 * still being counted as available, and later reads return zeros in their
 * place.
 */
module Fast {
  import opened Word
  import opened BitSeq
  import opened Accumulator
  import opened Errors
  import Reader

  /** The register, the count of bits it holds (which can exceed 64 in the little-endian reader) and the unread source. */
  datatype FastReader = FastReader(buffer: u64, available: nat, raw: seq<byte>)

  /** The reader after an operation, with what the operation returned. */
  datatype Step<T> = Step(reader: FastReader, result: Result<T>)

  /** `new(raw)`. */
  function New(raw: seq<byte>): (f: FastReader)
    ensures BigInv(f) && BigContent(f) == StreamBits(BigEndian, raw)
    ensures LittleInv(f) && LittleContent(f) == StreamBits(LittleEndian, raw)
  {
    EmptyValid(BigEndian);
    FastReader(0, 0, raw)
  }

  /** The standard reader with the same register, count and source. */
  function AsReader(o: ByteOrder, f: FastReader): Reader.BitReader
  {
    Reader.BitReader(o, Acc(f.buffer, f.available), f.raw)
  }

  predicate BigInv(f: FastReader)
  {
    Reader.Inv(AsReader(BigEndian, f))
  }

  /** Every bit the big-endian reader can still deliver. */
  function BigContent(f: FastReader): (bs: seq<bool>)
    requires BigInv(f)
  {
    Reader.Content(AsReader(BigEndian, f))
  }

  /** The register holds nothing beyond the bits counted as available. */
  predicate LittleInv(f: FastReader)
  {
    f.buffer < Pow2(f.available)
  }

  /**
   * Every bit the little-endian reader will deliver: the `available` low
   * bits of the register (zeros past its width), then the source.
   */
  function LittleContent(f: FastReader): (bs: seq<bool>)
    ensures |bs| == f.available + 8 * |f.raw|
  {
    ToBits(LittleEndian, f.buffer, f.available) + StreamBits(LittleEndian, f.raw)
  }

  // ---------------------------------------------------------------------
  // One round of the fill loop
  // ---------------------------------------------------------------------

  /**
   * The bytes one round reads: enough for the missing bits, capped by the
   * whole bytes that fit, but at least one. Below 57 available bits it is
   * the standard reader's fill; above, the one byte that does not fit.
   */
  function RoundBytes(available: nat, n: nat): (k: nat)
    requires available < n <= WORD_BITS
    ensures 1 <= k <= 8
    ensures available <= WORD_BITS - 8 ==> k == Reader.BytesToFill(available, n)
    ensures available > WORD_BITS - 8 ==> k == 1
  {
    Max(Min((n - available + 7) / 8, (WORD_BITS - available) / 8), 1)
  }

  /** The big-endian assembly loop: `val = (val << 8) | b` for each byte. */
  function AssembleBig(bytes: seq<byte>): (v: u64)
    requires |bytes| <= 8
    ensures v == Value(BigEndian, StreamBits(BigEndian, bytes)) && v < Pow2(8 * |bytes|)
    decreases |bytes|
  {
    if |bytes| == 0 then
      0
    else
      var init := bytes[..|bytes| - 1];
      var b := bytes[|bytes| - 1];
      var v := AssembleBig(init);
      AppendByteBig(init, b, v);
      assert init + [b] == bytes;
      Or(Shl(v, 8), b)
  }

  lemma {:induction false} AppendByteBig(init: seq<byte>, b: byte, v: u64)
    requires |init| < 8 && v == Value(BigEndian, StreamBits(BigEndian, init))
    ensures Or(Shl(v, 8), b) == Value(BigEndian, StreamBits(BigEndian, init + [b]))
    ensures Or(Shl(v, 8), b) < Pow2(8 * (|init| + 1)) <= U64_LIMIT
  {
    var bs := StreamBits(BigEndian, init);
    ValueBound(BigEndian, bs);
    ShlNoOverflow(v, 8, 8 * |init|, 8 * (|init| + 1));
    Pow2Limit();
    MulDivExact(v, Pow2(8));
    OrDisjoint(v * Pow2(8), b, 8);
    StreamBitsAppend(BigEndian, init, [b]);
    StreamBitsOne(BigEndian, b);
    ValueAppend(BigEndian, bs, ByteBits(BigEndian, b));
    ValueOfToBits(BigEndian, b, 8);
    SmallMod(b, 8);
    ValueBound(BigEndian, StreamBits(BigEndian, init + [b]));
    Pow2Mono(8 * (|init| + 1), WORD_BITS);
  }

  /** The little-endian assembly loop: `val |= (b as u64) << (i * 8)` for byte i. */
  function AssembleLittle(bytes: seq<byte>): (v: u64)
    requires |bytes| <= 8
    ensures v == Value(LittleEndian, StreamBits(LittleEndian, bytes)) && v < Pow2(8 * |bytes|)
    decreases |bytes|
  {
    if |bytes| == 0 then
      0
    else
      var init := bytes[..|bytes| - 1];
      var b := bytes[|bytes| - 1];
      var v := AssembleLittle(init);
      AppendByteLittle(init, b, v);
      assert init + [b] == bytes;
      Or(v, Shl(b, 8 * |init|))
  }

  lemma {:induction false} AppendByteLittle(init: seq<byte>, b: byte, v: u64)
    requires |init| < 8 && v == Value(LittleEndian, StreamBits(LittleEndian, init))
    ensures Or(v, Shl(b, 8 * |init|)) == Value(LittleEndian, StreamBits(LittleEndian, init + [b]))
    ensures Or(v, Shl(b, 8 * |init|)) < Pow2(8 * (|init| + 1)) <= U64_LIMIT
  {
    var bs := StreamBits(LittleEndian, init);
    var i := 8 * |init|;
    ValueBound(LittleEndian, bs);
    Pow2Limit();
    ShlNoOverflow(b, i, 8, 8 * (|init| + 1));
    MulDivExact(b, Pow2(i));
    OrDisjoint(b * Pow2(i), v, i);
    StreamBitsAppend(LittleEndian, init, [b]);
    StreamBitsOne(LittleEndian, b);
    ValueAppend(LittleEndian, bs, ByteBits(LittleEndian, b));
    ValueOfToBits(LittleEndian, b, 8);
    SmallMod(b, 8);
    ValueBound(LittleEndian, StreamBits(LittleEndian, init + [b]));
    Pow2Mono(8 * (|init| + 1), WORD_BITS);
  }

  /** A round that moves k source bytes behind the register's bits changes no content. */
  lemma {:induction false} RoundKeepsContent(o: ByteOrder, f: FastReader, k: nat, g: FastReader)
    requires f.available <= WORD_BITS && g.available <= WORD_BITS
    requires k <= |f.raw| && g.raw == f.raw[k..]
    requires Pending(o, Acc(g.buffer, g.available)) == Pending(o, Acc(f.buffer, f.available)) + StreamBits(o, f.raw[..k])
    ensures Pending(o, Acc(g.buffer, g.available)) + StreamBits(o, g.raw) ==
            Pending(o, Acc(f.buffer, f.available)) + StreamBits(o, f.raw)
  {
    StreamBitsPrefix(o, f.raw, k);
    Associate(Pending(o, Acc(f.buffer, f.available)), StreamBits(o, f.raw[..k]), StreamBits(o, f.raw[k..]));
  }

  /**
   * One round of the big-endian loop: `read_exact` of the round's bytes,
   * then `buffer |= val.wrapping_shl(64 - available - new_bits)`. The
   * shift amount is not negative only below 57 available bits.
   */
  function BigRound(f: FastReader, n: nat): (s: Step<()>)
    requires BigInv(f) && f.available < n <= WORD_BITS && f.available <= WORD_BITS - 8
    ensures BigInv(s.reader)
    ensures s.result.Ok? <==> Reader.BytesToFill(f.available, n) <= |f.raw|
    ensures s.result.Ok? ==>
      var k := Reader.BytesToFill(f.available, n);
      && BigContent(s.reader) == BigContent(f)
      && s.reader.available == f.available + 8 * k
      && s.reader.raw == f.raw[k..]
    ensures s.result.Err? ==> s == Step(f.(raw := []), Err(UnexpectedEof))
  {
    var k := RoundBytes(f.available, n);
    if |f.raw| < k then
      Step(f.(raw := []), Err(UnexpectedEof))
    else
      var val := AssembleBig(f.raw[..k]);
      var shift := WORD_BITS - f.available - 8 * k;
      BigRoundKeepsContent(f, k, val, shift);
      var g := FastReader(Or(f.buffer, WrappingShl(val, shift)), f.available + 8 * k, f.raw[k..]);
      Step(g, Ok(()))
  }

  /** With room for the round's bits, the big-endian round is `Insert` of the assembled word. */
  lemma {:induction false} BigRoundKeepsContent(f: FastReader, k: nat, val: u64, shift: nat)
    requires BigInv(f) && 1 <= k <= |f.raw| && f.available + 8 * k + shift == WORD_BITS
    requires val == Value(BigEndian, StreamBits(BigEndian, f.raw[..k])) && val < Pow2(8 * k)
    ensures Or(f.buffer, WrappingShl(val, shift)) < U64_LIMIT
    ensures var g := FastReader(Or(f.buffer, WrappingShl(val, shift)), f.available + 8 * k, f.raw[k..]);
      BigInv(g) && BigContent(g) == BigContent(f)
  {
    var a := Acc(f.buffer, f.available);
    assert shift % WORD_BITS == shift;
    var inserted := Insert(BigEndian, a, val, 8 * k);
    assert Or(f.buffer, WrappingShl(val, shift)) == inserted.register;
    var g := FastReader(inserted.register, f.available + 8 * k, f.raw[k..]);
    ToBitsOfValue(BigEndian, StreamBits(BigEndian, f.raw[..k]));
    RoundKeepsContent(BigEndian, f, k, g);
  }

  /**
   * One round of the little-endian loop: `read_exact` of the round's bytes,
   * then `buffer |= val.wrapping_shl(available)`. When the round's bits go
   * past the register, the content loses them: it holds zeros from bit 64
   * up to the new count.
   */
  function LittleRound(f: FastReader, n: nat): (s: Step<()>)
    requires LittleInv(f) && f.available < n <= WORD_BITS
    ensures LittleInv(s.reader)
    ensures s.result.Ok? <==> RoundBytes(f.available, n) <= |f.raw|
    ensures s.result.Ok? ==>
      var k := RoundBytes(f.available, n);
      var m := f.available + 8 * k;
      && s.reader.available == m && s.reader.raw == f.raw[k..]
      && (m <= WORD_BITS ==> LittleContent(s.reader) == LittleContent(f))
      && (m > WORD_BITS ==>
            LittleContent(s.reader) == LittleContent(f)[..WORD_BITS] + Zeros(m - WORD_BITS) + LittleContent(f)[m..])
    ensures s.result.Err? ==> s == Step(f.(raw := []), Err(UnexpectedEof))
  {
    var k := RoundBytes(f.available, n);
    if |f.raw| < k then
      Step(f.(raw := []), Err(UnexpectedEof))
    else
      var val := AssembleLittle(f.raw[..k]);
      LittleRoundEffect(f, k, val);
      Step(FastReader(Or(f.buffer, WrappingShl(val, f.available)), f.available + 8 * k, f.raw[k..]), Ok(()))
  }

  /** The round's effect on the register and the content, whether or not its bits fit. */
  lemma {:induction false} LittleRoundEffect(f: FastReader, k: nat, val: u64)
    requires LittleInv(f) && 1 <= k <= |f.raw| && f.available < WORD_BITS
    requires f.available + 8 * k <= WORD_BITS || k == 1
    requires val == Value(LittleEndian, StreamBits(LittleEndian, f.raw[..k])) && val < Pow2(8 * k)
    ensures Or(f.buffer, WrappingShl(val, f.available)) < U64_LIMIT
    ensures var g := FastReader(Or(f.buffer, WrappingShl(val, f.available)), f.available + 8 * k, f.raw[k..]);
      var m := f.available + 8 * k;
      && LittleInv(g)
      && (m <= WORD_BITS ==> LittleContent(g) == LittleContent(f))
      && (m > WORD_BITS ==>
            LittleContent(g) == LittleContent(f)[..WORD_BITS] + Zeros(m - WORD_BITS) + LittleContent(f)[m..])
  {
    if f.available + 8 * k <= WORD_BITS {
      LittleRoundFits(f, k, val);
    } else {
      LittleRoundOverfills(f, val);
    }
  }

  /** With room for the round's bits, the little-endian round is `Insert` of the assembled word. */
  lemma {:induction false} LittleRoundFits(f: FastReader, k: nat, val: u64)
    requires LittleInv(f) && 1 <= k <= |f.raw| && f.available + 8 * k <= WORD_BITS
    requires val == Value(LittleEndian, StreamBits(LittleEndian, f.raw[..k])) && val < Pow2(8 * k)
    ensures Or(f.buffer, WrappingShl(val, f.available)) < Pow2(f.available + 8 * k) <= U64_LIMIT
    ensures var g := FastReader(Or(f.buffer, WrappingShl(val, f.available)), f.available + 8 * k, f.raw[k..]);
      LittleContent(g) == LittleContent(f)
  {
    var a := Acc(f.buffer, f.available);
    assert f.available % WORD_BITS == f.available;
    var inserted := Insert(LittleEndian, a, val, 8 * k);
    assert Or(f.buffer, WrappingShl(val, f.available)) == inserted.register;
    var g := FastReader(inserted.register, inserted.occupancy, f.raw[k..]);
    ToBitsOfValue(LittleEndian, StreamBits(LittleEndian, f.raw[..k]));
    RoundKeepsContent(LittleEndian, f, k, g);
    Pow2Limit();
    Pow2Mono(f.available + 8 * k, WORD_BITS);
  }

  /**
   * A round past the register reads one byte; the register keeps its low
   * 64 - available bits, and the content has zeros in place of the rest.
   */
  lemma {:induction false} LittleRoundOverfills(f: FastReader, val: u64)
    requires LittleInv(f) && 1 <= |f.raw| && f.available < WORD_BITS < f.available + 8
    requires val == Value(LittleEndian, StreamBits(LittleEndian, f.raw[..1]))
    ensures Or(f.buffer, WrappingShl(val, f.available)) < U64_LIMIT <= Pow2(f.available + 8)
    ensures var g := FastReader(Or(f.buffer, WrappingShl(val, f.available)), f.available + 8, f.raw[1..]);
      var m := f.available + 8;
      LittleContent(g) == LittleContent(f)[..WORD_BITS] + Zeros(m - WORD_BITS) + LittleContent(f)[m..]
  {
    var a := f.available;
    var w := WORD_BITS - a;
    var p, rest := Lsb(f.buffer, a), StreamBits(LittleEndian, f.raw[1..]);
    var lo, hi := Lsb(val, w), Lsb(Above(val, w), 8 - w);
    FirstByte(f.raw);
    assert LittleContent(f) == p + ((lo + hi) + rest) by {
      LsbSplit(val, w, 8 - w);
    }
    SpliceAfterWord(p, lo, hi, rest);
    OverfillRegister(f.buffer, a, val);
    Pow2Mono(WORD_BITS, a + 8);
    Pow2Limit();
  }

  /** The first byte of a little-endian stream, as a number and as bits. */
  lemma {:induction false} FirstByte(raw: seq<byte>)
    requires 1 <= |raw|
    ensures Value(LittleEndian, StreamBits(LittleEndian, raw[..1])) == raw[0] < Pow2(8)
    ensures StreamBits(LittleEndian, raw) == Lsb(raw[0], 8) + StreamBits(LittleEndian, raw[1..])
  {
    var b := raw[0];
    assert raw[..1] == [b];
    StreamBitsOne(LittleEndian, b);
    ValueOfToBits(LittleEndian, b, 8);
    Pow2Limit();
    SmallMod(b, 8);
  }

  /** Where the first 64 elements end and the rest begins, in a sequence of four parts. */
  lemma SpliceAfterWord<T>(p: seq<T>, lo: seq<T>, hi: seq<T>, rest: seq<T>)
    requires |p| + |lo| == WORD_BITS
    ensures var c := p + ((lo + hi) + rest);
      c[..WORD_BITS] == p + lo && c[WORD_BITS + |hi|..] == rest
  {
    var c := p + ((lo + hi) + rest);
    assert c == ((p + lo) + hi) + rest;
  }

  /**
   * `buffer | val.wrapping_shl(available)` with `available` past 56: the
   * bits of val that land past bit 63 are dropped, and reading the register
   * past its width gives zeros.
   */
  lemma {:induction false} OverfillRegister(x: u64, a: nat, val: u64)
    requires x < Pow2(a) && a < WORD_BITS < a + 8 && val < Pow2(8)
    ensures Or(x, WrappingShl(val, a)) < U64_LIMIT
    ensures Lsb(Or(x, WrappingShl(val, a)), a + 8) == Lsb(x, a) + Lsb(val, WORD_BITS - a) + Zeros(a + 8 - WORD_BITS)
  {
    var low := OverfillShift(val, a);
    OverfillLowBits(x, a, val, low);
    LsbBeyond(Or(x, Shl(low, a)), WORD_BITS, a + 8 - WORD_BITS);
  }

  /** The register after the shift holds the first 64 bits of the content. */
  lemma {:induction false} OverfillLowBits(x: u64, a: nat, val: u64, low: u64)
    requires x < Pow2(a) && a < WORD_BITS && low == val % Pow2(WORD_BITS - a) < Pow2(WORD_BITS - a)
    ensures Or(x, Shl(low, a)) < Pow2(WORD_BITS) == U64_LIMIT
    ensures Lsb(Or(x, Shl(low, a)), WORD_BITS) == Lsb(x, a) + Lsb(val, WORD_BITS - a)
  {
    InsertLittleEndian(Acc(x, a), low, WORD_BITS - a, WORD_BITS);
    LsbMod(val, WORD_BITS - a);
    Pow2Limit();
  }

  /** `val.wrapping_shl(available)` keeps only the low 64 - available bits of val. */
  lemma {:induction false} OverfillShift(val: u64, a: nat) returns (low: u64)
    requires a < WORD_BITS
    ensures low == val % Pow2(WORD_BITS - a) < Pow2(WORD_BITS - a)
    ensures WrappingShl(val, a) == Shl(low, a)
  {
    var w := WORD_BITS - a;
    Pow2Limit();
    Pow2Mono(w, WORD_BITS);
    low := val % Pow2(w);
    assert a % WORD_BITS == a;
    ShlTruncates(val, a);
    ShlNoOverflow(low, a, w, WORD_BITS);
  }

  // ---------------------------------------------------------------------
  // FastBitReaderBig::read_bits_fast
  // ---------------------------------------------------------------------

  /**
   * The inputs on which the big-endian loop never reaches the underflowing
   * shift at fast/reader.rs:53: those of `Reader.ReadDefined`, and a fill
   * that falls short after taking every byte left, where the next round's
   * `read_exact` (fast/reader.rs:45) fails before the shift is computed.
   */
  predicate BigDefined(f: FastReader, n: nat)
    requires BigInv(f)
  {
    || Reader.ReadDefined(AsReader(BigEndian, f), n)
    || (f.available < n && |f.raw| == Reader.BytesToFill(f.available, n))
  }

  /**
   * The big-endian fill loop. Under `Reader.ReadDefined` the first round
   * reaches n bits. Otherwise the first round takes every byte left and the
   * second round's `read_exact` of one byte fails, leaving the bytes of the
   * first round in the register.
   */
  function BigFill(f: FastReader, n: nat): (s: Step<()>)
    requires BigInv(f) && IsBitCount(n) && BigDefined(f, n)
    ensures BigInv(s.reader)
    ensures s.result.Ok? <==>
      Reader.BytesToFill(f.available, n) <= |f.raw| && Reader.FillReaches(f.available, n)
    ensures s.result.Ok? ==>
      var k := Reader.BytesToFill(f.available, n);
      && BigContent(s.reader) == BigContent(f)
      && s.reader.available == f.available + 8 * k
      && n <= s.reader.available
    // The failure is `read_exact`'s, of kind `ErrorKind::UnexpectedEof` (module `Errors`).
    ensures s.result.Err? ==> s.result.error == UnexpectedEof && s.reader.raw == []
    ensures s.result.Err? && Reader.BytesToFill(f.available, n) > |f.raw| ==> s.reader == f.(raw := [])
    ensures s.result.Err? && Reader.BytesToFill(f.available, n) <= |f.raw| ==>
      BigContent(s.reader) == BigContent(f) && s.reader.available == f.available + 8 * |f.raw|
    decreases n - f.available
  {
    if f.available >= n then
      Step(f, Ok(()))
    else if f.available > WORD_BITS - 8 then
      // No whole byte fits, so the round asks for one byte; the source is empty here.
      Step(f.(raw := []), Err(UnexpectedEof))
    else
      var s := BigRound(f, n);
      match s.result
      case Err(e) => s
      case Ok(_) =>
        assert s.reader.available < n ==> s.reader.raw == [];
        BigFill(s.reader, n)
  }

  /**
   * `FastBitReaderBig::read_bits_fast(n)`: the next n bits, as
   * `read_bits` of a big-endian `BitReader` returns them, on the inputs
   * where the shift does not underflow.
   */
  function ReadBitsFastBig(f: FastReader, n: nat): (s: Step<u64>)
    requires BigInv(f) && BigDefined(f, n)
    ensures BigInv(s.reader)
    ensures !IsBitCount(n) ==> s == Step(f, Err(InvalidBitCount(n)))
    ensures IsBitCount(n) ==> (s.result.Ok? <==> n <= |BigContent(f)|)
    ensures s.result.Ok? ==>
      && s.result.value == Value(BigEndian, BigContent(f)[..n])
      && BigContent(s.reader) == BigContent(f)[n..]
      && s.reader.available == f.available + 8 * Reader.BytesToFill(f.available, n) - n
    // The failure is `read_exact`'s, of kind `ErrorKind::UnexpectedEof` (module `Errors`).
    ensures IsBitCount(n) && s.result.Err? ==> s.result.error == UnexpectedEof && s.reader.raw == []
    ensures IsBitCount(n) && s.result.Err? && Reader.BytesToFill(f.available, n) > |f.raw| ==>
      s.reader == f.(raw := [])
    ensures IsBitCount(n) && s.result.Err? && Reader.BytesToFill(f.available, n) <= |f.raw| ==>
      BigContent(s.reader) == BigContent(f) && s.reader.available == f.available + 8 * |f.raw|
  {
    match CheckBitCount(n)
    case Err(e) => Step(f, Err(e))
    case Ok(_) =>
      var g := BigFill(f, n);
      Reader.FillSucceeds(AsReader(BigEndian, f), n);
      match g.result
      case Err(e) => Step(g.reader, Err(e))
      case Ok(_) =>
        var h := g.reader;
        var result := Shr(h.buffer, WORD_BITS - n);
        var buffer := if n < WORD_BITS then Shl(h.buffer, n) else 0;
        BigTake(h, n);
        Step(FastReader(buffer, h.available - n, h.raw), Ok(result))
  }

  /**
   * With four bits available and seven bytes left, a 64-bit read fills to
   * 60 bits and then fails in `read_exact`: the standard reader would
   * underflow here, the fast one reports `UnexpectedEof` with the seven
   * bytes kept in the register.
   */
  lemma BigEofAfterShortFill(f: FastReader)
    requires BigInv(f) && f.available == 4 && |f.raw| == 7
    ensures BigDefined(f, 64) && !Reader.ReadDefined(AsReader(BigEndian, f), 64)
    ensures var s := ReadBitsFastBig(f, 64);
      && s.result == Err(UnexpectedEof)
      && s.reader.available == 60 && s.reader.raw == []
      && BigContent(s.reader) == BigContent(f)
  {
    assert Reader.BytesToFill(4, 64) == 7;
  }

  /** `buffer >> (64 - n)` is the n oldest bits, and `buffer <<= n` leaves the rest. */
  lemma {:induction false} BigTake(h: FastReader, n: nat)
    requires BigInv(h) && 1 <= n <= h.available
    ensures Shr(h.buffer, WORD_BITS - n) == Value(BigEndian, BigContent(h)[..n])
    ensures var buffer: u64 := if n < WORD_BITS then Shl(h.buffer, n) else 0;
      var g := FastReader(buffer, h.available - n, h.raw);
      BigInv(g) && BigContent(g) == BigContent(h)[n..]
  {
    var a := Acc(h.buffer, h.available);
    var p := Pending(BigEndian, a);
    var rest := Consume(BigEndian, a, n);
    assert Extract(BigEndian, a, n) == Shr(h.buffer, WORD_BITS - n);
    assert BigContent(h)[..n] == p[..n];
    assert BigContent(h)[n..] == p[n..] + StreamBits(BigEndian, h.raw);
  }

  /**
   * Where the shift does not underflow, the big-endian fast reader is
   * `BitReader::read_bits`. On the error path the two agree on the variant
   * only: the real errors differ in `io::ErrorKind` (see module `Errors`).
   * The agreement is also about the model's source, which returns every
   * byte asked for while any remain. The real `BitReader` reads through a
   * `BufReader` that returns short at each refill boundary, so over a stream
   * longer than its 8 KiB buffer a fill straddling a boundary fails at
   * reader.rs:42, where `read_exact` here succeeds.
   */
  lemma FastBigIsReadBits(f: FastReader, n: nat)
    requires BigInv(f) && Reader.ReadDefined(AsReader(BigEndian, f), n)
    ensures var s := ReadBitsFastBig(f, n);
      var t := Reader.ReadBits(AsReader(BigEndian, f), n);
      s.result == t.result && AsReader(BigEndian, s.reader) == t.reader
  {
    var s := ReadBitsFastBig(f, n);
    var t := Reader.ReadBits(AsReader(BigEndian, f), n);
    if s.result.Ok? {
      Reader.ReaderDetermined(AsReader(BigEndian, s.reader), t.reader);
    }
  }

  // ---------------------------------------------------------------------
  // FastBitReaderLittle::read_bits_fast
  // ---------------------------------------------------------------------

  /**
   * The reads whose fill goes past the register: fewer than n bits are
   * available and one round cannot reach n. (The big-endian reader
   * underflows on exactly these.)
   */
  predicate Overfills(available: nat, n: nat)
  {
    IsBitCount(n) && available < n && !Reader.FillReaches(available, n)
  }

  /**
   * The little-endian fill loop. Without an overfill it is the standard
   * fill. With one, it ends with 64 + available % 8 bits counted, of which
   * the last available % 8 are zeros standing in for the bits lost.
   */
  function LittleFill(f: FastReader, n: nat): (s: Step<()>)
    requires LittleInv(f) && IsBitCount(n)
    ensures LittleInv(s.reader)
    ensures s.result.Ok? ==> n <= s.reader.available
    ensures s.result.Err? ==> s.result.error == UnexpectedEof && s.reader.raw == []
    ensures f.available < n && !Overfills(f.available, n) ==>
      var k := Reader.BytesToFill(f.available, n);
      && (s.result.Ok? <==> k <= |f.raw|)
      && (s.result.Ok? ==> LittleContent(s.reader) == LittleContent(f) && s.reader.available == f.available + 8 * k)
    ensures Overfills(f.available, n) ==>
      var m := WORD_BITS + f.available % 8;
      var c := LittleContent(f);
      && (s.result.Ok? <==> m <= |c|)
      && (s.result.Ok? ==>
            s.reader.available == m && LittleContent(s.reader) == c[..WORD_BITS] + Zeros(f.available % 8) + c[m..])
    decreases n - f.available
  {
    if f.available >= n then
      Step(f, Ok(()))
    else
      var s := LittleRound(f, n);
      match s.result
      case Err(e) => s
      case Ok(_) =>
        LittleRoundThenFill(f.available, n, s.reader.available);
        LittleFill(s.reader, n)
  }

  /** The loop does nothing with n bits available, and fails at once when the source is short. */
  lemma LittleFillShortcuts(f: FastReader, n: nat)
    requires LittleInv(f) && IsBitCount(n)
    ensures f.available >= n ==> LittleFill(f, n) == Step(f, Ok(()))
    ensures f.available < n && RoundBytes(f.available, n) > |f.raw| ==>
      LittleFill(f, n) == Step(f.(raw := []), Err(UnexpectedEof))
  {
  }

  /**
   * What the first round leaves for the rest of the loop, in bit counts:
   * a round that starts at `available` bits ends at m.
   */
  lemma {:induction false} LittleRoundThenFill(available: nat, n: nat, m: nat)
    requires IsBitCount(n) && available < n && m == available + 8 * RoundBytes(available, n)
    ensures !Overfills(available, n) ==> n <= m
    ensures Overfills(available, n) && m < n ==>
      && available <= WORD_BITS - 8 && m <= WORD_BITS
      && Overfills(m, n)
      && m % 8 == available % 8
    ensures Overfills(available, n) && m >= n ==> m == WORD_BITS + available % 8
  {
    var k := RoundBytes(available, n);
    DivMod(available, 8);
    DivModUnique(m, 8, available / 8 + k, available % 8);
    Reader.FillReachesExactly(available, n);
    if m < n {
      Reader.FillReachesExactly(m, n);
    }
  }

  /** `buffer & mask` is the n oldest bits, and `buffer >>= n` leaves the rest. */
  lemma {:induction false} LittleTake(h: FastReader, n: nat)
    requires LittleInv(h) && 1 <= n <= WORD_BITS && n <= h.available
    ensures And(h.buffer, Mask(n)) == Value(LittleEndian, LittleContent(h)[..n]) < U64_LIMIT
    ensures var buffer: u64 := if n < WORD_BITS then Shr(h.buffer, n) else 0;
      var g := FastReader(buffer, h.available - n, h.raw);
      LittleInv(g) && LittleContent(g) == LittleContent(h)[n..]
  {
    var x := h.buffer;
    LsbSplit(x, n, h.available - n);
    assert n + (h.available - n) == h.available;
    LowMaskBound(x, n);
    ValueOfToBits(LittleEndian, x, n);
    AboveBound(x, n, h.available - n);
    if n == WORD_BITS {
      Pow2Limit();
      AboveBound(x, WORD_BITS, 0);
      assert Pow2(0) == 1;
    }
    var c := LittleContent(h);
    assert c[..n] == Lsb(x, n);
    assert c[n..] == Lsb(Above(x, n), h.available - n) + StreamBits(LittleEndian, h.raw);
  }

  /**
   * `FastBitReaderLittle::read_bits_fast(n)`: the next n bits of the content,
   * always; the content afterwards is the rest of it, except that an
   * overfilling read leaves zeros in place of the available % 8 bits
   * following the first 64.
   */
  function ReadBitsFastLittle(f: FastReader, n: nat): (s: Step<u64>)
    requires LittleInv(f)
    ensures LittleInv(s.reader)
    ensures !IsBitCount(n) ==> s == Step(f, Err(InvalidBitCount(n)))
    ensures IsBitCount(n) ==> (s.result.Ok? <==> n <= |LittleContent(f)|)
    ensures s.result.Ok? ==> s.result.value == Value(LittleEndian, LittleContent(f)[..n])
    ensures s.result.Ok? && !Overfills(f.available, n) ==> LittleContent(s.reader) == LittleContent(f)[n..]
    ensures s.result.Ok? && Overfills(f.available, n) ==>
      var m := WORD_BITS + f.available % 8;
      var c := LittleContent(f);
      m <= |c| && LittleContent(s.reader) == c[n..WORD_BITS] + Zeros(f.available % 8) + c[m..]
    // The failure is `read_exact`'s, of kind `ErrorKind::UnexpectedEof` (module `Errors`).
    ensures IsBitCount(n) && s.result.Err? ==> s.result.error == UnexpectedEof && s.reader.raw == []
  {
    match CheckBitCount(n)
    case Err(e) => Step(f, Err(e))
    case Ok(_) =>
      var g := LittleFill(f, n);
      LittleFillSucceeds(f, n);
      match g.result
      case Err(e) => Step(g.reader, Err(e))
      case Ok(_) =>
        LittleTakeFilled(f, n, g.reader)
  }

  /**
   * The take after a successful fill: `buffer & mask` is returned and
   * `buffer >>= n` (or a cleared register, when n == 64) is kept.
   */
  function LittleTakeFilled(f: FastReader, n: nat, h: FastReader): (s: Step<u64>)
    requires LittleInv(f) && IsBitCount(n) && LittleFill(f, n).result.Ok? && LittleFill(f, n).reader == h
    ensures LittleInv(s.reader) && s.result.Ok? && n <= h.available && n <= |LittleContent(f)|
    ensures s.result.value == Value(LittleEndian, LittleContent(f)[..n])
    ensures s.reader.available == h.available - n
    ensures !Overfills(f.available, n) ==> LittleContent(s.reader) == LittleContent(f)[n..]
    ensures Overfills(f.available, n) ==>
      var m := WORD_BITS + f.available % 8;
      var c := LittleContent(f);
      m <= |c| && LittleContent(s.reader) == c[n..WORD_BITS] + Zeros(f.available % 8) + c[m..]
  {
    LittleReadContent(f, n, h);
    LittleTake(h, n);
    var buffer := if n < WORD_BITS then Shr(h.buffer, n) else 0;
    Step(FastReader(buffer, h.available - n, h.raw), Ok(And(h.buffer, Mask(n))))
  }

  /** Without an overfill, the count left is that of `BitReader::read_bits`. */
  lemma LittleReadCount(f: FastReader, n: nat)
    requires LittleInv(f) && f.available <= WORD_BITS && IsBitCount(n) && !Overfills(f.available, n)
    ensures var s := ReadBitsFastLittle(f, n);
      s.result.Ok? ==> s.reader.available == f.available + 8 * Reader.BytesToFill(f.available, n) - n
  {
  }

  /** A first round with too few bytes in the source fails the read and empties the source. */
  lemma LittleReadShortRound(f: FastReader, n: nat)
    requires LittleInv(f) && IsBitCount(n) && f.available < n && RoundBytes(f.available, n) > |f.raw|
    ensures ReadBitsFastLittle(f, n) == Step(f.(raw := []), Err(UnexpectedEof))
  {
  }

  /** A fill that reaches n bits from fewer starts with room for a whole byte. */
  lemma {:induction false} ReachingLeavesRoom(a: nat, n: nat)
    requires a < n <= WORD_BITS && Reader.FillReaches(a, n)
    ensures a <= WORD_BITS - 8
  {
  }

  /** The fill fails exactly when the content is shorter than the read. */
  lemma LittleFillSucceeds(f: FastReader, n: nat)
    requires LittleInv(f) && IsBitCount(n)
    ensures LittleFill(f, n).result.Ok? <==> n <= |LittleContent(f)|
  {
    var a := f.available;
    var s := LittleFill(f, n);
    if a >= n {
      LittleFillShortcuts(f, n);
    } else if !Overfills(a, n) {
      ReachingLeavesRoom(a, n);
      assert s.result.Ok? <==> Reader.BytesToFill(a, n) <= |f.raw|;
      ReachingLength(a, n, |f.raw|);
    } else {
      assert s.result.Ok? <==> WORD_BITS + a % 8 <= a + 8 * |f.raw|;
      OverfillLength(a, n, |f.raw|);
    }
  }

  /** A reaching fill succeeds exactly when the source holds n bits with the register. */
  lemma {:induction false} ReachingLength(a: nat, n: nat, bytes: nat)
    requires a < n <= WORD_BITS && Reader.FillReaches(a, n)
    ensures Reader.BytesToFill(a, n) <= bytes <==> n <= a + 8 * bytes
  {
  }

  /**
   * The content length is a plus whole bytes, so when it passes
   * 56 + a % 8 bits it reaches 64 + a % 8.
   */
  lemma {:induction false} OverfillLength(a: nat, n: nat, bytes: nat)
    requires Overfills(a, n)
    ensures WORD_BITS + a % 8 <= a + 8 * bytes <==> n <= a + 8 * bytes
  {
    Reader.FillReachesExactly(a, n);
    DivMod(a, 8);
    assert a + 8 * bytes == 8 * (a / 8 + bytes) + a % 8;
  }

  lemma {:induction false} LittleReadContent(f: FastReader, n: nat, h: FastReader)
    requires LittleInv(f) && IsBitCount(n) && LittleFill(f, n).result.Ok? && LittleFill(f, n).reader == h
    ensures LittleInv(h) && n <= h.available && n <= |LittleContent(f)|
    ensures LittleContent(h)[..n] == LittleContent(f)[..n]
    ensures !Overfills(f.available, n) ==> LittleContent(h)[n..] == LittleContent(f)[n..]
    ensures Overfills(f.available, n) ==>
      var m := WORD_BITS + f.available % 8;
      var c := LittleContent(f);
      m <= |c| && LittleContent(h)[n..] == c[n..WORD_BITS] + Zeros(f.available % 8) + c[m..]
  {
    LittleFillSucceeds(f, n);
    if Overfills(f.available, n) {
      var m := WORD_BITS + f.available % 8;
      SpliceSlices(LittleContent(f), Zeros(f.available % 8), n, m);
    }
  }

  /** Cutting a sequence spliced after its first 64 elements before position n. */
  lemma SpliceSlices<T>(c: seq<T>, z: seq<T>, n: nat, m: nat)
    requires n <= WORD_BITS <= m <= |c|
    ensures (c[..WORD_BITS] + z + c[m..])[..n] == c[..n]
    ensures (c[..WORD_BITS] + z + c[m..])[n..] == c[n..WORD_BITS] + z + c[m..]
  {
  }

  /**
   * Where the standard reader is defined, the little-endian fast reader is
   * `BitReader::read_bits` of a little-endian `BitReader`. As for the
   * big-endian reader, the error paths agree on the variant, not on the
   * `io::ErrorKind`. The agreement holds only where `BitReader`'s own
   * `BufReader` does not return short, which it does at each refill
   * boundary of a stream longer than its 8 KiB buffer.
   */
  lemma FastLittleIsReadBits(f: FastReader, n: nat)
    requires LittleInv(f) && f.available <= WORD_BITS
    requires Reader.ReadDefined(AsReader(LittleEndian, f), n)
    ensures Reader.Inv(AsReader(LittleEndian, f))
    ensures var s := ReadBitsFastLittle(f, n);
      var t := Reader.ReadBits(AsReader(LittleEndian, f), n);
      s.result == t.result && AsReader(LittleEndian, s.reader) == t.reader
  {
    var r := AsReader(LittleEndian, f);
    var s := ReadBitsFastLittle(f, n);
    var t := Reader.ReadBits(r, n);
    assert LittleContent(f) == Reader.Content(r);
    if IsBitCount(n) && f.available < n && Overfills(f.available, n) {
      assert f.available <= WORD_BITS - 8;
      assert RoundBytes(f.available, n) > |f.raw|;
      LittleReadShortRound(f, n);
    }
    if s.result.Ok? {
      assert s.reader.available <= WORD_BITS;
      assert LittleContent(s.reader) == Reader.Content(AsReader(LittleEndian, s.reader));
      Reader.ReaderDetermined(AsReader(LittleEndian, s.reader), t.reader);
    }
  }

  /**
   * The values an overfilling little-endian read returns are right, but
   * the read after it returns zeros where the stream has the next
   * available % 8 bits.
   */
  lemma LittleOverfillReadsZeros(f: FastReader)
    requires LittleInv(f) && f.available < WORD_BITS && f.available % 8 != 0
    requires WORD_BITS + f.available % 8 <= |LittleContent(f)|
    ensures var s := ReadBitsFastLittle(f, WORD_BITS);
      && s.result == Ok(Value(LittleEndian, LittleContent(f)[..WORD_BITS]))
      && ReadBitsFastLittle(s.reader, f.available % 8).result == Ok(0)
  {
    var z := f.available % 8;
    Reader.FillReachesExactly(f.available, WORD_BITS);
    assert Overfills(f.available, WORD_BITS);
    var s := ReadBitsFastLittle(f, WORD_BITS);
    var c := LittleContent(f);
    assert LittleContent(s.reader)[..z] == Zeros(z);
    ToBitsOfZero(LittleEndian, z);
    ValueOfToBits(LittleEndian, 0, z);
  }

  /**
   * Against the standard reader repaired to read past the residue, the
   * little-endian fast reader returns the same values and fails on the
   * same reads; the contents left differ only after an overfill.
   */
  lemma FastLittleMatchesWide(f: FastReader, n: nat)
    requires LittleInv(f) && f.available <= WORD_BITS && IsBitCount(n)
    ensures Reader.Inv(AsReader(LittleEndian, f))
    ensures var s := ReadBitsFastLittle(f, n);
      var w := Reader.ReadBitsWide(AsReader(LittleEndian, f), n);
      && (s.result.Ok? <==> w.result.Ok?)
      && (s.result.Ok? ==> s.result.value == w.result.value)
      && (s.result.Ok? && !Overfills(f.available, n) ==>
            LittleContent(s.reader) == Reader.Content(w.reader))
  {
    assert LittleContent(f) == Reader.Content(AsReader(LittleEndian, f));
  }
}

=== FILE: reader.dfy ===
/**
 * `BitReader`: bits read out of a byte source through the accumulator.
 *
 * A read of n bits first tops the accumulator up with whole bytes from the
 * source (`put_into_bits_buffer`), as many as are needed to hold n bits but
 * never more than fit, and then takes the n oldest bits out of the register
 * (`get_from_bits_buffer`). A peek does the same without removing the bits.
 * The byte passthrough `read` drops whatever bits are still buffered and
 * reads bytes straight from the source.
 *
 * The reader's abstract state is `Content`: the pending bits followed by the
 * bits of the bytes not yet pulled from the source. A read returns a prefix
 * of it and leaves the rest.
 */
module Reader {
  import opened Word
  import opened BitSeq
  import opened Accumulator
  import opened Errors

  /** `BitReader<R>`: the byte order, the accumulator and the bytes the source has yet to deliver. */
  datatype BitReader = BitReader(order: ByteOrder, acc: Acc, source: seq<byte>)

  /** The reader after an operation, with what the operation returned. */
  datatype Step<T> = Step(reader: BitReader, result: Result<T>)

  predicate Inv(r: BitReader)
  {
    Valid(r.order, r.acc)
  }

  /** Every bit the reader can still deliver, in order. */
  function Content(r: BitReader): (bs: seq<bool>)
    requires Inv(r)
    ensures |bs| == r.acc.occupancy + 8 * |r.source|
  {
    Pending(r.order, r.acc) + StreamBits(r.order, r.source)
  }

  /** `BitReader::with_byte_order`: an empty accumulator over the whole source. */
  function New(o: ByteOrder, source: seq<byte>): (r: BitReader)
    ensures Inv(r) && r.order == o && Content(r) == StreamBits(o, source)
  {
    EmptyValid(o);
    BitReader(o, Empty, source)
  }

  // ---------------------------------------------------------------------
  // put_into_bits_buffer
  // ---------------------------------------------------------------------

  /**
   * The number of bytes a fill for n bits pulls: enough to hold n bits
   * (`ceil((n - occ) / 8)`, with a saturating subtraction), capped by the
   * whole bytes that still fit in the register.
   */
  function BytesToFill(occ: nat, n: nat): (k: nat)
    requires occ <= WORD_BITS
    ensures occ + 8 * k <= WORD_BITS
    ensures k == 0 <==> n <= occ || occ > WORD_BITS - 8
    ensures k > 0 ==> occ + 8 * (k - 1) < n
    ensures n <= occ + 8 * k || occ + 8 * k > WORD_BITS - 8
  {
    var bitsNeeded := if n > occ then n - occ else 0;
    Min((bitsNeeded + 7) / 8, (WORD_BITS - occ) / 8)
  }

  /** Whether the fill for n bits leaves at least n bits in the register. */
  predicate FillReaches(occ: nat, n: nat)
    requires occ <= WORD_BITS
  {
    n <= occ + 8 * BytesToFill(occ, n)
  }

  /**
   * The fill falls short exactly when the occupancy is not a multiple of
   * eight and more than 56 + occ % 8 bits are asked for: the register has
   * room for whole bytes only, and 64 - occ is then not a multiple of eight.
   */
  lemma FillReachesExactly(occ: nat, n: nat)
    requires occ <= WORD_BITS && n <= WORD_BITS
    ensures FillReaches(occ, n) <==> occ % 8 == 0 || n <= 56 + occ % 8
  {
  }

  /** One iteration of the fill loop: `bits_buffer |= (b as u64).wrapping_shl(shift)`, occupancy up by 8. */
  function MergeByte(o: ByteOrder, a: Acc, b: byte): (r: Acc)
    requires Valid(o, a) && a.occupancy <= WORD_BITS - 8
    ensures Valid(o, r) && r.occupancy == a.occupancy + 8
    ensures Pending(o, r) == Pending(o, a) + ByteBits(o, b)
  {
    var shift := match o
      case BigEndian => WORD_BITS - 8 - a.occupancy
      case LittleEndian => a.occupancy;
    MergeByteIsInsert(o, a, b, shift);
    Acc(Or(a.register, WrappingShl(b, shift)), Min(a.occupancy + 8, WORD_BITS))
  }

  lemma MergeByteIsInsert(o: ByteOrder, a: Acc, b: byte, shift: nat)
    requires Valid(o, a) && a.occupancy <= WORD_BITS - 8
    requires shift == match o
      case BigEndian => WORD_BITS - 8 - a.occupancy
      case LittleEndian => a.occupancy
    ensures b < Pow2(8) && Or(a.register, WrappingShl(b, shift)) == Insert(o, a, b, 8).register
    ensures b < Pow2(8) && Min(a.occupancy + 8, WORD_BITS) == Insert(o, a, b, 8).occupancy
  {
    Pow2Limit();
    assert WrappingShl(b, shift) == Shl(b, shift);
  }

  /** The fill loop over the bytes read: their bits join the pending bits in stream order. */
  function MergeBytes(o: ByteOrder, a: Acc, bytes: seq<byte>): (r: Acc)
    requires Valid(o, a) && a.occupancy + 8 * |bytes| <= WORD_BITS
    ensures Valid(o, r) && r.occupancy == a.occupancy + 8 * |bytes|
    ensures Pending(o, r) == Pending(o, a) + StreamBits(o, bytes)
    decreases |bytes|
  {
    if |bytes| == 0 then a
    else MergeBytes(o, MergeByte(o, a, bytes[0]), bytes[1..])
  }

  /**
   * `put_into_bits_buffer(n)`. A source that delivers fewer bytes than
   * asked for fails the fill with `UnexpectedEof`; the bytes it did deliver
   * are gone, and the accumulator is left as it was. The model's source
   * delivers fewer only when it holds fewer. The reader's real `BufReader`
   * also does so at a refill boundary of its 8 KiB buffer, which the model
   * does not capture.
   */
  function Fill(r: BitReader, n: nat): (s: Step<()>)
    requires Inv(r)
    ensures Inv(s.reader) && s.reader.order == r.order
    ensures s.result.Ok? <==> BytesToFill(r.acc.occupancy, n) <= |r.source|
    ensures s.result.Ok? ==>
      && Content(s.reader) == Content(r)
      && s.reader.acc.occupancy == r.acc.occupancy + 8 * BytesToFill(r.acc.occupancy, n)
      && s.reader.source == r.source[BytesToFill(r.acc.occupancy, n)..]
    ensures s.result.Err? ==>
      s.result.error == UnexpectedEof && s.reader.acc == r.acc && s.reader.source == []
  {
    var k := BytesToFill(r.acc.occupancy, n);
    if k == 0 then
      Step(r, Ok(()))
    else if |r.source| < k then
      Step(r.(source := []), Err(UnexpectedEof))
    else
      var filled := BitReader(r.order, MergeBytes(r.order, r.acc, r.source[..k]), r.source[k..]);
      FilledContent(r, k, filled);
      Step(filled, Ok(()))
  }

  lemma FilledContent(r: BitReader, k: nat, filled: BitReader)
    requires Inv(r) && k <= |r.source| && r.acc.occupancy + 8 * k <= WORD_BITS
    requires filled == BitReader(r.order, MergeBytes(r.order, r.acc, r.source[..k]), r.source[k..])
    ensures Inv(filled) && Content(filled) == Content(r)
  {
    var o := r.order;
    StreamBitsPrefix(o, r.source, k);
    calc {
      Content(filled);
      Pending(o, filled.acc) + StreamBits(o, r.source[k..]);
      (Pending(o, r.acc) + StreamBits(o, r.source[..k])) + StreamBits(o, r.source[k..]);
      Pending(o, r.acc) + (StreamBits(o, r.source[..k]) + StreamBits(o, r.source[k..]));
      Content(r);
    }
  }

  // ---------------------------------------------------------------------
  // get_from_bits_buffer
  // ---------------------------------------------------------------------

  /**
   * `get_from_bits_buffer(n, take)`: the n oldest buffered bits, removed
   * when `take` is set. Taking more bits than are buffered underflows the
   * occupancy (reader.rs:100), so callers must not; peeking past the
   * buffered bits yields them followed by zeros.
   */
  function GetFromBuffer(r: BitReader, n: nat, take: bool): (s: Step<u64>)
    requires Inv(r) && 1 <= n <= WORD_BITS && (take ==> n <= r.acc.occupancy)
    ensures Inv(s.reader) && s.result.Ok?
    ensures s.reader.order == r.order && s.reader.source == r.source
    ensures n <= r.acc.occupancy ==> s.result.value == Value(r.order, Content(r)[..n])
    ensures n > r.acc.occupancy ==>
      s.result.value == Value(r.order, Pending(r.order, r.acc) + Zeros(n - r.acc.occupancy))
    ensures take ==>
      && Content(s.reader) == Content(r)[n..]
      && s.reader.acc.occupancy == r.acc.occupancy - n
      && (n == WORD_BITS ==> s.reader.acc.register == 0)
    ensures !take ==> s.reader == r
  {
    var o := r.order;
    var v := Extract(o, r.acc, n);
    ExtractBeyond(o, r.acc, n);
    assert n <= r.acc.occupancy ==> Content(r)[..n] == Pending(o, r.acc)[..n];
    if take then
      var a := Consume(o, r.acc, n);
      assert Content(r)[n..] == Pending(o, r.acc)[n..] + StreamBits(o, r.source);
      Step(r.(acc := a), Ok(v))
    else
      Step(r, Ok(v))
  }

  lemma ExtractBeyond(o: ByteOrder, a: Acc, n: nat)
    requires Valid(o, a) && 1 <= n <= WORD_BITS
    ensures n > a.occupancy ==> Extract(o, a, n) == Value(o, Pending(o, a) + Zeros(n - a.occupancy))
  {
    if n > a.occupancy {
      ExtractPadded(o, a, n);
    }
  }

  // ---------------------------------------------------------------------
  // read_bits, peek_bits, read
  // ---------------------------------------------------------------------

  /**
   * The inputs on which `read_bits(n)` does not underflow at reader.rs:100:
   * an invalid count, a fill that fails, or a fill that reaches n bits.
   */
  predicate ReadDefined(r: BitReader, n: nat)
    requires Inv(r)
  {
    IsBitCount(n) && BytesToFill(r.acc.occupancy, n) <= |r.source| ==> FillReaches(r.acc.occupancy, n)
  }

  /** With whole bytes buffered, or at most 57 bits asked for, a read never underflows. */
  lemma ReadDefinedWhenAligned(r: BitReader, n: nat)
    requires Inv(r) && (r.acc.occupancy % 8 == 0 || n <= 57)
    ensures ReadDefined(r, n)
  {
    if IsBitCount(n) {
      FillReachesExactly(r.acc.occupancy, n);
    }
  }

  /** A fill fails exactly when the content holds fewer bits than asked for. */
  lemma FillSucceeds(r: BitReader, n: nat)
    requires Inv(r)
    ensures ReadDefined(r, n) && IsBitCount(n) ==>
      (BytesToFill(r.acc.occupancy, n) <= |r.source| <==> n <= |Content(r)|)
  {
  }

  /**
   * `read_bits(n)`: the next n bits of the content, as a number under the
   * reader's order; the content loses exactly those bits.
   */
  function ReadBits(r: BitReader, n: nat): (s: Step<u64>)
    requires Inv(r) && ReadDefined(r, n)
    ensures Inv(s.reader) && s.reader.order == r.order
    ensures !IsBitCount(n) ==> s == Step(r, Err(InvalidBitCount(n)))
    ensures IsBitCount(n) ==> (s.result.Ok? <==> n <= |Content(r)|)
    ensures s.result.Ok? ==>
      && s.result.value == Value(r.order, Content(r)[..n])
      && Content(s.reader) == Content(r)[n..]
      && s.reader.acc.occupancy == r.acc.occupancy + 8 * BytesToFill(r.acc.occupancy, n) - n
    ensures IsBitCount(n) && s.result.Err? ==>
      s.result.error == UnexpectedEof && s.reader.acc == r.acc && s.reader.source == []
  {
    match CheckBitCount(n)
    case Err(e) => Step(r, Err(e))
    case Ok(_) =>
      var f := Fill(r, n);
      FillSucceeds(r, n);
      match f.result
      case Err(e) => Step(f.reader, Err(e))
      case Ok(_) => GetFromBuffer(f.reader, n, true)
  }

  /**
   * `peek_bits(n)`: the fill of `read_bits` without the take. When the fill
   * cannot reach n bits, the value is the bits it reached followed by zeros.
   */
  function PeekBits(r: BitReader, n: nat): (s: Step<u64>)
    requires Inv(r)
    ensures Inv(s.reader) && s.reader.order == r.order
    ensures !IsBitCount(n) ==> s == Step(r, Err(InvalidBitCount(n)))
    ensures IsBitCount(n) ==> (s.result.Ok? <==> BytesToFill(r.acc.occupancy, n) <= |r.source|)
    ensures IsBitCount(n) && ReadDefined(r, n) ==> (s.result.Ok? <==> n <= |Content(r)|)
    ensures s.result.Ok? ==>
      && Content(s.reader) == Content(r)
      && s.reader.acc.occupancy == r.acc.occupancy + 8 * BytesToFill(r.acc.occupancy, n)
    ensures s.result.Ok? && FillReaches(r.acc.occupancy, n) ==>
      s.result.value == Value(r.order, Content(r)[..n])
    ensures s.result.Ok? && !FillReaches(r.acc.occupancy, n) ==>
      var m := r.acc.occupancy + 8 * BytesToFill(r.acc.occupancy, n);
      s.result.value == Value(r.order, Content(r)[..m] + Zeros(n - m))
    ensures IsBitCount(n) && s.result.Err? ==>
      s.result.error == UnexpectedEof && s.reader.acc == r.acc && s.reader.source == []
  {
    match CheckBitCount(n)
    case Err(e) => Step(r, Err(e))
    case Ok(_) =>
      var f := Fill(r, n);
      FillSucceeds(r, n);
      match f.result
      case Err(e) => Step(f.reader, Err(e))
      case Ok(_) =>
        var g := GetFromBuffer(f.reader, n, false);
        assert f.reader.acc.occupancy < n ==>
          Pending(r.order, f.reader.acc) == Content(r)[..f.reader.acc.occupancy];
        g
  }

  /**
   * `Read::read` into a buffer of `len` bytes: buffered bits are dropped,
   * then the source delivers as many bytes as it has, up to `len`.
   */
  function ReadBytes(r: BitReader, len: nat): (s: Step<seq<byte>>)
    requires Inv(r)
    ensures Inv(s.reader) && s.reader.order == r.order && s.result.Ok?
    ensures |s.result.value| == Min(len, |r.source|)
    ensures s.reader.acc == Empty
    ensures var skip := r.acc.occupancy;
      && StreamBits(r.order, s.result.value) == Content(r)[skip..skip + 8 * |s.result.value|]
      && Content(s.reader) == Content(r)[skip + 8 * |s.result.value|..]
  {
    var m := Min(len, |r.source|);
    EmptyValid(r.order);
    StreamBitsPrefix(r.order, r.source, m);
    Step(BitReader(r.order, Empty, r.source[m..]), Ok(r.source[..m]))
  }

  /** A reader is determined by its order, its occupancy and its content. */
  lemma {:induction false} ReaderDetermined(r: BitReader, t: BitReader)
    requires Inv(r) && Inv(t) && r.order == t.order && r.acc.occupancy == t.acc.occupancy
    requires Content(r) == Content(t)
    ensures r == t
  {
    var o, k := r.order, r.acc.occupancy;
    assert |r.source| == |t.source|;
    assert Pending(o, r.acc) == Content(r)[..k] == Pending(o, t.acc);
    assert StreamBits(o, r.source) == Content(r)[k..] == StreamBits(o, t.source);
    StreamBitsInjective(o, r.source, t.source);
    PendingDetermines(o, r.acc, t.acc);
  }

  // ---------------------------------------------------------------------
  // Properties relating the operations
  // ---------------------------------------------------------------------

  /**
   * A peek changes nothing a read can observe: reading after a successful
   * peek needs no further fill and returns what reading straight away would,
   * leaving the reader in the same state.
   */
  lemma PeekThenRead(r: BitReader, n: nat)
    requires Inv(r) && IsBitCount(n) && ReadDefined(r, n)
    requires PeekBits(r, n).result.Ok?
    ensures var p := PeekBits(r, n).reader;
      && BytesToFill(p.acc.occupancy, n) == 0
      && ReadDefined(p, n)
      && ReadBits(p, n) == ReadBits(r, n)
      && ReadBits(p, n).result == PeekBits(r, n).result
  {
    var f := Fill(r, n);
    FillSucceeds(r, n);
    assert f.reader == PeekBits(r, n).reader;
    assert Fill(f.reader, n) == Step(f.reader, Ok(()));
  }

  /**
   * Reading a bits and then b bits consumes the next a + b bits, and fails
   * exactly when there are fewer.
   */
  lemma ReadTwice(r: BitReader, a: nat, b: nat)
    requires Inv(r) && IsBitCount(a) && IsBitCount(b) && ReadDefined(r, a)
    requires ReadBits(r, a).result.Ok?
    requires ReadDefined(ReadBits(r, a).reader, b)
    ensures var t := ReadBits(ReadBits(r, a).reader, b);
      && (t.result.Ok? <==> a + b <= |Content(r)|)
      && (t.result.Ok? ==> Content(t.reader) == Content(r)[a + b..])
  {
    var s := ReadBits(r, a);
    var t := ReadBits(s.reader, b);
    var c := Content(r);
    assert Content(s.reader) == c[a..];
    if t.result.Ok? {
      SplitPrefix(c, a, b);
    }
  }

  /**
   * The two values read by consecutive reads of a and b bits make up the
   * value of the a + b bits: under big-endian order the first read gives
   * the high part, under little-endian order the low part.
   */
  lemma ReadTwiceValue(r: BitReader, a: nat, b: nat)
    requires Inv(r) && IsBitCount(a) && IsBitCount(b) && ReadDefined(r, a)
    requires ReadBits(r, a).result.Ok?
    requires ReadDefined(ReadBits(r, a).reader, b)
    ensures var s := ReadBits(r, a);
      var t := ReadBits(s.reader, b);
      t.result.Ok? ==>
        Value(r.order, Content(r)[..a + b]) == Join(r.order, s.result.value, a, t.result.value, b)
  {
    var o := r.order;
    var s := ReadBits(r, a);
    var t := ReadBits(s.reader, b);
    var c := Content(r);
    if t.result.Ok? {
      SplitPrefix(c, a, b);
      PrefixValue(o, c, a, b);
    }
  }

  // ---------------------------------------------------------------------
  // The short fill
  // ---------------------------------------------------------------------

  /**
   * With four bits buffered, the fill for a 64-bit read stops at 60 bits:
   * seven more bytes are all the register has room for. The take at
   * reader.rs:100 then subtracts 64 from an occupancy of 60.
   */
  lemma FillStopsShort(r: BitReader)
    requires Inv(r) && r.acc.occupancy == 4 && |r.source| >= 7
    ensures Fill(r, 64).result.Ok?
    ensures Fill(r, 64).reader.acc.occupancy == 60 < 64
    ensures !ReadDefined(r, 64)
  {
  }

  /**
   * `read_bits` with the short fill repaired: when the fill cannot reach n
   * bits, the buffered residue is taken first and the remaining bits are
   * read from the now byte-aligned accumulator, then the two parts are
   * joined. Wherever `read_bits` is defined it is left as it is.
   */
  function ReadBitsWide(r: BitReader, n: nat): (s: Step<u64>)
    requires Inv(r)
    ensures Inv(s.reader) && s.reader.order == r.order
    ensures ReadDefined(r, n) ==> s == ReadBits(r, n)
    ensures !IsBitCount(n) ==> s == Step(r, Err(InvalidBitCount(n)))
    ensures IsBitCount(n) ==> (s.result.Ok? <==> n <= |Content(r)|)
    ensures s.result.Ok? ==>
      && s.result.value == Value(r.order, Content(r)[..n])
      && Content(s.reader) == Content(r)[n..]
    ensures IsBitCount(n) && s.result.Err? ==> s.result.error == UnexpectedEof
  {
    if ReadDefined(r, n) then ReadBits(r, n) else ReadPastResidue(r, n)
  }

  /** The repaired path: take the occ buffered bits, then read n - occ more. */
  function ReadPastResidue(r: BitReader, n: nat): (s: Step<u64>)
    requires Inv(r) && !ReadDefined(r, n)
    ensures Inv(s.reader) && s.reader.order == r.order
    ensures s.result.Ok? <==> n <= |Content(r)|
    ensures s.result.Ok? ==>
      && s.result.value == Value(r.order, Content(r)[..n])
      && Content(s.reader) == Content(r)[n..]
    ensures s.result.Err? ==> s.result.error == UnexpectedEof
  {
    var occ := r.acc.occupancy;
    ResidueFacts(r, n);
    var h := GetFromBuffer(r, occ, true);
    var rest := Content(h.reader);
    assert |rest| == |Content(r)| - occ;
    var l := ReadBits(h.reader, n - occ);
    match l.result
    case Err(e) => Step(l.reader, Err(e))
    case Ok(lo) =>
      assert lo == Value(r.order, rest[..n - occ]);
      var v := JoinResidue(r, h.result.value, rest, lo, n);
      assert Content(l.reader) == rest[n - occ..] == Content(r)[n..];
      Step(l.reader, Ok(v))
  }

  /** Where `read_bits` is undefined, some bits are buffered, fewer than asked for, and what follows them is aligned. */
  lemma ResidueFacts(r: BitReader, n: nat)
    requires Inv(r) && !ReadDefined(r, n)
    ensures IsBitCount(n) && 1 <= r.acc.occupancy < n
    ensures var h := GetFromBuffer(r, r.acc.occupancy, true).reader;
      h.acc.occupancy == 0 && ReadDefined(h, n - r.acc.occupancy)
      && Content(h) == Content(r)[r.acc.occupancy..]
  {
    FillReachesExactly(r.acc.occupancy, n);
    FillReachesExactly(0, n - r.acc.occupancy);
  }

  /** The residue's value joined with the value of the bits read after it is the value of the first n bits. */
  function JoinResidue(r: BitReader, hi: nat, rest: seq<bool>, lo: nat, n: nat): (v: u64)
    requires Inv(r) && 1 <= r.acc.occupancy < n <= WORD_BITS && n <= |Content(r)|
    requires hi == Value(r.order, Content(r)[..r.acc.occupancy])
    requires rest == Content(r)[r.acc.occupancy..]
    requires lo == Value(r.order, rest[..n - r.acc.occupancy])
    ensures v == Value(r.order, Content(r)[..n])
  {
    var c, occ := Content(r), r.acc.occupancy;
    SplitPrefix(c, occ, n - occ);
    PrefixValue(r.order, c, occ, n - occ);
    ValueBound(r.order, c[..n]);
    Pow2Mono(n, WORD_BITS);
    Pow2Limit();
    Join(r.order, hi, occ, lo, n - occ)
  }
}

=== FILE: roundtrip.dfy ===
/**
 * Writing a sequence of bit fields with `BitWriter` and reading them back
 * with `BitReader` under the same byte order.
 *
 * The writer side appends each field's bits (`write_bits`) and pads the last
 * byte (`flush`); the reader side reads the fields back one count at a time
 * (`read_bits`). Both are related to a pure definition on bit sequences:
 * `FieldBits` says which bits a list of fields denotes, and `Decode` splits a
 * bit sequence into numbers of the given widths. The round trip then says
 * the reader returns every field's low bits.
 *
 * The first part is stated for the repaired operations (`Writer.WriteBits`,
 * with the little-endian split in order, and `Reader.ReadBitsWide`, with the
 * short fill repaired), and holds for every list of valid fields. The last
 * part is stated for the code's own `write_bits` and `read_bits`: they agree
 * with the repaired ones, and so complete the same round trip, whenever
 * every field fits the register from its position within its first byte
 * (`FitsRegister`).
 */
module RoundTrip {
  import opened Word
  import opened BitSeq
  import opened Accumulator
  import opened Errors
  import Writer
  import Reader

  /** A `write_bits(value, width)` call. */
  datatype Field = Field(value: u64, width: nat)

  predicate AllBitCounts(fs: seq<Field>)
  {
    forall i :: 0 <= i < |fs| ==> IsBitCount(fs[i].width)
  }

  /** The bits a list of fields stands for: each field's `width` low bits, in stream order. */
  function FieldBits(o: ByteOrder, fs: seq<Field>): (bs: seq<bool>)
    ensures |bs| == Sum(Widths(fs))
  {
    if |fs| == 0 then []
    else
      assert Widths(fs)[1..] == Widths(fs[1..]);
      ToBits(o, fs[0].value, fs[0].width) + FieldBits(o, fs[1..])
  }

  function Widths(fs: seq<Field>): (ws: seq<nat>)
    ensures |ws| == |fs| && forall i :: 0 <= i < |fs| ==> ws[i] == fs[i].width
  {
    if |fs| == 0 then [] else [fs[0].width] + Widths(fs[1..])
  }

  /** What reading a field back can give at best: its value's `width` low bits. */
  function Masked(fs: seq<Field>): (vs: seq<u64>)
    requires AllBitCounts(fs)
    ensures |vs| == |fs|
  {
    if |fs| == 0 then []
    else
      AllBitCountsCons(fs);
      LowMaskBound(fs[0].value, fs[0].width);
      [fs[0].value % Pow2(fs[0].width)] + Masked(fs[1..])
  }

  /**
   * The reference reading of a bit sequence as numbers of the given widths,
   * failing like `read_bits` does: on a count outside 1..=64 and on running
   * out of bits.
   */
  function Decode(o: ByteOrder, c: seq<bool>, widths: seq<nat>): (r: Result<seq<u64>>)
    ensures r.Ok? ==> |r.value| == |widths|
    decreases |widths|
  {
    if |widths| == 0 then Ok([])
    else
      var n := widths[0];
      if !IsBitCount(n) then Err(InvalidBitCount(n))
      else if |c| < n then Err(UnexpectedEof)
      else
        var v := FieldValue(o, c[..n]);
        match Decode(o, c[n..], widths[1..])
        case Err(e) => Err(e)
        case Ok(vs) => Ok([v] + vs)
  }

  /** The number a run of at most 64 bits denotes, as a `u64`. */
  function FieldValue(o: ByteOrder, bs: seq<bool>): (v: u64)
    requires |bs| <= WORD_BITS
    ensures v == Value(o, bs)
  {
    ValueBound(o, bs);
    Pow2Mono(|bs|, WORD_BITS);
    Pow2Limit();
    Value(o, bs)
  }

  // ---------------------------------------------------------------------
  // The writer side
  // ---------------------------------------------------------------------

  /**
   * One repaired `write_bits` per field, in order; the first invalid count
   * stops the sequence.
   */
  function WriteFields(w: Writer.BitWriter, fs: seq<Field>): (s: Writer.Step<()>)
    requires Writer.Inv(w) && w.acc.occupancy < 8
    ensures Writer.Inv(s.writer) && s.writer.order == w.order && s.writer.acc.occupancy < 8
    ensures s.result.Ok? <==> AllBitCounts(fs)
    ensures s.result.Ok? ==> Writer.Written(s.writer) == Writer.Written(w) + FieldBits(w.order, fs)
    decreases |fs|
  {
    if |fs| == 0 then
      Writer.Step(w, Ok(()))
    else
      var h := Writer.WriteBits(w, fs[0].value, fs[0].width);
      match h.result
      case Err(e) =>
        Writer.Step(h.writer, Err(e))
      case Ok(_) =>
        var t := WriteFields(h.writer, fs[1..]);
        AllBitCountsCons(fs);
        if t.result.Ok? then
          Writer.RoundsCompose(Writer.Written(w), ToBits(w.order, fs[0].value, fs[0].width),
            FieldBits(w.order, fs[1..]), Writer.Written(h.writer), Writer.Written(t.writer));
          t
        else
          t
  }

  lemma AllBitCountsCons(fs: seq<Field>)
    requires |fs| > 0
    ensures AllBitCounts(fs) <==> IsBitCount(fs[0].width) && AllBitCounts(fs[1..])
  {
    if IsBitCount(fs[0].width) && AllBitCounts(fs[1..]) {
      forall i | 0 <= i < |fs|
        ensures IsBitCount(fs[i].width)
      {
        if i > 0 {
          assert fs[i] == fs[1..][i - 1];
        }
      }
    }
  }

  /** The bytes a fresh repaired writer hands its sink for the fields, after `flush`. */
  function Encode(o: ByteOrder, fs: seq<Field>): (bytes: seq<byte>)
    requires AllBitCounts(fs)
    ensures StreamBits(o, bytes) == FieldBits(o, fs) + Zeros(Padding8(Sum(Widths(fs))))
  {
    var w0 := Writer.New(o);
    var w := WriteFields(w0, fs).writer;
    assert Writer.Written(w) == FieldBits(o, fs) by {
      assert Writer.Written(w) == Writer.Written(w0) + FieldBits(o, fs);
      assert Writer.Written(w0) == [];
    }
    var f := Writer.Flush(w);
    PaddingOfTotal(|w.sink|, w.acc.occupancy, Sum(Widths(fs)));
    f.writer.sink
  }

  /** The zeros that pad `total` bits to a whole number of bytes. */
  function Padding8(total: nat): (z: nat)
    ensures z < 8 && (total + z) % 8 == 0
  {
    if total % 8 == 0 then 0 else 8 - total % 8
  }

  lemma PaddingOfTotal(bytes: nat, occ: nat, total: nat)
    requires occ < 8 && total == 8 * bytes + occ
    ensures Writer.Padding(occ) == Padding8(total)
  {
    DivModUnique(total, 8, bytes, occ);
  }

  // ---------------------------------------------------------------------
  // The reader side
  // ---------------------------------------------------------------------

  /** One repaired `read_bits` per width, in order; the first failure stops the sequence. */
  function ReadFields(r: Reader.BitReader, widths: seq<nat>): (s: Reader.Step<seq<u64>>)
    requires Reader.Inv(r)
    ensures Reader.Inv(s.reader) && s.reader.order == r.order
    decreases |widths|
  {
    if |widths| == 0 then
      Reader.Step(r, Ok([]))
    else
      var h := Reader.ReadBitsWide(r, widths[0]);
      match h.result
      case Err(e) => Reader.Step(h.reader, Err(e))
      case Ok(v) =>
        var t := ReadFields(h.reader, widths[1..]);
        match t.result
        case Err(e) => Reader.Step(t.reader, Err(e))
        case Ok(vs) => Reader.Step(t.reader, Ok([v] + vs))
  }

  function Sum(ws: seq<nat>): nat
  {
    if |ws| == 0 then 0 else ws[0] + Sum(ws[1..])
  }

  /**
   * Reading the fields back is the reference decoding of the reader's
   * content, and a successful read leaves the content after the fields.
   */
  lemma {:induction false} ReadFieldsDecodes(r: Reader.BitReader, widths: seq<nat>)
    requires Reader.Inv(r)
    ensures ReadFields(r, widths).result == Decode(r.order, Reader.Content(r), widths)
    ensures ReadFields(r, widths).result.Ok? ==>
      Sum(widths) <= |Reader.Content(r)| &&
      Reader.Content(ReadFields(r, widths).reader) == Reader.Content(r)[Sum(widths)..]
    decreases |widths|
  {
    if |widths| > 0 {
      var n := widths[0];
      var c := Reader.Content(r);
      var h := Reader.ReadBitsWide(r, n);
      if h.result.Ok? {
        ReadFieldsDecodes(h.reader, widths[1..]);
        if ReadFields(r, widths).result.Ok? {
          assert c[n..][Sum(widths[1..])..] == c[Sum(widths)..];
        }
      }
    }
  }

  /** Decoding the bits of the fields, whatever follows them, gives back each field's low bits. */
  lemma {:induction false} DecodeFieldBits(o: ByteOrder, fs: seq<Field>, rest: seq<bool>)
    requires AllBitCounts(fs)
    ensures Decode(o, FieldBits(o, fs) + rest, Widths(fs)) == Ok(Masked(fs))
    decreases |fs|
  {
    if |fs| > 0 {
      var n := fs[0].width;
      var head := ToBits(o, fs[0].value, n);
      var c := FieldBits(o, fs) + rest;
      AllBitCountsCons(fs);
      assert c == head + (FieldBits(o, fs[1..]) + rest);
      assert c[..n] == head && c[n..] == FieldBits(o, fs[1..]) + rest;
      ValueOfToBits(o, fs[0].value, n);
      assert Widths(fs)[1..] == Widths(fs[1..]);
      DecodeFieldBits(o, fs[1..], rest);
    }
  }

  // ---------------------------------------------------------------------
  // The round trip
  // ---------------------------------------------------------------------

  /**
   * Fields written by a fresh repaired writer and flushed are read back, by
   * a fresh repaired reader over the bytes, as their values' low bits,
   * whatever the byte order.
   */
  lemma EncodeThenRead(o: ByteOrder, fs: seq<Field>)
    requires AllBitCounts(fs)
    ensures ReadFields(Reader.New(o, Encode(o, fs)), Widths(fs)).result == Ok(Masked(fs))
  {
    var r := Reader.New(o, Encode(o, fs));
    ReadFieldsDecodes(r, Widths(fs));
    DecodeFieldBits(o, fs, Zeros(Padding8(Sum(Widths(fs)))));
  }

  /**
   * `write` on a fresh writer hands the buffer to the sink as it is, and
   * `read` of the same length on a fresh reader over those bytes returns it.
   */
  lemma BytesRoundTrip(o: ByteOrder, buf: seq<byte>)
    ensures Writer.Write(Writer.New(o), buf).writer.sink == buf
    ensures Reader.ReadBytes(Reader.New(o, buf), |buf|).result == Ok(buf)
  {
    assert buf[..|buf|] == buf;
  }

  // ---------------------------------------------------------------------
  // The round trip of the code as written
  // ---------------------------------------------------------------------

  /**
   * Whether every field, starting at bit `start` of the stream, fits the
   * 64-bit register together with the bits of its first byte before it:
   * `start % 8 + width <= 64`, up to the first invalid count, where the
   * sequence stops. Only `start % 8` matters.
   */
  predicate FitsRegister(start: nat, widths: seq<nat>)
    decreases |widths|
  {
    || |widths| == 0
    || !IsBitCount(widths[0])
    || (start % 8 + widths[0] <= WORD_BITS && FitsRegister(start + widths[0], widths[1..]))
  }

  /** Two starts with the same position within a byte fit the same fields. */
  lemma {:induction false} FitsRegisterPhase(a: nat, b: nat, widths: seq<nat>)
    requires a % 8 == b % 8 && FitsRegister(a, widths)
    ensures FitsRegister(b, widths)
    decreases |widths|
  {
    if |widths| > 0 && IsBitCount(widths[0]) {
      ModShift(a, b, widths[0]);
      FitsRegisterPhase(a + widths[0], b + widths[0], widths[1..]);
    }
  }

  lemma {:induction false} ModShift(a: nat, b: nat, w: nat)
    requires a % 8 == b % 8
    ensures (a + w) % 8 == (b + w) % 8
  {
    DivMod(a, 8);
    DivMod(b, 8);
    var r := a % 8;
    DivMod(r + w, 8);
    DivModUnique(a + w, 8, a / 8 + (r + w) / 8, (r + w) % 8);
    DivModUnique(b + w, 8, b / 8 + (r + w) / 8, (r + w) % 8);
  }

  lemma FitsFromPhase(a: nat, p: nat, widths: seq<nat>)
    requires FitsRegister(a, widths) && p == a % 8
    ensures FitsRegister(p, widths)
  {
    DivModUnique(p, 8, 0, p);
    FitsRegisterPhase(a, p, widths);
  }

  /** One `write_bits` per field, as the code writes them; the first invalid count stops the sequence. */
  function WriteFieldsAsWritten(w: Writer.BitWriter, fs: seq<Field>): (s: Writer.Step<()>)
    requires Writer.Inv(w) && w.acc.occupancy < 8
    ensures Writer.Inv(s.writer) && s.writer.order == w.order && s.writer.acc.occupancy < 8
    ensures s.result.Ok? <==> AllBitCounts(fs)
    decreases |fs|
  {
    if |fs| == 0 then
      Writer.Step(w, Ok(()))
    else
      var h := Writer.WriteBitsAsWritten(w, fs[0].value, fs[0].width);
      AllBitCountsCons(fs);
      match h.result
      case Err(e) =>
        Writer.Step(h.writer, Err(e))
      case Ok(_) =>
        WriteFieldsAsWritten(h.writer, fs[1..])
  }

  /**
   * When every field fits the register, the code's writes are the repaired
   * ones, so they append the fields' bits in order.
   */
  lemma {:induction false} WriteFieldsAgree(w: Writer.BitWriter, fs: seq<Field>)
    requires Writer.Inv(w) && w.acc.occupancy < 8
    requires FitsRegister(|Writer.Written(w)|, Widths(fs))
    ensures WriteFieldsAsWritten(w, fs) == WriteFields(w, fs)
    decreases |fs|
  {
    if |fs| > 0 {
      var n := fs[0].width;
      if IsBitCount(n) {
        DivModUnique(|Writer.Written(w)|, 8, |w.sink|, w.acc.occupancy);
        Writer.AsWrittenAgrees(w, fs[0].value, n);
        var h := Writer.WriteBits(w, fs[0].value, n);
        assert Widths(fs)[1..] == Widths(fs[1..]);
        assert |Writer.Written(h.writer)| == |Writer.Written(w)| + n;
        WriteFieldsAgree(h.writer, fs[1..]);
      }
    }
  }

  /** The bytes the code's writer hands its sink for the fields, after `flush`. */
  function EncodeAsWritten(o: ByteOrder, fs: seq<Field>): (bytes: seq<byte>)
    ensures AllBitCounts(fs) && FitsRegister(0, Widths(fs)) ==>
      && bytes == Encode(o, fs)
      && StreamBits(o, bytes) == FieldBits(o, fs) + Zeros(Padding8(Sum(Widths(fs))))
  {
    var w0 := Writer.New(o);
    assert AllBitCounts(fs) && FitsRegister(0, Widths(fs)) ==>
      WriteFieldsAsWritten(w0, fs) == WriteFields(w0, fs) by {
      if AllBitCounts(fs) && FitsRegister(0, Widths(fs)) {
        WriteFieldsAgree(w0, fs);
      }
    }
    Writer.Flush(WriteFieldsAsWritten(w0, fs).writer).writer.sink
  }

  /**
   * The position within its byte of the next bit a reader holding
   * `occupancy` bits delivers, for a reader that started at a byte
   * boundary: the bits still to come are a whole number of bytes plus
   * `occupancy`, so `Phase(occupancy) + occupancy` is a multiple of eight.
   */
  function Phase(occupancy: nat): (p: nat)
    ensures p < 8
  {
    if occupancy % 8 == 0 then 0 else 8 - occupancy % 8
  }

  /**
   * For a valid count, the code's fill reaches n bits exactly when a field
   * of n bits fits the register from the reader's phase.
   */
  lemma PhaseReaches(r: Reader.BitReader, n: nat)
    requires Reader.Inv(r) && IsBitCount(n)
    ensures Reader.FillReaches(r.acc.occupancy, n) <==> Phase(r.acc.occupancy) + n <= WORD_BITS
  {
    Reader.FillReachesExactly(r.acc.occupancy, n);
  }

  /** A read of n bits that pulls k bytes moves the phase n bits on. */
  lemma {:induction false} PhaseStep(a: nat, b: nat, n: nat, k: nat)
    requires b + n == a + 8 * k
    ensures (Phase(a) + n) % 8 == Phase(b)
  {
    DivMod(a, 8);
    DivMod(b, 8);
    var pa, pb := Phase(a), Phase(b);
    assert pa + a % 8 == (if a % 8 == 0 then 0 else 8);
    assert pb + b % 8 == (if b % 8 == 0 then 0 else 8);
    var q := k + a / 8 - b / 8 + (if a % 8 == 0 then 0 else 1) - (if b % 8 == 0 then 0 else 1);
    assert pa + n == q * 8 + pb;
    DivModUnique(pa + n, 8, q, pb);
  }

  /** A successful `read_bits(n)` moves the reader's phase n bits on. */
  lemma ReadMovesPhase(r: Reader.BitReader, n: nat)
    requires Reader.Inv(r) && Reader.ReadDefined(r, n) && Reader.ReadBits(r, n).result.Ok?
    ensures (Phase(r.acc.occupancy) + n) % 8 == Phase(Reader.ReadBits(r, n).reader.acc.occupancy)
  {
    var t := Reader.ReadBits(r, n).reader;
    var k := Reader.BytesToFill(r.acc.occupancy, n);
    assert t.acc.occupancy + n == r.acc.occupancy + 8 * k;
    PhaseStep(r.acc.occupancy, t.acc.occupancy, n, k);
  }

  /** From a start within the first byte, the first field ends inside the register and the rest fit after it. */
  lemma FitsHead(start: nat, widths: seq<nat>)
    requires start < 8 && |widths| > 0 && IsBitCount(widths[0]) && FitsRegister(start, widths)
    ensures start + widths[0] <= WORD_BITS && FitsRegister(start + widths[0], widths[1..])
  {
    DivModUnique(start, 8, 0, start);
  }

  /** After a successful read of n bits, the fields that fit from the old phase plus n fit from the new phase. */
  lemma ReadKeepsFit(r: Reader.BitReader, n: nat, widths: seq<nat>)
    requires Reader.Inv(r) && Reader.ReadDefined(r, n) && Reader.ReadBits(r, n).result.Ok?
    requires FitsRegister(Phase(r.acc.occupancy) + n, widths)
    ensures FitsRegister(Phase(Reader.ReadBits(r, n).reader.acc.occupancy), widths)
  {
    var a := Phase(r.acc.occupancy) + n;
    var p := Phase(Reader.ReadBits(r, n).reader.acc.occupancy);
    ReadMovesPhase(r, n);
    assert p == a % 8;
    FitsFromPhase(a, p, widths);
  }

  /**
   * One step of the code's reads: a field that fits the register is read
   * without underflow and, as the repaired read does, leaves a reader from
   * whose phase the remaining fields fit.
   */
  lemma ReadStep(r: Reader.BitReader, widths: seq<nat>)
    requires Reader.Inv(r) && |widths| > 0 && FitsRegister(Phase(r.acc.occupancy), widths)
    ensures Reader.ReadDefined(r, widths[0])
    ensures Reader.ReadBitsWide(r, widths[0]) == Reader.ReadBits(r, widths[0])
    ensures Reader.ReadBits(r, widths[0]).result.Ok? ==>
      FitsRegister(Phase(Reader.ReadBits(r, widths[0]).reader.acc.occupancy), widths[1..])
  {
    var n := widths[0];
    if IsBitCount(n) {
      FitsHead(Phase(r.acc.occupancy), widths);
      PhaseReaches(r, n);
      if Reader.ReadBits(r, n).result.Ok? {
        ReadKeepsFit(r, n, widths[1..]);
      }
    }
  }

  /** One `read_bits` per width, as the code reads them; the first failure stops the sequence. */
  function ReadFieldsAsWritten(r: Reader.BitReader, widths: seq<nat>): (s: Reader.Step<seq<u64>>)
    requires Reader.Inv(r) && FitsRegister(Phase(r.acc.occupancy), widths)
    ensures Reader.Inv(s.reader) && s.reader.order == r.order
    ensures s == ReadFields(r, widths)
    decreases |widths|
  {
    if |widths| == 0 then
      Reader.Step(r, Ok([]))
    else
      ReadStep(r, widths);
      var h := Reader.ReadBits(r, widths[0]);
      match h.result
      case Err(e) => Reader.Step(h.reader, Err(e))
      case Ok(v) =>
        var t := ReadFieldsAsWritten(h.reader, widths[1..]);
        match t.result
        case Err(e) => Reader.Step(t.reader, Err(e))
        case Ok(vs) => Reader.Step(t.reader, Ok([v] + vs))
  }

  /**
   * Fields that each fit the register from their starting bit, written by
   * the code's writer and flushed, are read back by the code's reader as
   * their values' low bits, whatever the byte order.
   */
  lemma EncodeThenReadAsWritten(o: ByteOrder, fs: seq<Field>)
    requires AllBitCounts(fs) && FitsRegister(0, Widths(fs))
    ensures var r := Reader.New(o, EncodeAsWritten(o, fs));
      && FitsRegister(Phase(r.acc.occupancy), Widths(fs))
      && ReadFieldsAsWritten(r, Widths(fs)).result == Ok(Masked(fs))
  {
    var bytes := EncodeAsWritten(o, fs);
    assert bytes == Encode(o, fs);
    var r := Reader.New(o, bytes);
    assert r.acc.occupancy == 0 && Phase(0) == 0;
    EncodeThenRead(o, fs);
    assert ReadFieldsAsWritten(r, Widths(fs)) == ReadFields(r, Widths(fs));
  }
}

=== FILE: scenarios.dfy ===
/**
 * Concrete writes and reads from the crate's own test suites, derived from
 * the general contracts: each fixes the bytes a sequence of calls produces,
 * or the values a sequence of reads returns.
 */
module Scenarios {
  import opened Word
  import opened BitSeq
  import opened Errors
  import opened RoundTrip
  import Writer
  import Reader

  /** Two four-bit writes under big-endian order fill one byte, the first write in the high half. */
  lemma NibblesBigEndian(fs: seq<Field>)
    requires fs == [Field(0xA, 4), Field(0xC, 4)]
    ensures Encode(BigEndian, fs) == [0xAC]
    ensures EncodeAsWritten(BigEndian, fs) == [0xAC]
  {
    TwoNibbles(fs);
    MsbConcat(0xA, 0xC, 4, 4, 0xAC, 8);
    var e := Encode(BigEndian, fs);
    assert StreamBits(BigEndian, e) == Msb(0xAC, 8);
    StreamBitsOne(BigEndian, 0xAC);
    StreamBitsInjective(BigEndian, e, [0xAC]);
  }

  /** Under little-endian order the first write lands in the low half. */
  lemma NibblesLittleEndian(fs: seq<Field>)
    requires fs == [Field(0xA, 4), Field(0xC, 4)]
    ensures Encode(LittleEndian, fs) == [0xCA]
    ensures EncodeAsWritten(LittleEndian, fs) == [0xCA]
  {
    TwoNibbles(fs);
    LsbConcat(0xA, 0xC, 4, 4, 0xCA, 8);
    var e := Encode(LittleEndian, fs);
    assert StreamBits(LittleEndian, e) == Lsb(0xCA, 8);
    StreamBitsOne(LittleEndian, 0xCA);
    StreamBitsInjective(LittleEndian, e, [0xCA]);
  }

  /** The two nibble fields fill exactly one byte, under either order, and each fits the register. */
  lemma TwoNibbles(fs: seq<Field>)
    requires fs == [Field(0xA, 4), Field(0xC, 4)]
    ensures AllBitCounts(fs) && FitsRegister(0, Widths(fs)) && Padding8(Sum(Widths(fs))) == 0 && Zeros(0) == []
    ensures forall o :: FieldBits(o, fs) == ToBits(o, 0xA, 4) + ToBits(o, 0xC, 4)
  {
    assert Widths(fs) == [4, 4] && [4, 4][1..] == [4] && [4][1..] == [];
    assert fs[1..] == [Field(0xC, 4)] && fs[1..][1..] == [];
  }

  /** Three bits flushed alone are padded with zeros to the low end of the byte. */
  lemma PartialBytePadded(fs: seq<Field>)
    requires fs == [Field(7, 3)]
    ensures Encode(BigEndian, fs) == [0xE0]
    ensures EncodeAsWritten(BigEndian, fs) == [0xE0]
  {
    assert Widths(fs) == [3] && [3][1..] == [] && fs[1..] == [];
    assert FitsRegister(0, Widths(fs));
    assert Sum(Widths(fs)) == 3;
    assert FieldBits(BigEndian, fs) == Msb(7, 3);
    MsbConcat(7, 0, 3, 5, 0xE0, 8);
    MsbOfZero(5);
    var e := Encode(BigEndian, fs);
    assert StreamBits(BigEndian, e) == Msb(0xE0, 8);
    StreamBitsOne(BigEndian, 0xE0);
    StreamBitsInjective(BigEndian, e, [0xE0]);
  }

  /**
   * A whole byte of bits, then three bytes through `write`, then three bits:
   * after `flush` the sink holds the bytes in call order, with the code's
   * `write_bits` as with the repaired one.
   */
  lemma MixedWrites()
    ensures var w1 := Writer.WriteBits(Writer.New(BigEndian), 0xFF, 8).writer;
      var w2 := Writer.Write(w1, [0x11, 0x22, 0x33]).writer;
      var w3 := Writer.WriteBits(w2, 5, 3).writer;
      Writer.Flush(w3).writer.sink == [0xFF, 0x11, 0x22, 0x33, 0xA0]
    ensures var w1 := Writer.WriteBitsAsWritten(Writer.New(BigEndian), 0xFF, 8).writer;
      var w2 := Writer.Write(w1, [0x11, 0x22, 0x33]).writer;
      var w3 := Writer.WriteBitsAsWritten(w2, 5, 3).writer;
      Writer.Flush(w3).writer.sink == [0xFF, 0x11, 0x22, 0x33, 0xA0]
  {
    var w0 := Writer.New(BigEndian);
    Writer.AsWrittenAgrees(w0, 0xFF, 8);
    var w1 := Writer.WriteBits(w0, 0xFF, 8).writer;
    assert Writer.Written(w1) == Msb(0xFF, 8) by {
      assert IsBitCount(8);
      assert Writer.Written(w1) == Writer.Written(w0) + ToBits(BigEndian, 0xFF, 8);
    }
    var mid := StreamBits(BigEndian, [0x11, 0x22, 0x33]);
    var w2 := Writer.Write(w1, [0x11, 0x22, 0x33]).writer;
    assert Writer.Written(w2) == Msb(0xFF, 8) + mid;
    Writer.AsWrittenAgrees(w2, 5, 3);
    var w3 := Writer.WriteBits(w2, 5, 3).writer;
    assert Writer.Written(w3) == Msb(0xFF, 8) + mid + Msb(5, 3) by {
      assert IsBitCount(3);
      assert Writer.Written(w3) == Writer.Written(w2) + ToBits(BigEndian, 5, 3);
    }
    var sink := Writer.Flush(w3).writer.sink;
    assert IsBitCount(3);
    assert w3.order == BigEndian && |Writer.Written(w3)| == 35 && w3.acc.occupancy < 8;
    assert Writer.Inv(w3);
    assert (35 + 5) % 8 == 0;
    FlushPadsTo(w3, 35, 5);
    assert StreamBits(BigEndian, sink) == Msb(0xFF, 8) + mid + Msb(5, 3) + Zeros(5);
    var expected: seq<byte> := [0xFF, 0x11, 0x22, 0x33, 0xA0];
    MixedBytes(expected);
    StreamBitsInjective(BigEndian, sink, expected);
  }

  /** Flushing a writer holding `total` bits pads them with `pad` zeros to a whole byte. */
  lemma FlushPadsTo(w: Writer.BitWriter, total: nat, pad: nat)
    requires Writer.Inv(w) && w.acc.occupancy < 8 && |Writer.Written(w)| == total
    requires pad < 8 && (total + pad) % 8 == 0
    ensures StreamBits(w.order, Writer.Flush(w).writer.sink) == Writer.Written(w) + Zeros(pad)
  {
    DivModUnique(total, 8, |w.sink|, w.acc.occupancy);
    assert Writer.Padding(w.acc.occupancy) == pad;
  }

  /** The bits of the five bytes the mixed writes produce. */
  lemma MixedBytes(expected: seq<byte>)
    requires expected == [0xFF, 0x11, 0x22, 0x33, 0xA0]
    ensures StreamBits(BigEndian, expected) ==
      Msb(0xFF, 8) + StreamBits(BigEndian, [0x11, 0x22, 0x33]) + Msb(5, 3) + Zeros(5)
  {
    var head: seq<byte>, mid: seq<byte>, last: seq<byte> := [0xFF], [0x11, 0x22, 0x33], [0xA0];
    assert head + mid + last == expected;
    StreamBitsAppend(BigEndian, head, mid);
    StreamBitsAppend(BigEndian, head + mid, last);
    StreamBitsOne(BigEndian, 0xFF);
    StreamBitsOne(BigEndian, 0xA0);
    MsbConcat(5, 0, 3, 5, 0xA0, 8);
    MsbOfZero(5);
  }

  /** Three bits, then ten bits reaching across the byte boundary, under big-endian order. */
  lemma CrossByteRead()
    ensures var r0 := Reader.New(BigEndian, [0xCC, 0xAA]);
      Reader.ReadDefined(r0, 3) &&
      var s1 := Reader.ReadBits(r0, 3);
      s1.result == Ok(6) &&
      Reader.ReadDefined(s1.reader, 10) &&
      Reader.ReadBits(s1.reader, 10).result == Ok(405)
  {
    var src: seq<byte> := [0xCC, 0xAA];
    var r0 := Reader.New(BigEndian, src);
    var c := Reader.Content(r0);
    CrossByteBits(src);
    MsbValue(6, 3);
    MsbValue(405, 10);
    assert c[..3] == Msb(6, 3) && c[3..] == Msb(405, 10) + Msb(2, 3);
    assert Value(BigEndian, c[..3]) == 6;
    Reader.ReadDefinedWhenAligned(r0, 3);
    var s1 := Reader.ReadBits(r0, 3);
    assert IsBitCount(3) && |c| == 16;
    assert s1.result.Ok? && s1.result.value == 6;
    var c1 := Reader.Content(s1.reader);
    assert c1 == Msb(405, 10) + Msb(2, 3);
    assert c1[..10] == Msb(405, 10);
    assert Value(BigEndian, c1[..10]) == 405;
    Reader.ReadDefinedWhenAligned(s1.reader, 10);
    var s2 := Reader.ReadBits(s1.reader, 10);
    assert IsBitCount(10) && |c1| == 13;
    assert s2.result.Ok? && s2.result.value == 405;
  }

  /** The sixteen bits of the two bytes, cut where the reads cut them. */
  lemma CrossByteBits(src: seq<byte>)
    requires src == [0xCC, 0xAA]
    ensures StreamBits(BigEndian, src) == Msb(6, 3) + (Msb(405, 10) + Msb(2, 3))
  {
    var a: seq<byte>, b: seq<byte> := [0xCC], [0xAA];
    assert a + b == src;
    StreamBitsAppend(BigEndian, a, b);
    StreamBitsOne(BigEndian, 0xCC);
    StreamBitsOne(BigEndian, 0xAA);
    MsbConcat(0xCC, 0xAA, 8, 8, 0xCCAA, 16);
    MsbConcat(6, 0xCAA, 3, 13, 0xCCAA, 16);
    MsbConcat(405, 2, 10, 3, 0xCAA, 13);
  }

  /** A number below 2^k is what its k bits denote under big-endian order. */
  lemma MsbValue(x: nat, k: nat)
    requires x < Pow2(k)
    ensures Value(BigEndian, Msb(x, k)) == x
  {
    ValMsbOfMsb(x, k);
    SmallMod(x, k);
  }
}

=== FILE: word.dfy ===
/**
 * Unsigned machine words as bounded naturals.
 *
 * The accumulator's register is a Rust `u64`; the bytes moved in and out are
 * `u8`. Both are modelled as subset types of `int`. Of the bit operations the
 * accumulator uses, `|` and `&` are defined on naturals bit by bit, and `<<`,
 * `>>`, `wrapping_shl` and `as u8` by multiplication, division and remainder
 * by powers of two, truncated to 64 or 8 bits; so no meaning is taken on
 * trust. The lemmas here reduce those operations to ordinary arithmetic in the only
 * situations the accumulator needs: an OR of two values whose set bits do not
 * overlap, and an AND with a mask of low ones.
 */
module Word {

  const WORD_BITS: nat := 64
  const U64_LIMIT: nat := 0x1_0000_0000_0000_0000

  type u64 = x: int | 0 <= x < 0x1_0000_0000_0000_0000
  type byte = x: int | 0 <= x < 0x100
  type pos = x: int | x >= 1 witness 1

  /** 2 to the power k. */
  function Pow2(k: nat): pos
  {
    if k == 0 then 1 else 2 * Pow2(k - 1)
  }

  /** Bitwise OR of two naturals, one bit at a time from the least significant. */
  function Or(a: nat, b: nat): nat
    decreases a + b
  {
    if a == 0 then b
    else if b == 0 then a
    else 2 * Or(a / 2, b / 2) + (if a % 2 == 1 || b % 2 == 1 then 1 else 0)
  }

  /** Bitwise AND of two naturals, one bit at a time from the least significant. */
  function And(a: nat, b: nat): nat
    decreases a + b
  {
    if a == 0 || b == 0 then 0
    else 2 * And(a / 2, b / 2) + (if a % 2 == 1 && b % 2 == 1 then 1 else 0)
  }

  /** `x << s` on a `u64` (the shift amount must be below 64, as Rust demands). */
  function Shl(x: u64, s: nat): (r: u64)
    requires s < WORD_BITS
  {
    Pow2Limit();
    (x * Pow2(s)) % Pow2(WORD_BITS)
  }

  /** The bits of x at positions k and up, as a number: `x >> k` without a width. */
  function Above(x: nat, k: nat): nat
  {
    DivNonneg(x, Pow2(k));
    x / Pow2(k)
  }

  /** `x >> s` on a `u64`. */
  function Shr(x: u64, s: nat): (r: u64)
    requires s < WORD_BITS
  {
    DivAtMost(x, Pow2(s));
    Above(x, s)
  }

  /** `x.wrapping_shl(s)`: the shift amount is taken modulo the width. */
  function WrappingShl(x: u64, s: nat): (r: u64)
  {
    Shl(x, s % WORD_BITS)
  }

  /** The mask of n low ones: `(1u64 << n) - 1`, and `u64::MAX` when n == 64. */
  function Mask(n: nat): (r: u64)
    requires n <= WORD_BITS
  {
    Pow2Limit();
    Pow2Mono(n, WORD_BITS);
    if n == WORD_BITS then U64_LIMIT - 1 else Pow2(n) - 1
  }

  /** `x as u8`: keeps the low eight bits. */
  function Truncate8(x: u64): byte
  {
    x % 0x100
  }

  function Min(a: int, b: int): int { if a <= b then a else b }
  function Max(a: int, b: int): int { if a >= b then a else b }

  // ---------------------------------------------------------------------
  // Arithmetic facts
  // ---------------------------------------------------------------------

  lemma {:induction false} Pow2Limit()
    ensures Pow2(8) == 0x100
    ensures Pow2(WORD_BITS) == U64_LIMIT
  {
    assert Pow2(8) == 0x100;
    assert Pow2(16) == 0x1_0000 by { Pow2Add(8, 8, 16); }
    assert Pow2(32) == 0x1_0000_0000 by { Pow2Add(16, 16, 32); }
    Pow2Add(32, 32, 64);
  }

  /** 2^c == 2^a * 2^b for c == a + b (c is passed so that callers can name it). */
  lemma {:induction false} Pow2Add(a: nat, b: nat, c: nat)
    requires a + b == c
    ensures Pow2(c) == Pow2(a) * Pow2(b)
  {
    if a > 0 {
      Pow2Add(a - 1, b, c - 1);
    }
  }

  lemma {:induction false} Pow2Mono(a: nat, b: nat)
    requires a <= b
    ensures Pow2(a) <= Pow2(b)
  {
    Pow2Add(a, b - a, b);
  }

  /** Division with remainder has exactly one quotient and one remainder. */
  lemma {:induction false} DivModUnique(x: int, m: int, q: int, r: int)
    requires m > 0 && 0 <= r < m && x == q * m + r
    ensures x / m == q && x % m == r
  {
    var q', r' := x / m, x % m;
    assert x == q' * m + r';
    if q' < q {
      assert (q - q') * m >= m by { MulAtLeast(q - q', m); }
      assert false;
    } else if q < q' {
      assert (q' - q) * m >= m by { MulAtLeast(q' - q, m); }
      assert false;
    }
  }

  lemma {:induction false} DivNonneg(x: int, d: int)
    requires x >= 0 && d > 0
    ensures x / d >= 0
  {
  }

  lemma {:induction false} DivAtMost(x: int, d: int)
    requires x >= 0 && d > 0
    ensures x / d <= x
  {
    DivMod(x, d);
    DivNonneg(x, d);
    MulLeRight(1, d, x / d);
  }

  /** The defining equation of division, for a divisor Z3 sees as an opaque term. */
  lemma {:induction false} DivMod(x: int, d: int)
    requires d > 0
    ensures x == (x / d) * d + x % d && 0 <= x % d < d
  {
  }

  /** x is its bits from position k up, shifted back, plus its k low bits. */
  lemma {:induction false} AboveSplit(x: nat, k: nat)
    ensures x == Above(x, k) * Pow2(k) + x % Pow2(k) && x % Pow2(k) < Pow2(k)
  {
    DivMod(x, Pow2(k));
  }

  lemma {:induction false} MulLeRight(a: int, b: int, c: int)
    requires a <= b && c >= 0
    ensures a * c <= b * c
  {
  }

  lemma {:induction false} MulNonneg(a: int, b: int)
    requires a >= 0 && b >= 0
    ensures a * b >= 0
  {
  }

  lemma {:induction false} MulAssoc(a: int, b: int, c: int)
    ensures a * (b * c) == (a * b) * c
  {
  }

  lemma {:induction false} MulDistrib(a: int, b: int, c: int)
    ensures (a + b) * c == a * c + b * c
  {
  }

  /** Appending n bits to an m-bit number gives an (m + n)-bit number. */
  lemma {:induction false} Concat(p: nat, v: nat, m: nat, n: nat)
    requires p < Pow2(m) && v < Pow2(n)
    ensures 0 <= p * Pow2(n) + v < Pow2(m + n)
  {
    Pow2Add(m, n, m + n);
    ConcatBound(p, v, Pow2(m), Pow2(n));
  }

  lemma {:induction false} ConcatBound(p: int, v: int, a: int, b: int)
    requires 0 <= p < a && 0 <= v < b
    ensures 0 <= p * b + v < a * b
  {
    MulLeRight(p, a - 1, b);
  }

  lemma {:induction false} MulAtLeast(k: int, m: int)
    requires k >= 1 && m > 0
    ensures k * m >= m
  {
  }

  lemma {:induction false} MulDivExact(x: nat, m: nat)
    requires m > 0
    ensures (x * m) / m == x && (x * m) % m == 0
  {
    DivModUnique(x * m, m, x, 0);
  }

  /** Dividing by a * b is dividing by a, then by b; the remainder splits likewise. */
  lemma {:induction false} DivModMul(x: nat, a: nat, b: nat)
    requires a > 0 && b > 0
    ensures x / (a * b) == (x / a) / b
    ensures x % (a * b) == (x / a) % b * a + x % a
  {
    var y, ra := x / a, x % a;
    var q, s := y / b, y % b;
    Recompose(x, a, b, y, ra, q, s);
    DigitBound(s, ra, a, b);
    DivModUnique(x, a * b, q, s * a + ra);
  }

  lemma {:induction false} Recompose(x: int, a: int, b: int, y: int, ra: int, q: int, s: int)
    requires x == y * a + ra && y == q * b + s
    ensures x == q * (a * b) + (s * a + ra)
  {
    assert y * a == (q * b + s) * a;
    assert (q * b + s) * a == q * (a * b) + s * a;
  }

  lemma {:induction false} DigitBound(s: int, ra: int, a: int, b: int)
    requires 0 <= s < b && 0 <= ra < a
    ensures s * a + ra < a * b
  {
    assert s * a <= (b - 1) * a;
  }

  /** Dividing by 2^(a+b) is dividing by 2^a, then by 2^b. */
  lemma {:induction false} DivPow2Add(x: nat, a: nat, b: nat)
    ensures x / Pow2(a + b) == (x / Pow2(a)) / Pow2(b)
  {
    Pow2Add(a, b, a + b);
    DivModMul(x, Pow2(a), Pow2(b));
  }

  /** A multiple of a larger power of two is a multiple of a smaller one. */
  lemma {:induction false} ModPow2Weaken(x: nat, a: nat, b: nat)
    requires a <= b && x % Pow2(b) == 0
    ensures x % Pow2(a) == 0
  {
    Pow2Add(a, b - a, b);
    DivModMul(x, Pow2(a), Pow2(b - a));
    assert (x / Pow2(a)) % Pow2(b - a) * Pow2(a) >= 0;
  }

  /** Reducing to b bits, then to a <= b bits, is reducing to a bits. */
  lemma {:induction false} ModPow2Mod(x: nat, a: nat, b: nat)
    requires a <= b
    ensures (x % Pow2(b)) % Pow2(a) == x % Pow2(a)
  {
    Pow2Add(a, b - a, b);
    DivModMul(x, Pow2(a), Pow2(b - a));
    DivMod(x, Pow2(a));
    DivNonneg(x, Pow2(a));
    SplitPow2((x / Pow2(a)) % Pow2(b - a), x % Pow2(a), a);
  }

  /** (q * m + r) splits back into q and r. */
  lemma {:induction false} SplitPow2(q: nat, r: nat, k: nat)
    requires r < Pow2(k)
    ensures (q * Pow2(k) + r) / Pow2(k) == q
    ensures (q * Pow2(k) + r) % Pow2(k) == r
  {
    DivModUnique(q * Pow2(k) + r, Pow2(k), q, r);
  }

  lemma {:induction false} MulPow2Bound(x: nat, a: nat, b: nat, c: nat)
    requires x < Pow2(a) && a + b == c
    ensures x * Pow2(b) < Pow2(c)
  {
    Pow2Add(a, b, c);
    MulLeRight(x + 1, Pow2(a), Pow2(b));
  }

  // ---------------------------------------------------------------------
  // Bit operations reduced to arithmetic
  // ---------------------------------------------------------------------

  lemma {:induction false} OrZero(a: nat)
    ensures Or(a, 0) == a && Or(0, a) == a
  {
  }

  /**
   * When the set bits of `a` all lie at or above position k and those of
   * `b` all lie below it, OR is addition.
   */
  lemma {:induction false} OrDisjoint(a: nat, b: nat, k: nat)
    requires a % Pow2(k) == 0 && b < Pow2(k)
    ensures Or(a, b) == a + b && Or(b, a) == a + b
  {
    if a == 0 || b == 0 {
    } else {
      assert k > 0;
      assert a % 2 == 0 by {
        ModPow2Weaken(a, 1, k);
      }
      assert (a / 2) % Pow2(k - 1) == 0 by {
        DivModMul(a, 2, Pow2(k - 1));
      }
      assert b / 2 < Pow2(k - 1);
      OrDisjoint(a / 2, b / 2, k - 1);
      assert Or(a, b) == 2 * (a / 2 + b / 2) + b % 2;
      assert Or(b, a) == 2 * (b / 2 + a / 2) + b % 2;
    }
  }

  /** AND with n low ones keeps the remainder modulo 2^n. */
  lemma {:induction false} AndLowMask(x: nat, n: nat)
    ensures And(x, Pow2(n) - 1) == x % Pow2(n)
  {
    if n == 0 {
      assert Pow2(0) == 1;
    } else if x == 0 {
      DivModUnique(0, Pow2(n), 0, 0);
    } else {
      var m := Pow2(n) - 1;
      assert m > 0 && m / 2 == Pow2(n - 1) - 1 && m % 2 == 1;
      assert And(x, m) == 2 * And(x / 2, m / 2) + x % 2;
      AndLowMask(x / 2, n - 1);
      assert And(x, m) == 2 * ((x / 2) % Pow2(n - 1)) + x % 2;
      DivModMul(x, 2, Pow2(n - 1));
    }
  }

  /** A shift that loses no bits is a multiplication. */
  lemma {:induction false} ShlNoOverflow(x: u64, s: nat, width: nat, c: nat)
    requires s < WORD_BITS && x < Pow2(width) && width + s == c <= WORD_BITS
    ensures Shl(x, s) == x * Pow2(s)
    ensures x * Pow2(s) < Pow2(c)
  {
    MulPow2Bound(x, width, s, c);
    Pow2Mono(c, WORD_BITS);
    MulNonneg(x, Pow2(s));
    SmallMod(x * Pow2(s), WORD_BITS);
  }

  /** A shift that overflows keeps only the bits that stay inside the word. */
  lemma {:induction false} ShlTruncates(x: u64, s: nat)
    requires s < WORD_BITS
    ensures Shl(x, s) == (x % Pow2(WORD_BITS - s)) * Pow2(s)
  {
    var m := WORD_BITS - s;
    DivMod(x, Pow2(m));
    DivNonneg(x, Pow2(m));
    Pow2Add(m, s, WORD_BITS);
    Pow2Limit();
    ScaledRemainder(x, x / Pow2(m), x % Pow2(m), Pow2(m), Pow2(s), Pow2(WORD_BITS));
  }

  /** With x == q * a + r and r < a, x * b leaves r * b modulo a * b. */
  lemma {:induction false} ScaledRemainder(x: int, q: int, r: int, a: int, b: int, p: int)
    requires 0 <= r < a && b > 0 && x == q * a + r && p == a * b
    ensures (x * b) % p == r * b
  {
    MulDistrib(q * a, r, b);
    MulAssoc(q, a, b);
    MulLeRight(r + 1, a, b);
    DivModUnique(x * b, p, q, r * b);
  }

  /** The value of the mask used for n-bit extraction. */
  lemma {:induction false} MaskValue(n: nat)
    requires n <= WORD_BITS
    ensures Mask(n) == Pow2(n) - 1
  {
    Pow2Limit();
  }

  lemma {:induction false} SmallMod(x: nat, k: nat)
    requires x < Pow2(k)
    ensures x % Pow2(k) == x
  {
    DivModUnique(x, Pow2(k), 0, x);
  }

  /** x < 2^(k+m) leaves fewer than m bits above position k. */
  lemma {:induction false} AboveBound(x: nat, k: nat, m: nat)
    requires x < Pow2(k + m)
    ensures Above(x, k) < Pow2(m)
  {
    Pow2Add(k, m, k + m);
    var q := Above(x, k);
    AboveSplit(x, k);
    if q >= Pow2(m) {
      MulLeRight(Pow2(m), q, Pow2(k));
      assert false;
    }
  }
}

=== FILE: writer.dfy ===
/**
 * `BitWriter`: bits written into a byte sink through the accumulator.
 *
 * `write_bits(value, n)` masks the value to its n low bits and inserts them
 * after the pending bits, in one round when they fit in the register and in
 * two when they do not; whenever a round completes a byte, or the last
 * round ends, the whole bytes are drained from the oldest edge of the
 * register into the sink (`write_aligned_bytes_to_inner`). Between calls
 * fewer than eight bits are pending. `flush` writes them out as a final
 * byte padded with zeros (`write_residual_partial_byte_to_inner`), and
 * `write` is the byte passthrough.
 *
 * The writer's abstract state is `Written`: the bits of the bytes already in
 * the sink followed by the pending bits. Every write appends to it.
 */
module Writer {
  import opened Word
  import opened BitSeq
  import opened Accumulator
  import opened Errors

  /** `BitWriter<W>`: the byte order, the accumulator and the bytes the sink has received. */
  datatype BitWriter = BitWriter(order: ByteOrder, acc: Acc, sink: seq<byte>)

  /** The writer after an operation, with what the operation returned. */
  datatype Step<T> = Step(writer: BitWriter, result: Result<T>)

  predicate Inv(w: BitWriter)
  {
    Valid(w.order, w.acc)
  }

  /** Every bit written so far, in order: the bits in the sink, then the pending ones. */
  function Written(w: BitWriter): (bs: seq<bool>)
    requires w.acc.occupancy <= WORD_BITS
    ensures |bs| == 8 * |w.sink| + w.acc.occupancy
  {
    StreamBits(w.order, w.sink) + Pending(w.order, w.acc)
  }

  /** `BitWriter::with_byte_order` over an empty sink. */
  function New(o: ByteOrder): (w: BitWriter)
    ensures Inv(w) && w.order == o && Written(w) == [] && w.acc.occupancy == 0
  {
    EmptyValid(o);
    BitWriter(o, Empty, [])
  }

  /** The zero bits that complete fewer than eight pending bits to a whole byte. */
  function Padding(occ: nat): (z: nat)
    requires occ < 8
    ensures z < 8 && (occ + z == 0 || occ + z == 8)
  {
    if occ == 0 then 0 else 8 - occ
  }

  // ---------------------------------------------------------------------
  // write_aligned_bytes_to_inner
  // ---------------------------------------------------------------------

  /**
   * The drain loop: `count` times, the byte at the oldest edge is emitted
   * and shifted out. The bytes' bits are the oldest pending bits.
   */
  function DrainBytes(o: ByteOrder, a: Acc, count: nat): (r: (Acc, seq<byte>))
    requires Valid(o, a) && 8 * count <= a.occupancy
    ensures Valid(o, r.0) && r.0.occupancy == a.occupancy - 8 * count && |r.1| == count
    ensures StreamBits(o, r.1) + Pending(o, r.0) == Pending(o, a)
    decreases count
  {
    if count == 0 then
      (a, [])
    else
      var b := EdgeByte(o, a);
      var rest := DrainBytes(o, Consume(o, a, 8), count - 1);
      assert StreamBits(o, [b] + rest.1) == ByteBits(o, b) + StreamBits(o, rest.1);
      (rest.0, [b] + rest.1)
  }

  /**
   * `write_aligned_bytes_to_inner`: the occ / 8 whole bytes pending are
   * appended to the sink, oldest first, and fewer than eight bits remain.
   */
  function DrainAligned(w: BitWriter): (r: BitWriter)
    requires Inv(w)
    ensures Inv(r) && r.order == w.order && Written(r) == Written(w)
    ensures r.acc.occupancy < 8 && r.sink[..|w.sink|] == w.sink
    ensures w.acc.occupancy < 8 ==> r == w
    ensures w.acc.occupancy == WORD_BITS ==> r.acc.occupancy == 0
  {
    var count := w.acc.occupancy / 8;
    DivMod(w.acc.occupancy, 8);
    if count == 0 then
      w
    else
      var drained := DrainBytes(w.order, w.acc, count);
      var r := BitWriter(w.order, drained.0, w.sink + drained.1);
      SinkGrows(w, r, drained.1);
      r
  }

  /** Bytes moved from the pending bits to the sink leave what has been written unchanged. */
  lemma {:induction false} SinkGrows(w: BitWriter, r: BitWriter, bytes: seq<byte>)
    requires w.acc.occupancy <= WORD_BITS && r.acc.occupancy <= WORD_BITS
    requires r.order == w.order && r.sink == w.sink + bytes
    requires StreamBits(w.order, bytes) + Pending(w.order, r.acc) == Pending(w.order, w.acc)
    ensures Written(r) == Written(w) && r.sink[..|w.sink|] == w.sink
  {
    StreamBitsAppend(w.order, w.sink, bytes);
    Associate(StreamBits(w.order, w.sink), StreamBits(w.order, bytes), Pending(w.order, r.acc));
  }

  // ---------------------------------------------------------------------
  // write_residual_partial_byte_to_inner, flush
  // ---------------------------------------------------------------------

  /**
   * `write_residual_partial_byte_to_inner`: with 1 to 7 bits pending, one
   * byte holding them at its oldest edge and zeros elsewhere goes to the
   * sink and the accumulator is cleared; otherwise nothing happens.
   */
  function WriteResidual(w: BitWriter): (r: BitWriter)
    requires Inv(w)
    ensures Inv(r) && r.order == w.order
    ensures 0 < w.acc.occupancy < 8 ==>
      && r.acc == Empty
      && |r.sink| == |w.sink| + 1 && r.sink[..|w.sink|] == w.sink
      && StreamBits(w.order, r.sink) == Written(w) + Zeros(Padding(w.acc.occupancy))
    ensures !(0 < w.acc.occupancy < 8) ==> r == w
  {
    if 0 < w.acc.occupancy < 8 then
      var b := EdgeByte(w.order, w.acc);
      EmptyValid(w.order);
      StreamBitsAppend(w.order, w.sink, [b]);
      StreamBitsOne(w.order, b);
      assert (w.sink + [b])[..|w.sink|] == w.sink;
      BitWriter(w.order, Empty, w.sink + [b])
    else
      w
  }

  /**
   * `Write::flush`: the residual byte, then the sink's own flush (which the
   * model does not need). With fewer than eight bits pending, afterwards
   * the sink holds everything written, padded with zeros to a whole byte.
   */
  function Flush(w: BitWriter): (s: Step<()>)
    requires Inv(w)
    ensures Inv(s.writer) && s.writer.order == w.order && s.result.Ok?
    ensures w.acc.occupancy < 8 ==>
      && s.writer.acc == Empty
      && StreamBits(w.order, s.writer.sink) == Written(w) + Zeros(Padding(w.acc.occupancy))
      && |s.writer.sink| == |w.sink| + (if w.acc.occupancy == 0 then 0 else 1)
  {
    NothingPendingFlushed(w);
    Step(WriteResidual(w), Ok(()))
  }

  lemma NothingPendingFlushed(w: BitWriter)
    requires Inv(w)
    ensures w.acc.occupancy == 0 ==> w.acc == Empty && Written(w) + Zeros(0) == StreamBits(w.order, w.sink)
  {
    if w.acc.occupancy == 0 {
      NothingOccupied(w.order, w.acc);
      EmptyValid(w.order);
      assert Zeros(0) == [];
    }
  }

  // ---------------------------------------------------------------------
  // write_bits
  // ---------------------------------------------------------------------

  /**
   * How a value that does not fit in one round is cut in two. The code
   * always inserts the high part first (`val >> insert_at_next_round`),
   * which is the stream order under big-endian order only; the stream
   * order under little-endian order inserts the low part first.
   */
  datatype SplitRule = HighPartFirst | StreamOrder

  /**
   * The part of val inserted in this round (k bits) and the part left for
   * the next round (next bits).
   */
  function SplitValue(o: ByteOrder, rule: SplitRule, val: u64, k: nat, next: nat): (parts: (u64, u64))
    requires 1 <= k && k + next <= WORD_BITS && val < Pow2(k + next)
    ensures parts.0 < Pow2(k) && (next > 0 ==> parts.1 < Pow2(next))
    ensures next == 0 ==> parts.0 == val
  {
    SplitFacts(o, val, k, next);
    if rule == HighPartFirst || o.BigEndian? then
      (Shr(val, next), if next > 0 then And(val, Mask(next)) else val)
    else
      (And(val, Mask(k)), if next > 0 then Shr(val, k) else 0)
  }

  /**
   * The bits of the two parts, in turn: the stream's bits under the stream
   * order, and the high part's bits before the low part's under the code's
   * rule with little-endian order.
   */
  lemma SplitValueBits(o: ByteOrder, rule: SplitRule, val: u64, k: nat, next: nat)
    requires 1 <= k && 0 < next && k + next <= WORD_BITS && val < Pow2(k + next)
    ensures var parts := SplitValue(o, rule, val, k, next);
      && (rule == StreamOrder || o.BigEndian? ==>
            ToBits(o, parts.0, k) + ToBits(o, parts.1, next) == ToBits(o, val, k + next))
      && (rule == HighPartFirst && o.LittleEndian? ==>
            ToBits(o, parts.0, k) + ToBits(o, parts.1, next) ==
            ToBits(o, Above(val, next), k) + ToBits(o, val % Pow2(next), next))
  {
    SplitFacts(o, val, k, next);
  }

  lemma {:induction false} SplitFacts(o: ByteOrder, val: u64, k: nat, next: nat)
    requires 1 <= k && k + next <= WORD_BITS && val < Pow2(k + next)
    ensures Shr(val, next) == Above(val, next) < Pow2(k)
    ensures And(val, Mask(next)) == val % Pow2(next) < Pow2(next)
    ensures And(val, Mask(k)) == val % Pow2(k) < Pow2(k)
    ensures next > 0 ==> Shr(val, k) == Above(val, k) < Pow2(next)
    ensures next == 0 ==> Shr(val, next) == And(val, Mask(k)) == val
    ensures o.BigEndian? ==> ToBits(o, val, k + next) == ToBits(o, Above(val, next), k) + ToBits(o, val % Pow2(next), next)
    ensures o.LittleEndian? ==> ToBits(o, val, k + next) == ToBits(o, val % Pow2(k), k) + ToBits(o, Above(val, k), next)
  {
    AboveBound(val, next, k);
    assert next + k == k + next;
    LowMaskBound(val, next);
    LowMaskBound(val, k);
    DivMod(val, Pow2(next));
    DivMod(val, Pow2(k));
    AboveBound(val, k, next);
    ToBitsSplit(o, val, k, next);
    if next == 0 {
      SmallMod(val, k);
    }
  }

  /**
   * One round of the insertion loop: k bits go in after the pending ones
   * (`bits_buffer |= part << shift`), then whole bytes are drained if a byte
   * is complete or this is the last round.
   */
  function InsertRound(w: BitWriter, part: u64, k: nat, last: bool): (r: BitWriter)
    requires Inv(w) && 1 <= k && w.acc.occupancy + k <= WORD_BITS && part < Pow2(k)
    ensures Inv(r) && r.order == w.order
    ensures Written(r) == Written(w) + ToBits(w.order, part, k)
    ensures if w.acc.occupancy + k >= 8 || last then r.acc.occupancy < 8 else r.acc.occupancy == w.acc.occupancy + k
    ensures w.acc.occupancy + k == WORD_BITS ==> r.acc.occupancy == 0
  {
    var filled := w.(acc := Insert(w.order, w.acc, part, k));
    PendingGrows(w, filled, ToBits(w.order, part, k));
    if filled.acc.occupancy >= 8 || last then DrainAligned(filled) else filled
  }

  /** Bits added to the pending ones are added to what has been written. */
  lemma PendingGrows(w: BitWriter, w': BitWriter, bits: seq<bool>)
    requires w.acc.occupancy <= WORD_BITS && w'.acc.occupancy <= WORD_BITS && w'.order == w.order && w'.sink == w.sink
    requires Pending(w.order, w'.acc) == Pending(w.order, w.acc) + bits
    ensures Written(w') == Written(w) + bits
  {
    Associate(StreamBits(w.order, w.sink), Pending(w.order, w.acc), bits);
  }

  /** The bits the insertion loop appends, under the given split rule. */
  function InsertedBits(o: ByteOrder, rule: SplitRule, occ: nat, val: u64, remaining: nat): (bs: seq<bool>)
    requires occ < WORD_BITS && 1 <= remaining <= WORD_BITS
    ensures |bs| == remaining
  {
    var k := Min(remaining, WORD_BITS - occ);
    var next := remaining - k;
    if next > 0 && rule == HighPartFirst && o.LittleEndian? then
      ToBits(o, Above(val, next), k) + ToBits(o, val % Pow2(next), next)
    else
      ToBits(o, val, remaining)
  }

  /**
   * The insertion loop of `write_bits` for the `remaining` low bits of val.
   * Each round inserts as many bits as the register has room for, and only
   * a round that fills the register leaves bits for another round. That
   * round drains the full register, so the next one has room for all the
   * bits left (fewer than 64) and is the last: the loop runs at most twice.
   * The round that takes all the remaining bits inserts val itself
   * (`val >> 0`).
   */
  function InsertRounds(w: BitWriter, rule: SplitRule, val: u64, remaining: nat): (r: BitWriter)
    requires Inv(w) && w.acc.occupancy < WORD_BITS
    requires 1 <= remaining <= WORD_BITS && val < Pow2(remaining)
    ensures Inv(r) && r.order == w.order && r.acc.occupancy < 8
    ensures Written(r) == Written(w) + InsertedBits(w.order, rule, w.acc.occupancy, val, remaining)
  {
    var available := WORD_BITS - w.acc.occupancy;
    if remaining <= available then
      LastRound(w, rule, val, remaining)
    else
      SpillRounds(w, rule, val, available, remaining - available, remaining)
  }

  /** The bits fit in the register: one round inserts all of them. */
  function LastRound(w: BitWriter, rule: SplitRule, val: u64, remaining: nat): (r: BitWriter)
    requires Inv(w) && 1 <= remaining && w.acc.occupancy + remaining <= WORD_BITS && val < Pow2(remaining)
    ensures Inv(r) && r.order == w.order && r.acc.occupancy < 8
    ensures Written(r) == Written(w) + InsertedBits(w.order, rule, w.acc.occupancy, val, remaining)
  {
    StreamOrderSplit(w.order, rule, w.acc.occupancy, val, remaining);
    InsertRound(w, val, remaining, true)
  }

  /**
   * The bits do not fit: a first round fills the k free bits of the
   * register with one part of val, and a second round inserts the other
   * `next` bits.
   */
  function SpillRounds(w: BitWriter, rule: SplitRule, val: u64, k: nat, next: nat, remaining: nat): (r: BitWriter)
    requires Inv(w) && w.acc.occupancy + k == WORD_BITS && 1 <= k && 1 <= next
    requires k + next == remaining <= WORD_BITS && val < Pow2(remaining)
    ensures Inv(r) && r.order == w.order && r.acc.occupancy < 8
    ensures Written(r) == Written(w) + InsertedBits(w.order, rule, w.acc.occupancy, val, remaining)
  {
    var parts := SplitValue(w.order, rule, val, k, next);
    var w1 := InsertRound(w, parts.0, k, false);
    var r := InsertRound(w1, parts.1, next, true);
    InsertedSplit(w.order, rule, w.acc.occupancy, val, k, next, remaining);
    RoundsCompose(Written(w), ToBits(w.order, parts.0, k), ToBits(w.order, parts.1, next), Written(w1), Written(r));
    r
  }

  /** When the bits do not fit, the loop's bits are the first part's, then the second part's. */
  lemma InsertedSplit(o: ByteOrder, rule: SplitRule, occ: nat, val: u64, k: nat, next: nat, remaining: nat)
    requires occ + k == WORD_BITS && 1 <= k && 1 <= next
    requires k + next == remaining <= WORD_BITS && val < Pow2(remaining)
    ensures var parts := SplitValue(o, rule, val, k, next);
      InsertedBits(o, rule, occ, val, remaining) == ToBits(o, parts.0, k) + ToBits(o, parts.1, next)
  {
    SplitValueBits(o, rule, val, k, next);
    if rule == HighPartFirst && o.LittleEndian? {
      HighPartFirstSplit(occ, val, k, next, remaining);
    } else {
      StreamOrderSplit(o, rule, occ, val, remaining);
    }
  }

  lemma HighPartFirstSplit(occ: nat, val: u64, k: nat, next: nat, remaining: nat)
    requires occ + k == WORD_BITS && 1 <= k && 1 <= next && k + next == remaining <= WORD_BITS
    ensures InsertedBits(LittleEndian, HighPartFirst, occ, val, remaining) ==
      ToBits(LittleEndian, Above(val, next), k) + ToBits(LittleEndian, val % Pow2(next), next)
  {
  }

  lemma StreamOrderSplit(o: ByteOrder, rule: SplitRule, occ: nat, val: u64, remaining: nat)
    requires occ < WORD_BITS && 1 <= remaining <= WORD_BITS
    requires rule == StreamOrder || o.BigEndian? || remaining <= WORD_BITS - occ
    ensures InsertedBits(o, rule, occ, val, remaining) == ToBits(o, val, remaining)
  {
  }

  /** Two appends in turn are one append of both. */
  lemma RoundsCompose(before: seq<bool>, first: seq<bool>, second: seq<bool>, middle: seq<bool>, after: seq<bool>)
    requires middle == before + first && after == middle + second
    ensures after == before + (first + second)
  {
  }

  /**
   * `write_bits(value, n)`: the n low bits of value are appended to what has
   * been written, in the writer's order, and fewer than eight bits are left
   * pending. (The little-endian split is repaired here; see
   * `WriteBitsAsWritten` for the code as it stands.)
   */
  function WriteBits(w: BitWriter, value: u64, n: nat): (s: Step<()>)
    requires Inv(w) && w.acc.occupancy < WORD_BITS
    ensures Inv(s.writer) && s.writer.order == w.order
    ensures !IsBitCount(n) ==> s == Step(w, Err(InvalidBitCount(n)))
    ensures IsBitCount(n) ==>
      && s.result.Ok?
      && Written(s.writer) == Written(w) + ToBits(w.order, value, n)
      && s.writer.acc.occupancy < 8
  {
    match CheckBitCount(n)
    case Err(e) => Step(w, Err(e))
    case Ok(_) =>
      var val := And(value, Mask(n));
      LowMaskBound(value, n);
      StreamOrderBits(w.order, w.acc.occupancy, value, n);
      Step(InsertRounds(w, StreamOrder, val, n), Ok(()))
  }

  /**
   * `write_bits` exactly as the code stands: when the bits do not fit,
   * the high part goes in first under both orders.
   */
  function WriteBitsAsWritten(w: BitWriter, value: u64, n: nat): (s: Step<()>)
    requires Inv(w) && w.acc.occupancy < WORD_BITS
    ensures Inv(s.writer) && s.writer.order == w.order
    ensures !IsBitCount(n) ==> s == Step(w, Err(InvalidBitCount(n)))
    ensures IsBitCount(n) ==> s.result.Ok? && s.writer.acc.occupancy < 8
  {
    match CheckBitCount(n)
    case Err(e) => Step(w, Err(e))
    case Ok(_) =>
      var val := And(value, Mask(n));
      LowMaskBound(value, n);
      Step(InsertRounds(w, HighPartFirst, val, n), Ok(()))
  }

  /**
   * What the code appends: the n low bits of value when they fit or under
   * big-endian order; under little-endian order, when they do not fit, the
   * high part's bits come before the low part's.
   */
  lemma AsWrittenBits(w: BitWriter, value: u64, n: nat)
    requires Inv(w) && w.acc.occupancy < WORD_BITS && IsBitCount(n)
    ensures w.order.BigEndian? || w.acc.occupancy + n <= WORD_BITS ==>
      Written(WriteBitsAsWritten(w, value, n).writer) == Written(w) + ToBits(w.order, value, n)
    ensures w.order.LittleEndian? && w.acc.occupancy + n > WORD_BITS ==>
      var k := WORD_BITS - w.acc.occupancy;
      var next := n - k;
      Written(WriteBitsAsWritten(w, value, n).writer) ==
      Written(w) + (ToBits(w.order, Above(value % Pow2(n), next), k) + ToBits(w.order, value, next))
  {
    var val := And(value, Mask(n));
    LowMaskBound(value, n);
    AsWrittenRounds(w, value, n);
    var r := InsertRounds(w, HighPartFirst, val, n);
    assert Written(WriteBitsAsWritten(w, value, n).writer) ==
      Written(w) + InsertedBits(w.order, HighPartFirst, w.acc.occupancy, val, n);
    HighPartFirstBits(w.order, w.acc.occupancy, value, n);
  }

  /** A valid count makes the code's `write_bits` its insertion loop over the masked value. */
  lemma AsWrittenRounds(w: BitWriter, value: u64, n: nat)
    requires Inv(w) && w.acc.occupancy < WORD_BITS && IsBitCount(n)
    ensures && And(value, Mask(n)) < Pow2(n) && And(value, Mask(n)) < U64_LIMIT
            && WriteBitsAsWritten(w, value, n).writer == InsertRounds(w, HighPartFirst, And(value, Mask(n)), n)
  {
    LowMaskBound(value, n);
  }

  /** Under the stream order the loop appends the value's bits, whatever the split. */
  lemma StreamOrderBits(o: ByteOrder, occ: nat, value: u64, n: nat)
    requires occ < WORD_BITS && IsBitCount(n)
    ensures value % Pow2(n) < U64_LIMIT
    ensures InsertedBits(o, StreamOrder, occ, value % Pow2(n), n) == ToBits(o, value, n)
  {
    LowMaskBound(value, n);
    ToBitsMod(o, value, n);
  }

  /** What the code's split appends, in terms of the value written. */
  lemma {:induction false} HighPartFirstBits(o: ByteOrder, occ: nat, value: u64, n: nat)
    requires occ < WORD_BITS && IsBitCount(n)
    ensures value % Pow2(n) < U64_LIMIT
    ensures o.BigEndian? || occ + n <= WORD_BITS ==>
      InsertedBits(o, HighPartFirst, occ, value % Pow2(n), n) == ToBits(o, value, n)
    ensures o.LittleEndian? && occ + n > WORD_BITS ==>
      var k := WORD_BITS - occ;
      var next := n - k;
      InsertedBits(o, HighPartFirst, occ, value % Pow2(n), n) ==
      ToBits(o, Above(value % Pow2(n), next), k) + ToBits(o, value, next)
  {
    LowMaskBound(value, n);
    ToBitsMod(o, value, n);
    if o.LittleEndian? && occ + n > WORD_BITS {
      var next := n - (WORD_BITS - occ);
      ModPow2Mod(value, next, n);
      ToBitsMod(o, value, next);
    }
  }

  // ---------------------------------------------------------------------
  // write
  // ---------------------------------------------------------------------

  /**
   * The slow path of `write`: every byte goes through the code's
   * `write_bits(b, 8)`, which never splits, as fewer than 8 bits are pending.
   */
  function WriteEach(w: BitWriter, buf: seq<byte>): (r: BitWriter)
    requires Inv(w) && w.acc.occupancy < 8
    ensures Inv(r) && r.order == w.order && r.acc.occupancy < 8
    ensures Written(r) == Written(w) + StreamBits(w.order, buf)
    decreases |buf|
  {
    if |buf| == 0 then
      w
    else
      var w1 := WriteBitsAsWritten(w, buf[0], 8).writer;
      AsWrittenAgrees(w, buf[0], 8);
      var r := WriteEach(w1, buf[1..]);
      RoundsCompose(Written(w), ByteBits(w.order, buf[0]), StreamBits(w.order, buf[1..]), Written(w1), Written(r));
      r
  }

  /**
   * `Write::write(buf)`: whole pending bytes are drained; then, if no bits
   * are left pending, buf goes to the sink as it is, and otherwise byte by
   * byte through the accumulator. Either way buf's bits are appended and
   * the whole length is reported.
   */
  function Write(w: BitWriter, buf: seq<byte>): (s: Step<nat>)
    requires Inv(w)
    ensures Inv(s.writer) && s.writer.order == w.order
    ensures s.result == Ok(|buf|)
    ensures Written(s.writer) == Written(w) + StreamBits(w.order, buf)
    ensures s.writer.acc.occupancy < 8
    ensures DrainAligned(w).acc.occupancy == 0 ==> s.writer.sink == DrainAligned(w).sink + buf
  {
    var d := DrainAligned(w);
    if d.acc.occupancy == 0 then
      NothingOccupied(w.order, d.acc);
      EmptyValid(w.order);
      StreamBitsAppend(w.order, d.sink, buf);
      Step(d.(sink := d.sink + buf), Ok(|buf|))
    else
      Step(WriteEach(d, buf), Ok(|buf|))
  }

  // ---------------------------------------------------------------------
  // Properties relating the operations
  // ---------------------------------------------------------------------

  /**
   * A writer with fewer than eight bits pending is determined by its order
   * and what has been written to it.
   */
  lemma {:induction false} WrittenDetermines(w: BitWriter, v: BitWriter)
    requires Inv(w) && Inv(v) && w.order == v.order && w.acc.occupancy < 8 && v.acc.occupancy < 8
    requires Written(w) == Written(v)
    ensures w == v
  {
    var o := w.order;
    DivModUnique(|Written(w)|, 8, |w.sink|, w.acc.occupancy);
    DivModUnique(|Written(v)|, 8, |v.sink|, v.acc.occupancy);
    var k := 8 * |w.sink|;
    assert StreamBits(o, w.sink) == Written(w)[..k] == StreamBits(o, v.sink);
    assert Pending(o, w.acc) == Written(w)[k..] == Pending(o, v.acc);
    StreamBitsInjective(o, w.sink, v.sink);
    PendingDetermines(o, w.acc, v.acc);
  }

  /** `write_bits(value, n)` looks at the n low bits of value only. */
  lemma WriteBitsLowBits(w: BitWriter, value: u64, other: u64, n: nat)
    requires Inv(w) && w.acc.occupancy < WORD_BITS
    requires value % Pow2(n) == other % Pow2(n)
    ensures WriteBits(w, value, n) == WriteBits(w, other, n)
  {
    if IsBitCount(n) {
      ToBitsMod(w.order, value, n);
      ToBitsMod(w.order, other, n);
      WrittenDetermines(WriteBits(w, value, n).writer, WriteBits(w, other, n).writer);
    }
  }

  /**
   * Under big-endian order, and whenever the value fits in the register,
   * `write_bits` as written is the corrected `write_bits`.
   */
  lemma AsWrittenAgrees(w: BitWriter, value: u64, n: nat)
    requires Inv(w) && w.acc.occupancy < WORD_BITS
    requires w.order.BigEndian? || w.acc.occupancy + n <= WORD_BITS
    ensures WriteBitsAsWritten(w, value, n) == WriteBits(w, value, n)
  {
    if IsBitCount(n) {
      AsWrittenBits(w, value, n);
      WrittenDetermines(WriteBitsAsWritten(w, value, n).writer, WriteBits(w, value, n).writer);
    }
  }

  /**
   * Under little-endian order, with 1 to 7 bits pending, `write_bits(1, 64)`
   * as written emits a zero where the stream has the value's lowest bit, a
   * one: the high part of the split value goes first.
   */
  lemma LittleEndianSplitMisorders(w: BitWriter)
    requires Inv(w) && w.order == LittleEndian && 0 < w.acc.occupancy < 8
    ensures var p := |Written(w)|;
      var asWritten := WriteBitsAsWritten(w, 1, 64).writer;
      var corrected := WriteBits(w, 1, 64).writer;
      && |Written(asWritten)| > p && !Written(asWritten)[p]
      && |Written(corrected)| > p && Written(corrected)[p]
      && asWritten != corrected
  {
    var occ := w.acc.occupancy;
    AsWrittenBits(w, 1, 64);
    SplitOfOne(occ);
    var high := ToBits(LittleEndian, Above(1 % Pow2(WORD_BITS), occ), WORD_BITS - occ);
    FirstOfAppended(Written(w), high, ToBits(LittleEndian, 1, occ));
    FirstOfAppended(Written(w), ToBits(LittleEndian, 1, WORD_BITS), []);
  }

  /** The split of the value 1 when occ bits are pending: a zero high part, and a one first under the stream order. */
  lemma SplitOfOne(occ: nat)
    requires 0 < occ < WORD_BITS
    ensures Above(1 % Pow2(WORD_BITS), occ) == 0
    ensures !ToBits(LittleEndian, 0, WORD_BITS - occ)[0]
    ensures ToBits(LittleEndian, 1, WORD_BITS)[0]
  {
    Pow2Limit();
    assert Pow2(occ) == 2 * Pow2(occ - 1);
  }

  /** The bit just after a prefix is the first bit of what follows it. */
  lemma FirstOfAppended(a: seq<bool>, b: seq<bool>, c: seq<bool>)
    requires |b| > 0
    ensures |a + (b + c)| > |a| && (a + (b + c))[|a|] == b[0]
  {
  }
}
